=== FILE: README.md ===
# Nghien-Social rules in Dafny

This project models the small self-contained rules inside the Nghien-Social
backend (Express and MySQL) and its React client. Each rule is a pure
function over immutable data, and the project proves properties about them.

- **Reactions.** The reaction tables are a sequence of rows. The
  `likePost`/`dislikePost`/`likeComment`/`dislikeComment` transactions are
  one atomic function each:
  - no row inserts one;
  - a row of the same polarity is deleted;
  - a row of the other polarity is flipped in place.
  A failing statement rolls the transaction back. The count columns of
  `getPostAndReaction`, `findOnePostBySlug` and `findCommentByPostId` are
  modelled down to the `LEFT JOIN`/`GROUP BY`/`JSON_ARRAYAGG` shapes.
  `Reactions.View` is the map from (user, target) to polarity that the rows
  stand for, and the toggle refines a three-way update of that map.
- **Comments.** `create` (with its `|| null`), `findById`, `update`,
  `deleteById`. The comment handlers' 404/403/400 guards.
- **Comment threads.**
  - The server's two-pass, id-indexed tree builder (`CommentTree.BuildServer`, a method with loops).
  - The client's recursive builder (`CommentTree.Build`).
  - A lemma that the two produce the same tree on distinct ids with acyclic parent links.
- **Comment list on the client.** Reaction counts and the user's reaction as
  read from the server's aggregate, the optimistic vote state, filter,
  stable sort, paging, and the collapse/hide toggles.
- **Users.** `findOne`, `create`, `toggleSetAdmin`, `save`, and the follow
  table as a relation of pairs.
- **One-time codes.** Expiry, the sweep, the three-active-codes limit, and
  the check that consumes a code. The clock is an integer parameter.
- **Post lock.** The encryption on/off handlers as a two-state machine.
  AES is given as function parameters: encryption always yields a text, and
  decryption may fail. `CryptoUtils.decrypt` also turns an empty plaintext
  into "Decryption failed", and the model keeps that failure.
- **Pagination** middleware arithmetic.
- **Redux slices.** `responsiveSlice` and `userSlice`.
- **Account forms.** Register, sign-in and password reset:
  - field rules, where the first failing rule is the error, with the regular
    expressions written as predicates;
  - the request gate;
  - the error messages;
  - the digit-only code input;
  - the countdowns and their clock format;
  - the three-step reset flow.
- **Token cookie.** Finding the `authToken` entry, and the three-part check
  of the JWS compact serialisation (section 7.1 of RFC 7515). The payload is
  mapped from the base64url alphabet (section 5 of RFC 4648) to base64 with
  `=` padding (section 4 of RFC 4648). The id and name fall back through
  the claims.
- **Locked-post prompt.** The attempt counter and error flag.

Strings are `seq<char>`. JavaScript `trim` and the regular-expression class
`\s` are modelled with the ECMAScript white-space and line-terminator set
(`Text.IsSpace`), which is what the code calls. `.` in a pattern does not
match a line terminator (`Register.SameLine`).

## Model

| member | source | states |
|---|---|---|
| Reactions.Toggle | backend/models/Posts.ts:402-446 | Three-way decision on the (user, target) lookup: no row inserts one with the next id and reports "liked"/"disliked"; a row of the desired polarity is deleted ("unliked"/"undisliked"); another polarity is flipped in place with the stamp and no row is added |
| Reactions.ToggleFrame | backend/models/Posts.ts:412-446 | Rows of every other (user, target) pair are unchanged, in order |
| Reactions.ToggleKeepsUnique | backend/models/Posts.ts:402-446 | At most one row per (user, target) is preserved, because insertion only happens when the lookup is empty |
| Reactions.ToggleRefinesMap | backend/models/Posts.ts:412-446 | On unique rows, the map the rows stand for changes exactly as the three-way map update says, and the action labels agree |
| Reactions.ToggleAffectsOneRow | backend/models/Posts.ts:448-454 | The reported affected-row count is 1 in every branch on unique rows |
| Reactions.ToggleCounts | backend/models/Posts.ts:412-446 | The like and dislike counts of the target move by exactly the delta of the branch taken; other targets' counts are unchanged |
| Reactions.ToggleTwiceRemoves | backend/models/Comments.ts:197-232 | From no reaction, reacting twice the same way leaves no row and a third time re-inserts one |
| Reactions.CountAllSplits | backend/models/Comments.ts:117-119 | Every reaction row of a target is a like or a dislike: the two counts add up to the row count |
| Posts.React | backend/models/Posts.ts:395-462 | A fault rolls the table back and reports an error; otherwise the outcome is the toggle's |
| Posts.LikePost | backend/models/Posts.ts:395-462 | `likePost` is the transaction with desired polarity like, with rollback on failure |
| Posts.DislikePost | backend/models/Posts.ts:464-531 | `dislikePost` is the mirror image, with rollback on failure |
| Posts.ReactKeepsUnique | backend/models/Posts.ts:402-446 | Both transactions keep at most one row per (user, post), success or failure |
| Posts.IsUserReactThisPost | backend/models/Posts.ts:96-105 | The viewer's reaction is the map entry of (viewer, post), or null without one |
| Posts.SlugTotals | backend/models/Posts.ts:141-172 | The join's like and dislike columns are the numbers of rows of each polarity for the post |
| Posts.MaxSecond | backend/models/Posts.ts:300 | `MAX` over the viewer column is 1 when some joined row is a like, 0 when only dislikes appear, NULL when none |
| Posts.PostAndReactionCounts | backend/models/Posts.ts:298-304 | The double join multiplies each count by the number of viewer rows (at least one) |
| Posts.PostAndReactionViewer | backend/models/Posts.ts:300-304 | The viewer column is NULL exactly when the viewer has no row for the post |
| Posts.PostAndReactionUnique | backend/models/Posts.ts:282-317 | On unique rows, total likes and dislikes are the post's counts and the user reaction is the viewer's stored polarity |
| Comments.OrNull | backend/models/Comments.ts:61-64 | `x \|\| null`: 0 and a missing value become NULL, anything else is kept |
| Comments.FindById | backend/models/Comments.ts:48-52 | The comment with the id, or nothing exactly when no comment has it |
| Comments.Create | backend/models/Comments.ts:54-77 | Appends one comment with the next id, falsy parent and post ids stored as NULL, and returns that id |
| Comments.CreateFound | backend/models/Comments.ts:54-77 | Creation keeps ids unique, and finding the returned id gives the new comment |
| Comments.DeleteById | backend/models/Comments.ts:154-158 | Exactly the comment with the id is removed; its replies and all other comments stay |
| Comments.DeleteAppend | backend/models/Comments.ts:154-158 | The delete distributes over concatenation, and one comment is dropped exactly when it has the id: the survivors keep their order |
| Comments.Update | backend/models/Comments.ts:79-97 | Sets content and update time of the comment with the id, and nothing else; an empty content is an SQL error |
| Comments.UpdateFound | backend/models/Comments.ts:79-97 | After an update the comment is found with the new content |
| Comments.React | backend/models/Comments.ts:168-248 | A missing comment or a failing statement rolls back; otherwise the toggle runs with the comment's post id recorded on an inserted row |
| Comments.LikeComment | backend/models/Comments.ts:168-248 | `likeComment` as the transaction with desired polarity like |
| Comments.DislikeComment | backend/models/Comments.ts:250-330 | `dislikeComment` as the transaction with desired polarity dislike |
| Comments.Entries | backend/models/Comments.ts:122-136 | One JSON entry per reaction row of the comment, each with value 1 or 0 |
| Comments.CommentAggregate | backend/models/Comments.ts:117-136 | `reaction_count`, `likes` and `dislikes` are the comment's row counts, and the array is `[null]` when there are none |
| Comments.EntriesSum | backend/models/Comments.ts:118-119 | The `SUM(CASE ...)` over the entries equals the row count of each polarity |
| Comments.SelectedMembers | backend/models/Comments.ts:138-142 | A view is selected exactly for a comment of the post whose author is among the users (the `INNER JOIN users`), with that comment's aggregate |
| Comments.SelectedAppend | backend/models/Comments.ts:138-142 | Selection distributes over concatenation: a comment contributes its one view exactly when it is listed |
| Comments.FindCommentByPostId | backend/models/Comments.ts:99-152 | The same views as the selection, each exactly once, newest first (`ORDER BY c.created_at DESC`); a view appears exactly for a listed comment with its aggregate |
| CommentController.ReactHandler | backend/controllers/commentController.ts:187-257 | 404 for a missing comment; 400 for one's own comment before any toggle; 400 without a user id; otherwise the transaction's result |
| CommentController.EditHandler | backend/controllers/commentController.ts:65-101 | 404 when missing, then 403 for anyone but the owner, then 400 for an empty body, none of which change the store; otherwise the owner's comment is found with the new content |
| CommentController.DeleteHandler | backend/controllers/commentController.ts:157-185 | 204 exactly when the comment exists and the requester owns it, then only it is removed; 404/403 leave the store unchanged |
| CommentTree.Children | front-end/src/utils/commentUtils.ts:5-6 | The filtered items all have the parent and come from the input, never more than the input |
| CommentTree.ChildrenMember | front-end/src/utils/commentUtils.ts:5-6 | An item is among the children of `p` exactly when it is in the input with parent `p` |
| CommentTree.Build | front-end/src/utils/commentUtils.ts:1-15 | The nodes are the children of the parent in input order, and the recursion terminates under a rank on parent links |
| CommentTree.BuildReplies | front-end/src/utils/commentUtils.ts:7-10 | Each node's replies are the tree built for its own id |
| CommentTree.KeepRepliedNoOp | front-end/src/utils/commentUtils.ts:11-14 | The trailing filter keeps every node |
| CommentTree.BuildNoOrphans | front-end/src/utils/commentUtils.ts:2-10 | Every item of the tree is an input item whose parent is `p` or is present in the input: a comment whose parent is absent never appears |
| CommentTree.SelfParentIgnored | front-end/src/utils/commentUtils.ts:2-10 | A self-parented comment is never reached from a rooted parent: it is in no tree the builder returns |
| CommentTree.SelfParentAlone | front-end/src/utils/commentUtils.ts:1-15 | The tree of a lone self-parented comment built from null is empty, and the builder terminates on it |
| CommentTree.BuildServer | backend/controllers/commentController.ts:103-127 | The two passes produce an arena holding every item with its children ids and the root list |
| CommentTree.IndexPass | backend/controllers/commentController.ts:107-110 | Every item is indexed by id as a copy with no children |
| CommentTree.AttachPass | backend/controllers/commentController.ts:112-124 | Roots are the null-parent ids in input order; each other item is appended to its parent's children when the parent is indexed, else dropped |
| CommentTree.Attach | backend/controllers/commentController.ts:113-123 | One step of the second pass: to the roots, to a present parent, or nowhere |
| CommentTree.ServerPlacement | backend/controllers/commentController.ts:113-124 | With distinct ids, an id is a root exactly when its parent is null, and a child of `q` exactly when its parent is `q` |
| CommentTree.ServerCounts | backend/controllers/commentController.ts:107-124 | With distinct ids, roots and children lists hold no duplicates, and the roots number the null-parent inputs |
| CommentTree.ServerMatchesClient | backend/controllers/commentController.ts:103-127 | On distinct ids and acyclic links the server's tree serialises to the client's tree |
| CommentList.ReactionCounts | front-end/src/components/CommentPost/CommentPost.tsx:84-89 | Likes are the non-null entries with value 1, dislikes the other non-null entries, and total = likes + dislikes |
| CommentList.ValidTally | front-end/src/components/CommentPost/CommentPost.tsx:84-89 | The likes and dislikes tallied from the raw array split the non-null entries |
| CommentList.LikesSplit | front-end/src/components/CommentPost/CommentPost.tsx:84-89 | Entries equal to 1 and the others partition the list |
| CommentList.FindByUser | front-end/src/components/CommentPost/CommentPost.tsx:118-120 | `find`: the first entry of the user, or none exactly when the user has no entry |
| CommentList.FirstEntryUnique | front-end/src/components/CommentPost/CommentPost.tsx:118-120 | A user has at most one first entry |
| CommentList.UserReaction | front-end/src/components/CommentPost/CommentPost.tsx:112-128 | Null without a user or entries; otherwise like exactly when the user's first entry is 1 and dislike exactly when it is 0 or -1, so null when the user has no entry or another value |
| CommentList.ClientCountsMatchServer | front-end/src/components/CommentPost/CommentPost.tsx:84-89 | The counts the client derives from the aggregate's array are the server's three count columns |
| CommentList.ClientUserReactionMatchesServer | front-end/src/components/CommentPost/CommentPost.tsx:112-128 | The highlighted reaction is the polarity of the user's stored row |
| CommentList.OnLike | front-end/src/components/CommentPost/CommentPost.tsx:279-297 | Optimistic like: like to none with likes-1; dislike to like with likes+1, dislikes-1; none to like with likes+1 |
| CommentList.OnDislike | front-end/src/components/CommentPost/CommentPost.tsx:308-323 | The mirror image for dislike |
| CommentList.Click | front-end/src/components/CommentPost/CommentPost.tsx:279-303 | A settled click is the optimistic change on success and the state before it on error |
| CommentList.ClickSettles | front-end/src/components/CommentPost/CommentPost.tsx:279-303 | Starting from the server's view, the settled state is the view of the table after the transaction, committed or rolled back |
| CommentList.PressesStayInSync | front-end/src/components/CommentPost/CommentPost.tsx:279-323 | Over any run of clicks, each succeeding or failing, the page's state is the server's view after each one |
| CommentList.OptimisticMatchesServer | front-end/src/components/CommentPost/CommentPost.tsx:279-297 | The optimistic state after a click equals what the client reads after the server's toggle |
| CommentList.FilterMembers | front-end/src/components/CommentPost/CommentPost.tsx:944-960 | A comment is in the result exactly when it is in the input and the option keeps it: mine, those with a direct reply by me, or all |
| CommentList.FilterAppend | front-end/src/components/CommentPost/CommentPost.tsx:944-960 | Filtering distributes over concatenation and keeps a single comment exactly when the option does, so the kept comments stay in input order |
| CommentList.NothingKept | front-end/src/components/CommentPost/CommentPost.tsx:944-960 | An option that keeps no comment of the input filters it to nothing |
| CommentList.FilterAllIdentity | front-end/src/components/CommentPost/CommentPost.tsx:944-960 | "all" is the identity, and without a signed-in user the other two options keep nothing |
| CommentList.Sort | front-end/src/components/CommentPost/CommentPost.tsx:922-941 | The result is a permutation of the input |
| CommentList.SortCorrect | front-end/src/components/CommentPost/CommentPost.tsx:922-941 | Ordered by the comparator, and stable: comments with equal keys keep their order |
| CommentList.Slice | front-end/src/components/CommentPost/CommentPost.tsx:1008-1016 | `slice` with negative bounds counted from the end |
| CommentList.PageWindow | front-end/src/components/CommentPost/CommentPost.tsx:1008-1016 | Page p of size k is the run from (p-1)k to pk, cut at the end, and empty past it |
| CommentList.TotalPages | front-end/src/components/CommentPost/CommentPost.tsx:1019-1021 | `ceil(n / k)`: enough pages for all comments and no empty last page |
| CommentList.PagesCover | front-end/src/components/CommentPost/CommentPost.tsx:1019-1021 | Reading pages 1 to the page count in order gives back the whole list |
| CommentList.InitialListState | front-end/src/components/CommentPost/CommentPost.tsx:970-977 | Nothing collapsed or hidden, newest first, all comments, page 1 of 20 |
| CommentList.ToggleId | front-end/src/components/CommentPost/CommentPost.tsx:1028-1050 | Membership of the one id flips and every other id is unchanged |
| CommentList.ToggleCollapse | front-end/src/components/CommentPost/CommentPost.tsx:1028-1038 | Only the collapsed set changes |
| CommentList.ToggleHide | front-end/src/components/CommentPost/CommentPost.tsx:1040-1050 | Only the hidden set changes |
| CommentList.ToggleTwice | front-end/src/components/CommentPost/CommentPost.tsx:1028-1050 | Either toggle applied twice restores the state |
| Users.FindOne | backend/models/User.ts:41-89 | Null without criteria; otherwise a user exactly when some row meets one criterion, built from a matching row |
| Users.FindOneById | backend/models/User.ts:41-89 | With distinct ids, looking up by id alone finds that row |
| Users.Create | backend/models/User.ts:110-133 | One row appended with the next id and admin 0, other rows unchanged |
| Users.ToggleSetAdmin | backend/models/User.ts:135-150 | Refused without an id; otherwise the flag is negated on the object and exactly its row |
| Users.ToggleSetAdminTwice | backend/models/User.ts:143-149 | Two toggles restore the object and the stored flag |
| Users.Save | backend/models/User.ts:152-172 | Refused without an id; otherwise only the profile columns of the object's row change, absent strings stored as "" |
| Users.CheckUserFollowed | backend/models/User.ts:199-208 | True exactly when a row of the pair exists |
| Users.FollowUser | backend/models/User.ts:210-229 | Self-follow is refused before any write; otherwise one row is appended, even for an existing pair |
| Users.UnfollowUser | backend/models/User.ts:231-241 | Every row of the pair is removed and all others kept |
| Users.CheckIsMembership | backend/models/User.ts:199-208 | The check is membership of the pair in the follow relation |
| Users.FollowAdds | backend/models/User.ts:210-229 | Following adds exactly the pair to the relation |
| Users.UnfollowRemoves | backend/models/User.ts:231-241 | Unfollowing removes exactly the pair, however often it was inserted |
| Users.FollowUnfollow | backend/models/User.ts:210-241 | Two follows and one unfollow leave the relation without the pair |
| Otp.NewVerification | backend/models/UserVerification.ts:431-441 | The expiry is creation time plus ten minutes; falsy fields take their defaults |
| Otp.Sweep | backend/models/UserVerification.ts:484-488 | Exactly the rows of any user whose expiry is not after now are removed |
| Otp.LatestExpiry | backend/models/UserVerification.ts:502-508 | The greatest expiry among the user's rows, or NULL without rows |
| Otp.SendOtp | backend/models/UserVerification.ts:479-540 | Refused exactly when the user already holds three or more unexpired codes, reporting the latest expiry; a row survives exactly when it is unexpired or is the new code (expiry now+10 min, attempts 1, unverified, appended last); the id counter moves only on success |
| Otp.ActiveSweep | backend/models/UserVerification.ts:484-497 | The sweep removes no active code |
| Otp.SendOtpCounts | backend/models/UserVerification.ts:491-527 | A successful issue adds exactly one active code for the user and none for others |
| Otp.SendOtpKeepsLimit | backend/models/UserVerification.ts:500-527 | No user holds more than three active codes, before and after issuing at a later time |
| Otp.Consume | backend/models/UserVerification.ts:472-474 | Exactly the rows of the (user, token) pair are deleted, whatever their type |
| Otp.CheckOtp | backend/models/UserVerification.ts:447-477 | For a type that is one of the three kinds: succeeds exactly when the user exists and a row matches id, token and type; "User not found" and "Invalid OTP" change nothing; success marks the user verified and consumes the token |
| Otp.CheckOtpIgnoresExpiry | backend/models/UserVerification.ts:448-454 | An expired row not yet swept still validates |
| Otp.CheckOtpKeepsLimit | backend/models/UserVerification.ts:466-474 | Checking a code keeps the three-active-codes invariant |
| PostLock.FindById | backend/models/Posts.ts:70-75 | The post with the id; "Post not found" when none has it; a non-number id fails in the query with MySQL's unknown-column error |
| PostLock.Decrypt | backend/utility/CryptoUtils.ts:9-22 | Succeeds exactly when AES yields a non-empty plaintext; every other case is the one "Decryption failed" error |
| PostLock.TurnOn | backend/controllers/cryptoController.ts:40-70 | An unlocked post becomes locked with encrypted content; a locked post answers 400 and nothing is written; a missing post forwards "Post not found", never the 404 |
| PostLock.TurnOff | backend/controllers/cryptoController.ts:72-105 | A locked post whose content decrypts becomes unlocked with the plaintext; a failed decryption forwards "Decryption failed" and writes nothing; an unlocked post answers 400; a lookup error is forwarded, never the 404 |
| PostLock.OnlyFlagAndContent | backend/controllers/cryptoController.ts:53-62 | Either transition writes only the flag and the content of the one post |
| PostLock.LockCycle | backend/controllers/cryptoController.ts:40-105 | For a cipher whose decryption undoes encryption: on locks and a second on is refused; off then restores content c and a second off is refused, except that for c = "" off fails and the post stays locked |
| PostLock.WrongKeyKeepsLock | backend/controllers/cryptoController.ts:85-103 | When AES fails under the given key, turning off forwards "Decryption failed" and leaves the rows unchanged |
| Pagination.OrDefault | backend/middlewares/paginationMiddleware.ts:8-9 | `parseInt(x) \|\| d`: NaN and 0 give the default |
| Pagination.Paginate | backend/middlewares/paginationMiddleware.ts:7-23 | Page defaults to 1, size to 10 and is capped at 100, and offset = (page-1) × size |
| Pagination.Defaults | backend/middlewares/paginationMiddleware.ts:8-14 | No parameters, or zeros, give page 1, size 10, offset 0 |
| Pagination.NegativesPassThrough | backend/middlewares/paginationMiddleware.ts:8-14 | Negative page and size are not clamped |
| Pagination.WindowIsPage | backend/middlewares/paginationMiddleware.ts:14-20 | For a positive page and size the selected rows are the rows of that page |
| Responsive.Initial | front-end/src/store/responsive/responsiveSlice.ts:8-11 | A desktop with the sidebar open |
| Responsive.SetType | front-end/src/store/responsive/responsiveSlice.ts:17-24 | The type is set and the sidebar is open exactly on a desktop |
| Responsive.ToggleSidebar | front-end/src/store/responsive/responsiveSlice.ts:25-27 | The sidebar flag flips and the type is unchanged |
| Responsive.SetTypeIdempotent | front-end/src/store/responsive/responsiveSlice.ts:17-24 | Setting twice is setting once, and the result ignores the previous flag |
| Responsive.ToggleTwice | front-end/src/store/responsive/responsiveSlice.ts:25-27 | Two toggles are the identity |
| Responsive.TogglePairs | front-end/src/store/responsive/responsiveSlice.ts:25-27 | Any even number of toggles is the identity |
| UserSlice.Initial | front-end/src/store/user/userSlice.ts:207-219 | Id 0, empty profile with the demo avatar and no cover, signed out |
| UserSlice.SetUser | front-end/src/store/user/userSlice.ts:245-257 | Fields present in the payload are copied and the rest kept; signed in, no error, loading untouched |
| UserSlice.SetUserIdempotent | front-end/src/store/user/userSlice.ts:245-257 | The same payload twice is once, and an empty payload only signs in |
| UserSlice.ClearUser | front-end/src/store/user/userSlice.ts:258-268 | The profile is reset to id 0, blanks and the demo avatar; loading and verified kept |
| UserSlice.Logout | front-end/src/store/user/userSlice.ts:269-280 | The same reset as `clearUser` |
| UserSlice.LogoutIsClear | front-end/src/store/user/userSlice.ts:258-280 | `logout` and `clearUser` agree, clearing is idempotent, and it is the initial state up to cover, loading and verified |
| UserSlice.Pending | front-end/src/store/user/userSlice.ts:284-287 | Loading on and no error; every other field of the state is as before |
| UserSlice.Fulfilled | front-end/src/store/user/userSlice.ts:288-303 | Loading off; missing fields take defaults; signed in exactly when id, username or email is truthy |
| UserSlice.Rejected | front-end/src/store/user/userSlice.ts:304-308 | Loading off, signed out, error the payload or "Fetch profile failed", nothing else |
| UserSlice.FetchOutcomes | front-end/src/store/user/userSlice.ts:282-309 | Either outcome ends with loading off, and success does not depend on the state before |
| Validation.EmailShapeIsPattern | front-end/src/pages/Login/Register.tsx:98 | The decision procedure accepts exactly the strings `^[^\s@]+@[^\s@]+\.[^\s@]+$` matches |
| Validation.EmailError | front-end/src/pages/Login/Register.tsx:96-102 | Required once trimmed, then the pattern on the trimmed text, then at most 254 characters untrimmed |
| Validation.EmailPaddingCounts | front-end/src/pages/Login/Register.tsx:96-102 | Trailing blanks pass the pattern but count towards the length limit |
| Validation.PasswordLengthError | front-end/src/pages/Login/Login.tsx:71-77 | Required once trimmed, then 6 to 128 characters untrimmed |
| Register.UsernameError | front-end/src/pages/Login/Register.tsx:84-93 | Blank, then fewer than 3, then more than 50, then a character outside `[a-zA-Z0-9_]` |
| Register.UsernameRawLength | front-end/src/pages/Login/Register.tsx:84-90 | Emptiness is judged trimmed but length and characters untrimmed |
| Register.MixedMeansAllThree | front-end/src/pages/Login/Register.tsx:111 | The lookahead pattern demands a lower case letter, an upper case letter and a digit, and on one line that is all it demands |
| Register.MixedNeedsOneLine | front-end/src/pages/Login/Register.tsx:111 | The three kinds on different lines fail the pattern |
| Register.PasswordError | front-end/src/pages/Login/Register.tsx:105-114 | Missing only when empty, then 6 to 128 characters, then the letter and digit mix |
| Register.ConfirmError | front-end/src/pages/Login/Register.tsx:117-121 | Missing when empty, then must equal the password |
| Register.Validate | front-end/src/pages/Login/Register.tsx:80-124 | No errors exactly when every field rule holds |
| Register.Submit | front-end/src/pages/Login/Register.tsx:198-217 | A request only without errors, with username and e-mail trimmed and passwords as typed |
| Register.SubmittedIsValid | front-end/src/pages/Login/Register.tsx:212-217 | The trimmed request still passes every rule |
| Register.ApiMessage | front-end/src/pages/Login/Register.tsx:163-182 | 409, 400 and 5xx are named; then network, timeout, and a generic message |
| Login.Validate | front-end/src/pages/Login/Login.tsx:58-80 | No errors exactly when the e-mail rule holds and the password is non-blank with 6 to 128 characters |
| Login.Submit | front-end/src/pages/Login/Login.tsx:146-161 | A request only without errors, e-mail trimmed and password as typed |
| Login.RegisteredPasswordSignsIn | front-end/src/pages/Login/Login.tsx:70-78 | Every password registration accepts passes the sign-in rule, but not conversely: sign-in has no composition rule |
| Login.ApiMessage | front-end/src/pages/Login/Login.tsx:119-135 | 401, 429 and 5xx are named; then network, timeout, and a generic message |
| Login.SharedApiMessages | front-end/src/pages/Login/Login.tsx:119-135 | The two forms' messages differ outside their own statuses exactly on the generic fallback |
| ForgotPassword.OtpError | front-end/src/pages/Login/ForgotPassword.tsx:140-144 | Required once trimmed, then exactly six digits trimmed |
| ForgotPassword.ConfirmError | front-end/src/pages/Login/ForgotPassword.tsx:154-161 | Non-blank once trimmed and equal to the new password |
| ForgotPassword.BlankConfirmRefused | front-end/src/pages/Login/ForgotPassword.tsx:158 | A blank confirmation is refused even when it equals the password |
| ForgotPassword.Digits | front-end/src/pages/Login/ForgotPassword.tsx:182 | Only digits remain, never more than the input |
| ForgotPassword.DigitsFixed | front-end/src/pages/Login/ForgotPassword.tsx:182 | Removing non-digits changes nothing exactly when there are none |
| ForgotPassword.Sanitise | front-end/src/pages/Login/ForgotPassword.tsx:181-183 | The code field keeps the first six digits typed, in order |
| ForgotPassword.SanitiseIdempotent | front-end/src/pages/Login/ForgotPassword.tsx:181-183 | Sanitising twice is sanitising once |
| ForgotPassword.SanitisedCodeValid | front-end/src/pages/Login/ForgotPassword.tsx:181-183 | A sanitised code passes the code rule exactly when six digits were typed |
| ForgotPassword.Tick | front-end/src/pages/Login/ForgotPassword.tsx:286-299 | A positive count goes down by one and zero stays zero |
| ForgotPassword.TicksCountDown | front-end/src/pages/Login/ForgotPassword.tsx:286-299 | After k seconds the count is n-k, stopping at zero |
| ForgotPassword.FormatCountdown | front-end/src/pages/Login/ForgotPassword.tsx:321-332 | Two colons from one hour on, one below |
| ForgotPassword.FormatCountdownParses | front-end/src/pages/Login/ForgotPassword.tsx:321-332 | The text reads back as the same number of seconds: h·3600 + m·60 + s with two-digit minutes and seconds |
| ForgotPassword.ApiMessageAsWritten | front-end/src/pages/Login/ForgotPassword.tsx:226-283 | As written: a server `message` returns the `error` field instead |
| ForgotPassword.ApiMessage | front-end/src/pages/Login/ForgotPassword.tsx:226-283 | As intended: the server's message, else its error, else the status, network and timeout messages |
| ForgotPassword.AsWrittenLosesMessage | front-end/src/pages/Login/ForgotPassword.tsx:231-232 | The two agree exactly unless a message comes with a different or missing error; the 404 "User not found" is lost |
| ForgotPassword.LimitAfter | front-end/src/pages/Login/ForgotPassword.tsx:235-249 | The lock-out is set only from an error naming the OTP limit with a positive parsed time |
| ForgotPassword.Failed | front-end/src/pages/Login/ForgotPassword.tsx:379-384 | A failure shows `handleApiError`'s message (possibly `undefined`) as written, the intended message otherwise; ends submitting, keeps the step and countdown, and updates the lock-out |
| ForgotPassword.SendCodeStep | front-end/src/pages/Login/ForgotPassword.tsx:335-397 | Refused during the lock-out; sent only with a valid e-mail, trimmed; success moves to the code step with a 60 s countdown; a failure's message, in either reading, is both the server error and the toast |
| ForgotPassword.CheckCodeStep | front-end/src/pages/Login/ForgotPassword.tsx:398-444 | Sent only with a valid code, as a number; success moves to the password step with the credential; a failure as in `Failed` |
| ForgotPassword.ChangePasswordStep | front-end/src/pages/Login/ForgotPassword.tsx:446-510 | Sent only when both fields pass, as the request each reading builds; as intended the checked password is the new one and the credential authorises; the step never changes and success starts the redirect |
| ForgotPassword.PasswordFieldsSwapped | front-end/src/pages/Login/ForgotPassword.tsx:476 | As written the credential is sent as `newPassword` and the typed password as `oldPassword` under the cookie; as intended the typed password is the new one under the credential |
| ForgotPassword.UnknownAddressShowsNothing | front-end/src/pages/Login/ForgotPassword.tsx:376-384 | For the server's 404 "User not found", as written neither the form nor the toast shows a message; as intended the form shows it |
| ForgotPassword.Submit | front-end/src/pages/Login/ForgotPassword.tsx:789-1058 | Steps only move forward, by one, after a successful request |
| ForgotPassword.Resend | front-end/src/pages/Login/ForgotPassword.tsx:512-545 | Nothing while the countdown runs, while submitting or during the lock-out; otherwise the code is resent; a failure as in `Failed` |
| ForgotPassword.ResendThrottled | front-end/src/pages/Login/ForgotPassword.tsx:512-545 | A successful resend blocks the next one for a minute |
| ForgotPassword.Input | front-end/src/pages/Login/ForgotPassword.tsx:167-193 | Typing clears the server error and changes only the current step's field, the code sanitised |
| ForgotPassword.TypedCodeIsSent | front-end/src/pages/Login/ForgotPassword.tsx:180-186 | Whatever is typed, the code field holds at most six digits and is sent exactly when six were typed |
| ForgotPassword.LimitTickAsWritten | front-end/src/pages/Login/ForgotPassword.tsx:301-318 | As written: a tick only counts down, never clearing the message |
| ForgotPassword.LimitTick | front-end/src/pages/Login/ForgotPassword.tsx:301-318 | As intended: the message clears when the lock-out reaches zero |
| ForgotPassword.LimitMessageLingers | front-end/src/pages/Login/ForgotPassword.tsx:301-318 | As written the limit message outlives the lock-out; as intended it is gone when it ends |
| AuthToken.First | front-end/src/utils/user.ts:15-17 | `find`: the first position satisfying the predicate, or none exactly when no element does |
| AuthToken.FindEntry | front-end/src/utils/user.ts:14-21 | The first entry that starts with `authToken=` once trimmed, or none |
| AuthToken.TokenOf | front-end/src/utils/user.ts:23 | `split("=")[1]`: none without `=`, and the token holds no `=` |
| AuthToken.TokenBetween | front-end/src/utils/user.ts:23-27 | The token is the text between the first `=` and the next `=` or the end |
| AuthToken.ToBase64 | front-end/src/utils/user.ts:39 | Same length, `-` to `+`, `_` to `/`, other characters kept |
| AuthToken.ToBase64RoundTrip | front-end/src/utils/user.ts:39 | On base64url text the mapping is undone by its reverse and leaves no `-` or `_` |
| AuthToken.Padded | front-end/src/utils/user.ts:40-42 | 0 to 3 `=` appended, reaching a multiple of four, with the text a prefix |
| AuthToken.Pad | front-end/src/utils/user.ts:40-42 | The padding loop computes that padding |
| AuthToken.DecodeCookie | front-end/src/utils/user.ts:11-51 | A payload only from a found entry with a non-empty three-part token, decoded from the padded base64 of the middle part |
| AuthToken.TokenCookieDecodes | front-end/src/utils/user.ts:11-51 | For a cookie `authToken=h.p.s` built from base64url parts, the decoder returns the payload decoded from the padded base64 of `p` |
| AuthToken.NotThreeParts | front-end/src/utils/user.ts:30-33 | A token without exactly two dots yields nothing |
| AuthToken.CurrentUserOf | front-end/src/utils/user.ts:54-72 | Null exactly when decoding fails; the id falls back userId, id, sub and the name name, username |
| AuthToken.IsAdmin | front-end/src/utils/user.ts:75-82 | True exactly for admin 1, role "admin" or isAdmin true, by strict comparison |
| LockedOverlay.Input | front-end/src/pages/DetailPost/OverlayLocked.tsx:24-33 | Typing sets the value, clears the error flag and keeps the count |
| LockedOverlay.Fail | front-end/src/pages/DetailPost/OverlayLocked.tsx:35-61 | One more attempt, error flag on, field emptied, and a toast from the second failure on |
| LockedOverlay.Submit | front-end/src/pages/DetailPost/OverlayLocked.tsx:63-83 | Acts only when not loading with a non-blank value; `false` and a throw are both failures |
| LockedOverlay.Click | front-end/src/pages/DetailPost/OverlayLocked.tsx:244 | The button does nothing at five attempts, otherwise it submits |
| LockedOverlay.Enter | front-end/src/pages/DetailPost/OverlayLocked.tsx:85-93 | Enter submits with the same guard and no cap |
| LockedOverlay.EnterBypassesCap | front-end/src/pages/DetailPost/OverlayLocked.tsx:85-93 | After five failures the button is inert but Enter still counts a sixth |
| LockedOverlay.FailureNeedsRetyping | front-end/src/pages/DetailPost/OverlayLocked.tsx:59-66 | After a counted failure the next submission does nothing until something is typed |
| LockedOverlay.AttemptsNeedTyping | front-end/src/pages/DetailPost/OverlayLocked.tsx:24-93 | Over any run the count never drops and grows at most by the number of typings |
| LockedOverlay.HelpText | front-end/src/pages/DetailPost/OverlayLocked.tsx:291-300 | Contact text at zero, 5 - count remaining between, exhausted from five |

## Left out

- Database mechanics are not modelled: connections, SQL text and isolation. Each transaction is one atomic function, and a failing statement is a parameter (`fault`).
- `ORDER BY` clauses other than the one of `findCommentByPostId` are not modelled; rows are kept in storage order. The joins with `users` only add author names, except the `INNER JOIN` of `findCommentByPostId`, which is modelled as the set of existing authors.
- Comments.FindCommentByPostId: comments created at the same time come back in storage order; MySQL leaves their order unspecified, so the model picks one of the orders the query allows.
- Email sending, `crypto.randomBytes`, `Math.random` and the OTP e-mail template are left out. The code is a parameter in [100000, 999999].
- Otp.CheckOtp: the type is narrowed to the three kinds `email`, `phone` and `password_reset`. The source splices `type` into the query text as `verification_type = '${type}'` (backend/models/UserVerification.ts:453), and `verifyOTP` passes the `:type` route parameter unchecked (backend/controllers/userController.ts:559-560; only `sendOTPVerified` checks it, at lines 535-538). So "succeeds exactly when a row matches" is promised only for the three kinds. A type such as `x' OR '1'='1` matches every row of a non-empty table and marks the user verified without a matching code. Any other string is either an SQL error or matches no row. Neither case is modelled.
- Otp.SendOtp: reports the latest expiry as a number rather than the Vietnamese message with `toLocaleTimeString`, because locale formatting is not modelled.
- `parseOTPLimitError` reads the browser clock, so it is the parameter `parseLimit`.
- The AES cipher itself, JWT signing, bcrypt and Google sign-in are left out or are uninterpreted function parameters. `atob` followed by `JSON.parse` is the parameter `decode`.
- PostLock.Decrypt: the AES parameter returns None both when CryptoJS throws and when the decrypted bytes are not valid UTF-8; the two are one failure in the source too, since both are caught and rethrown as "Decryption failed".
- PostLock.FindById: a non-number id is modelled by the message MySQL gives for `WHERE id = NaN`; the error's code and SQL state are not modelled.
- The error-handling middleware is not modelled. A thrown error in a handler is `Forwarded`.
- Express controllers other than the comment guards and the two encryption handlers are not modelled: they are request parsing and status plumbing.
- `Post.updatePostInfo` is not modelled: it builds SQL from string keys. Comment.update's dynamic `SET` list is modelled only for its one field, `content`.
- `findAll`, `getAllUserHasFollowed` and `userStats` are not modelled: they are plain queries with no rule in them.
- `checkUserLogin` is not modelled: it only redirects.
- `syncUserFromCookie` and the commented-out code in `userSlice.ts` are not modelled: they are not live code.
- The demo avatar image is a parameter (`demo`).
- React rendering, toasts' styling, the shake animation, navigation timers and react-query caching are not modelled. A toast is kept as its text.
- LockedOverlay.Submit: handlers are taken one at a time. The stale-closure interleaving of two submissions in flight is not modelled.
- Text.IsSpace: string length is a count of `char`s, while JavaScript counts UTF-16 code units. The two differ only for characters outside the Basic Multilingual Plane.
- CommentTree.Build: the client builder terminates exactly when no cycle of parent links is reachable from the parent it starts at, so it requires a rank (a ghost map) on the comments reachable from there. A cycle reachable from the start makes the source recurse forever and is not modelled; unreachable self-parents and cycles are allowed and never visited (SelfParentIgnored, SelfParentAlone).
- CommentList.Sort: `Date` parsing is not modelled; creation times are integers.
- The paginated middle window of page buttons in `CommentPost.tsx` is not modelled: it is layout, not data.

## Findings

| source | as written | input that shows it | evidently intended | confidence | as-written member | corrected member |
|---|---|---|---|---|---|---|
| front-end/src/pages/Login/ForgotPassword.tsx:231-232 | when the server's reply has a `message`, the handler returns the reply's `error` field | the 404 `{ message: "User not found" }` that `backend/controllers/userController.ts:543` sends gives `undefined`, so no message is shown | return the `message` itself | high, not executed | ForgotPassword.ApiMessageAsWritten | ForgotPassword.ApiMessage |
| front-end/src/pages/Login/ForgotPassword.tsx:476 | the page passes `(newPassword, credential)` to `userService.changePassword(oldPassword, password)` of `front-end/src/api/userService.ts:160-174`, which sends the second argument as `newPassword`, the first as `oldPassword`, and authorises with the `authToken` cookie; the import at line 10 names `../../api/Client`, whose `changePassword(password, credential)` at `front-end/src/api/Client.ts:132-145` has the intended shape but is not a `userService` method | typed password "Secret1" and credential "credential": the request asks to set the password to "credential", and `backend/controllers/userController.ts:472` compares "Secret1" with the stored hash of a user who has forgotten it | set the typed password, authorised by the credential | medium, not executed | ForgotPassword.PasswordFieldsSwapped | ForgotPassword.ClientChangePassword |
| front-end/src/pages/Login/ForgotPassword.tsx:307-310 | the branch that clears the limit message needs the timer ref set at zero, but every effect cleanup sets it to null first | a lock-out counting 1 to 0: the last cleanup nulls the ref, so the message stays after the lock-out ends | clear the message when the lock-out reaches zero | medium, not executed | ForgotPassword.LimitTickAsWritten | ForgotPassword.LimitTick |

=== FILE: auth_token.dfy ===
/** Reading the signed-in user from the `authToken` cookie
    (`front-end/src/utils/user.ts`). The cookie entry is found, the token is
    cut out of it, checked to have the three parts of the JWS compact
    serialisation (section 7.1 of RFC 7515), and its payload is turned from
    the base64url alphabet (section 5 of RFC 4648) into the base64 alphabet
    with `=` padding (section 4 of RFC 4648). `atob` followed by
    `JSON.parse` is the parameter `decode`; the signature is not checked. */
module AuthToken {

  import opened Wrappers
  import opened Text

  // ---------------------------------------------------------------------
  // Finding the token

  predicate IsTokenEntry(entry: string) {
    StartsWith(Trim(entry), "authToken=")
  }

  /** The position of the first element satisfying `p` (`Array.find`). */
  function First<T>(xs: seq<T>, p: T -> bool): (r: Option<nat>)
    ensures r.None? <==> forall i :: 0 <= i < |xs| ==> !p(xs[i])
    ensures r.Some? ==> r.value < |xs| && p(xs[r.value]) && forall j :: 0 <= j < r.value ==> !p(xs[j])
  {
    if xs == [] then None
    else if p(xs[0]) then Some(0)
    else
      var r := First(xs[1..], p);
      assert forall i :: 1 <= i < |xs| ==> xs[i] == xs[1..][i - 1];
      if r.None? then None else Some(r.value + 1)
  }

  /** The entry itself, untrimmed. */
  function FindEntry(entries: seq<string>): (r: Option<string>)
    ensures r.None? <==> forall i :: 0 <= i < |entries| ==> !IsTokenEntry(entries[i])
    ensures r.Some? ==> IsTokenEntry(r.value) && r.value in entries
  {
    match First(entries, IsTokenEntry)
    case None => None
    case Some(i) => Some(entries[i])
  }

  /** `entry.split("=")[1]`: the text between the first and the second `=`
      (or the end); an entry without `=` has no second piece. */
  function TokenOf(entry: string): (t: Option<string>)
    ensures t.None? <==> '=' !in entry
    ensures t.Some? ==> '=' !in t.value
  {
    var parts := Split(entry, '=');
    if |parts| >= 2 then Some(parts[1]) else None
  }

  /** The first piece of a split runs to the first separator. */
  lemma SplitFirst(s: string, sep: char)
    ensures Split(s, sep)[0] == match IndexOf(s, sep) case None => s case Some(j) => s[..j]
  {
  }

  /** Past the first separator, the pieces are those of the rest. */
  lemma SplitRest(s: string, sep: char)
    requires sep in s
    ensures Split(s, sep)[1..] == Split(s[IndexOf(s, sep).value + 1..], sep)
  {
  }

  /** The token sits right after the first `=` and runs to the next `=` or
      to the end of the entry. */
  lemma TokenBetween(entry: string)
    requires '=' in entry
    ensures var t := TokenOf(entry).value;
            exists i :: 0 <= i < |entry| && entry[i] == '=' && '=' !in entry[..i]
                        && i + 1 + |t| <= |entry| && entry[i + 1..i + 1 + |t|] == t
                        && (i + 1 + |t| == |entry| || entry[i + 1 + |t|] == '=')
  {
    var i := IndexOf(entry, '=').value;
    var tail := entry[i + 1..];
    var t := TokenOf(entry).value;
    assert t == Split(tail, '=')[0] by {
      SplitRest(entry, '=');
      assert Split(entry, '=')[1] == Split(entry, '=')[1..][0];
    }
    assert |t| <= |tail| && t == tail[..|t|] && (|t| == |tail| || tail[|t|] == '=') by {
      SplitFirst(tail, '=');
    }
    Between(entry, i, t);
  }

  lemma Between(entry: string, i: nat, t: string)
    requires i < |entry| && entry[i] == '=' && '=' !in entry[..i]
    requires var tail := entry[i + 1..];
             |t| <= |tail| && t == tail[..|t|] && (|t| == |tail| || tail[|t|] == '=')
    ensures exists i :: 0 <= i < |entry| && entry[i] == '=' && '=' !in entry[..i]
                        && i + 1 + |t| <= |entry| && entry[i + 1..i + 1 + |t|] == t
                        && (i + 1 + |t| == |entry| || entry[i + 1 + |t|] == '=')
  {
    assert entry[i + 1..i + 1 + |t|] == entry[i + 1..][..|t|];
  }

  // ---------------------------------------------------------------------
  // The payload

  /** `.replace(/-/g, "+").replace(/_/g, "/")`, one character. */
  function ToBase64Char(c: char): char {
    if c == '-' then '+' else if c == '_' then '/' else c
  }

  /** The base64url alphabet turned into the base64 alphabet, character by
      character. */
  function ToBase64(s: string): (r: string)
    ensures |r| == |s|
    ensures forall i :: 0 <= i < |s| ==> r[i] == ToBase64Char(s[i])
  {
    seq(|s|, i requires 0 <= i < |s| => ToBase64Char(s[i]))
  }

  /** The reverse mapping of section 5 of RFC 4648. */
  function ToBase64Url(s: string): (r: string)
    ensures |r| == |s|
  {
    seq(|s|, i requires 0 <= i < |s| => if s[i] == '+' then '-' else if s[i] == '/' then '_' else s[i])
  }

  /** A base64url text (no `+` and no `/`) survives the mapping and its
      reverse, and the mapped text has no `-` or `_` left. */
  lemma ToBase64RoundTrip(s: string)
    requires forall i :: 0 <= i < |s| ==> s[i] != '+' && s[i] != '/'
    ensures ToBase64Url(ToBase64(s)) == s
    ensures forall i :: 0 <= i < |s| ==> ToBase64(s)[i] != '-' && ToBase64(s)[i] != '_'
  {
  }

  /** The text with `=` appended until its length is a multiple of four. */
  function Padded(s: string): (r: string)
    ensures |r| % 4 == 0 && |s| <= |r| <= |s| + 3
    ensures r[..|s|] == s && forall i :: |s| <= i < |r| ==> r[i] == '='
  {
    s + seq((4 - |s| % 4) % 4, _ => '=')
  }

  /** `while (base64.length % 4) base64 += "="`. */
  method Pad(s: string) returns (r: string)
    ensures r == Padded(s)
  {
    var k := (4 - |s| % 4) % 4;
    r := s;
    while |r| % 4 != 0
      invariant |s| <= |r| <= |s| + k && r[..|s|] == s
      invariant forall i :: |s| <= i < |r| ==> r[i] == '='
      decreases k - (|r| - |s|)
    {
      PadArith(|s|, |r| - |s|);
      r := r + "=";
    }
    PadArith(|s|, |r| - |s|);
    assert r == s + seq(k, _ => '=');
  }

  /** Below the padding length the length is not yet a multiple of four,
      and at it, it is. */
  lemma PadArith(n: nat, d: nat)
    requires d <= (4 - n % 4) % 4
    ensures (n + d) % 4 == 0 <==> d == (4 - n % 4) % 4
  {
  }

  // ---------------------------------------------------------------------
  // The claims

  /** A value of the payload, as far as its JavaScript truthiness goes. */
  datatype Value = Num(n: int) | Text(s: string) | Bool(b: bool) | Null

  predicate Truthy(v: Option<Value>) {
    v.Some? && match v.value
      case Num(n) => n != 0
      case Text(s) => s != ""
      case Bool(b) => b
      case Null => false
  }

  /** `a || b`. */
  function Or(a: Option<Value>, b: Option<Value>): (r: Option<Value>)
    ensures Truthy(a) ==> r == a
    ensures !Truthy(a) ==> r == b
  {
    if Truthy(a) then a else b
  }

  datatype Claims = Claims(userId: Option<Value>, id: Option<Value>, sub: Option<Value>,
                           name: Option<Value>, username: Option<Value>, email: Option<Value>,
                           admin: Option<Value>, role: Option<Value>, isAdmin: Option<Value>)

  /** `decodeJWTFromCookie`: None when there is no entry, an empty token,
      not three parts, or a payload `decode` refuses. */
  function DecodeCookie(cookie: string, decode: string -> Option<Claims>): (r: Option<Claims>)
    ensures r.Some? ==>
      && FindEntry(Split(cookie, ';')).Some?
      && var t := TokenOf(FindEntry(Split(cookie, ';')).value);
         && t.Some? && t.value != "" && |Split(t.value, '.')| == 3
         && r == decode(Padded(ToBase64(Split(t.value, '.')[1])))
    ensures FindEntry(Split(cookie, ';')).None? ==> r.None?
    ensures FindEntry(Split(cookie, ';')).Some? ==>
      var t := TokenOf(FindEntry(Split(cookie, ';')).value);
      if t.Some? && t.value != "" && |Split(t.value, '.')| == 3
      then r == decode(Padded(ToBase64(Split(t.value, '.')[1])))
      else r.None?
  {
    match FindEntry(Split(cookie, ';'))
    case None => None
    case Some(entry) =>
      match TokenOf(entry)
      case None => None
      case Some(token) =>
        if token == "" then None
        else
          var parts := Split(token, '.');
          if |parts| != 3 then None else decode(Padded(ToBase64(parts[1])))
  }

  /** A token of one or two parts, or more than three, yields nothing
      whatever the payload. */
  lemma NotThreeParts(cookie: string, decode: string -> Option<Claims>)
    requires FindEntry(Split(cookie, ';')).Some?
    requires var t := TokenOf(FindEntry(Split(cookie, ';')).value);
             t.Some? && Count(t.value, '.') != 2
    ensures DecodeCookie(cookie, decode).None?
  {
  }

  /** The base64url alphabet of section 5 of RFC 4648. */
  predicate IsUrlChar(c: char) {
    IsLower(c) || IsUpper(c) || IsDigit(c) || c == '-' || c == '_'
  }

  predicate UrlText(s: string) {
    forall i :: 0 <= i < |s| ==> IsUrlChar(s[i])
  }

  /** The cookie of a single `authToken` entry whose token is three
      base64url parts. */
  function TokenCookie(header: string, payload: string, signature: string): string {
    "authToken=" + (header + (['.'] + (payload + (['.'] + signature))))
  }

  /** Setting a token and reading it back: a cookie holding a three-part
      token yields the decoded middle part, whatever the other two parts
      are. */
  lemma TokenCookieDecodes(header: string, payload: string, signature: string,
                           decode: string -> Option<Claims>)
    requires UrlText(header) && UrlText(payload) && UrlText(signature)
    ensures DecodeCookie(TokenCookie(header, payload, signature), decode) == decode(Padded(ToBase64(payload)))
  {
    var token := header + (['.'] + (payload + (['.'] + signature)));
    TokenChars(header, payload, signature);
    CookieEntry(token);
    TokenParts(header, payload, signature);
  }

  /** A token of three base64url parts holds only base64url characters and
      dots. */
  lemma TokenChars(header: string, payload: string, signature: string)
    requires UrlText(header) && UrlText(payload) && UrlText(signature)
    ensures var token := header + (['.'] + (payload + (['.'] + signature)));
            forall i :: 0 <= i < |token| ==> IsUrlChar(token[i]) || token[i] == '.'
  {
    var rest := payload + (['.'] + signature);
    assert forall i :: 0 <= i < |rest| ==> IsUrlChar(rest[i]) || rest[i] == '.' by {
      forall i | 0 <= i < |rest| ensures IsUrlChar(rest[i]) || rest[i] == '.' {
        if i > |payload| {
          assert rest[i] == signature[i - |payload| - 1];
        }
      }
    }
    var token := header + (['.'] + rest);
    forall i | 0 <= i < |token| ensures IsUrlChar(token[i]) || token[i] == '.' {
      if i > |header| {
        assert token[i] == rest[i - |header| - 1];
      }
    }
  }

  /** The dots cut a three-part token back into its parts. */
  lemma TokenParts(header: string, payload: string, signature: string)
    requires UrlText(header) && UrlText(payload) && UrlText(signature)
    ensures Split(header + (['.'] + (payload + (['.'] + signature))), '.') == [header, payload, signature]
  {
    NoDot(header);
    NoDot(payload);
    NoDot(signature);
    TwoParts(payload, signature);
    SplitAt(header, payload + (['.'] + signature), '.');
  }

  lemma TwoParts(payload: string, signature: string)
    requires '.' !in payload && '.' !in signature
    ensures Split(payload + (['.'] + signature), '.') == [payload, signature]
  {
    SplitWhole(signature, '.');
    SplitAt(payload, signature, '.');
  }

  lemma NoDot(s: string)
    requires UrlText(s)
    ensures '.' !in s
  {
    forall i | 0 <= i < |s| ensures s[i] != '.' {
      assert IsUrlChar(s[i]);
    }
  }

  /** The one-entry cookie `authToken=<token>` is found, and its token is
      cut out whole. */
  lemma CookieEntry(token: string)
    requires token != []
    requires forall i :: 0 <= i < |token| ==> IsUrlChar(token[i]) || token[i] == '.'
    ensures FindEntry(Split("authToken=" + token, ';')) == Some("authToken=" + token)
    ensures TokenOf("authToken=" + token) == Some(token)
  {
    var cookie := "authToken=" + token;
    CookieIsEntry(token);
    NoSemicolon(token);
    SplitWhole(cookie, ';');
    OnlyEntry(cookie);
    CookieToken(token);
  }

  lemma NoSemicolon(token: string)
    requires forall i :: 0 <= i < |token| ==> IsUrlChar(token[i]) || token[i] == '.'
    ensures ';' !in "authToken=" + token
  {
    var cookie := "authToken=" + token;
    forall i | 0 <= i < |cookie| ensures cookie[i] != ';' {
      if i >= 10 {
        assert cookie[i] == token[i - 10];
      }
    }
  }

  lemma OnlyEntry(entry: string)
    requires IsTokenEntry(entry)
    ensures FindEntry([entry]) == Some(entry)
  {
    assert First([entry], IsTokenEntry) == Some(0);
  }

  lemma CookieIsEntry(token: string)
    requires token != []
    requires forall i :: 0 <= i < |token| ==> IsUrlChar(token[i]) || token[i] == '.'
    ensures IsTokenEntry("authToken=" + token)
  {
    var cookie := "authToken=" + token;
    assert LeadingSpaces(cookie) == 0;
    assert !IsSpace(cookie[|cookie| - 1]) by {
      assert cookie[|cookie| - 1] == token[|token| - 1];
    }
    assert TrailingSpaces(cookie) == 0;
    assert Trim(cookie) == cookie;
    assert cookie[..10] == "authToken=";
  }

  lemma CookieToken(token: string)
    requires forall i :: 0 <= i < |token| ==> IsUrlChar(token[i]) || token[i] == '.'
    ensures TokenOf("authToken=" + token) == Some(token)
  {
    assert '=' !in token by {
      forall i | 0 <= i < |token| ensures token[i] != '=' {
      }
    }
    SplitWhole(token, '=');
    SplitAt("authToken", token, '=');
    assert "authToken" + ("=" + token) == "authToken=" + token;
  }

  datatype CurrentUser = CurrentUser(id: Option<Value>, name: Option<Value>, email: Option<Value>)

  /** `getCurrentUserFromToken`: the id falls back from `userId` to `id` to
      `sub`, the name from `name` to `username`. */
  function CurrentUserOf(cookie: string, decode: string -> Option<Claims>): (r: Option<CurrentUser>)
    ensures r.None? <==> DecodeCookie(cookie, decode).None?
    ensures r.Some? ==> var c := DecodeCookie(cookie, decode).value;
      && (Truthy(c.userId) ==> r.value.id == c.userId)
      && (!Truthy(c.userId) && Truthy(c.id) ==> r.value.id == c.id)
      && (!Truthy(c.userId) && !Truthy(c.id) ==> r.value.id == c.sub)
      && (Truthy(c.name) ==> r.value.name == c.name)
      && (!Truthy(c.name) ==> r.value.name == c.username)
      && r.value.email == c.email
  {
    match DecodeCookie(cookie, decode)
    case None => None
    case Some(c) => Some(CurrentUser(Or(c.userId, Or(c.id, c.sub)), Or(c.name, c.username), c.email))
  }

  /** `isUserAdmin`: strict comparisons, so only the number 1, the text
      "admin" and `true` count. */
  function IsAdmin(cookie: string, decode: string -> Option<Claims>): (b: bool)
    ensures b ==> DecodeCookie(cookie, decode).Some?
    ensures b <==> var c := DecodeCookie(cookie, decode);
      c.Some? && (c.value.admin == Some(Num(1)) || c.value.role == Some(Text("admin"))
                  || c.value.isAdmin == Some(Bool(true)))
  {
    match DecodeCookie(cookie, decode)
    case None => false
    case Some(c) => c.admin == Some(Num(1)) || c.role == Some(Text("admin")) || c.isAdmin == Some(Bool(true))
  }
}

=== FILE: comment_controller.dfy ===
/** The guards of the comment handlers (`backend/controllers/commentController.ts`)
    in front of the comment model: existence (404), ownership (403), the
    self-reaction rule and a missing user id (400), an empty body (400).
    A handler that throws passes the error to the error-handling
    middleware, which is not part of this model; such a reply is
    `Forwarded`. */
module CommentController {

  import opened Wrappers
  import opened Reactions
  import opened Comments
  import opened Http

  /** `likeComment`/`dislikeComment` handlers. `requester` is `req.user?.id`
      when it is a number and None otherwise. The own-comment check comes
      before the user-id check. */
  function ReactHandler(cs: seq<Comment>, t: Table, requester: Option<UserId>, comment: CommentId,
                        desired: bool, now: int, fault: Option<string>): (res: (Table, Reply))
    ensures FindById(cs, comment).None? ==> res == (t, Status(404, "Comment not found"))
    ensures FindById(cs, comment).Some? && requester == Some(FindById(cs, comment).value.userId) ==>
      res.0 == t && res.1.Status? && res.1.code == 400
    ensures requester.None? ==> res.0 == t && res.1.Status? && res.1.code in {400, 404}
    ensures res.1 == Status(200, "") <==>
      && FindById(cs, comment).Some?
      && requester.Some? && requester.value != FindById(cs, comment).value.userId
      && fault.None?
    ensures res.1 != Status(200, "") ==> res.0 == t
    ensures res.1 == Status(200, "") ==>
      res.0 == Comments.React(cs, t, requester.value, comment, desired, now, fault).0
  {
    match FindById(cs, comment)
    case None => (t, Status(404, "Comment not found"))
    case Some(c) =>
      if requester == Some(c.userId) then
        (t, Status(400, if desired then "You cannot like your own comment" else "You cannot dislike your own comment"))
      else if requester.None? then
        (t, Status(400, "User ID is required"))
      else
        var r := Comments.React(cs, t, requester.value, comment, desired, now, fault);
        match r.1
        case Err(e) => (t, Forwarded(e))
        case Ok(_) => (r.0, Status(200, ""))
  }

  /** `editCommentId`. `bodyEmpty` is a missing or key-less request body;
      `content` is its `content` field. */
  function EditHandler(cs: seq<Comment>, requester: Option<UserId>, comment: CommentId,
                       bodyEmpty: bool, content: Option<string>, now: int): (res: (seq<Comment>, Reply))
    ensures FindById(cs, comment).None? ==> res == (cs, Status(404, "Comment not found"))
    ensures FindById(cs, comment).Some? && requester != Some(FindById(cs, comment).value.userId) ==>
      res == (cs, Status(403, "You are not authorized to edit this comment"))
    ensures res.1 == Status(200, "") <==>
      && FindById(cs, comment).Some?
      && requester == Some(FindById(cs, comment).value.userId)
      && !bodyEmpty && content.Some? && content.value != ""
    ensures res.1 != Status(200, "") ==> res.0 == cs
    ensures res.1 == Status(200, "") ==>
      FindById(res.0, comment) == Some(FindById(cs, comment).value.(content := content.value, updatedAt := now))
  {
    match FindById(cs, comment)
    case None => (cs, Status(404, "Comment not found"))
    case Some(c) =>
      if requester != Some(c.userId) then (cs, Status(403, "You are not authorized to edit this comment"))
      else if bodyEmpty then (cs, Status(400, "No data provided for update"))
      else
        match Comments.Update(cs, comment, content, now)
        case Err(e) => (cs, Forwarded(e))
        case Ok(updated) =>
          UpdateFound(cs, comment, content.value, now);
          (updated, Status(200, ""))
  }

  /** `deleteCommentByOwner`. */
  function DeleteHandler(cs: seq<Comment>, requester: Option<UserId>, comment: CommentId): (res: (seq<Comment>, Reply))
    ensures res.1.Status?
    ensures res.1.code == 204 <==>
      FindById(cs, comment).Some? && requester == Some(FindById(cs, comment).value.userId)
    ensures res.1.code == 404 <==> FindById(cs, comment).None?
    ensures res.1.code != 204 ==> res.0 == cs
    ensures res.1.code == 204 ==>
      && FindById(res.0, comment).None?
      && forall i :: 0 <= i < |cs| && cs[i].id != comment ==> cs[i] in res.0
  {
    match FindById(cs, comment)
    case None => (cs, Status(404, "Comment not found"))
    case Some(c) =>
      if requester != Some(c.userId) then (cs, Status(403, "You are not authorized to delete this comment"))
      else (DeleteById(cs, comment), Status(204, "Comment deleted successfully"))
  }
}

=== FILE: comment_list.dfy ===
/** The client's handling of the comment list
    (`front-end/src/components/CommentPost/CommentPost.tsx`): the reaction
    helpers, the optimistic like/dislike state of one comment, and the
    filter, sort and pagination of the top-level comments with the
    collapse/hide sets. */
module CommentList {

  import opened Wrappers
  import opened CommentTree
  import Reactions
  import Comments
  import Ordering

  // ---------------------------------------------------------------------
  // Reaction helpers

  /** One element of a comment's `reactions` array as the client reads it:
      `r.reaction` and `r.user?.id`. */
  datatype Reaction = Reaction(reaction: int, userId: Option<int>)

  datatype Vote = Like | Dislike

  /** The non-null entries, in order (`reactions.filter(r => r !== null)`). */
  function Valid(rs: seq<Option<Reaction>>): (v: seq<Reaction>)
    ensures |v| <= |rs|
    ensures forall r :: r in v <==> Some(r) in rs
  {
    if rs == [] then []
    else
      assert forall x :: x in rs <==> x == rs[0] || x in rs[1..];
      (if rs[0].Some? then [rs[0].value] else []) + Valid(rs[1..])
  }

  function CountLikes(v: seq<Reaction>): (n: nat)
    ensures n <= |v|
  {
    if v == [] then 0 else (if v[0].reaction == 1 then 1 else 0) + CountLikes(v[1..])
  }

  function CountNotLikes(v: seq<Reaction>): (n: nat)
    ensures n <= |v|
  {
    if v == [] then 0 else (if v[0].reaction != 1 then 1 else 0) + CountNotLikes(v[1..])
  }

  datatype Counts = Counts(likes: nat, dislikes: nat, total: nat)

  /** The present entries of the raw array that are likes (`like`) or are
      not (`!like`), counted on the array itself. */
  function Tally(rs: seq<Option<Reaction>>, like: bool): (n: nat)
    ensures n <= |rs|
  {
    if rs == [] then 0
    else (if rs[0].Some? && (rs[0].value.reaction == 1) == like then 1 else 0) + Tally(rs[1..], like)
  }

  /** `getReactionCounts`: likes are the entries equal to 1, dislikes every
      other non-null entry, and the total counts the non-null entries. */
  function ReactionCounts(rs: seq<Option<Reaction>>): (c: Counts)
    ensures c.likes == Tally(rs, true) && c.dislikes == Tally(rs, false)
    ensures c.total == c.likes + c.dislikes
    ensures c.total == |Valid(rs)|
  {
    var v := Valid(rs);
    LikesSplit(v);
    ValidTally(rs);
    Counts(CountLikes(v), CountNotLikes(v), |v|)
  }

  /** Counting after dropping the nulls is counting the present entries. */
  lemma {:induction false} ValidTally(rs: seq<Option<Reaction>>)
    ensures CountLikes(Valid(rs)) == Tally(rs, true)
    ensures CountNotLikes(Valid(rs)) == Tally(rs, false)
  {
    if rs != [] {
      ValidTally(rs[1..]);
      var v := Valid(rs);
      if rs[0].Some? {
        assert v == [rs[0].value] + Valid(rs[1..]);
        assert v[1..] == Valid(rs[1..]);
      } else {
        assert v == Valid(rs[1..]);
      }
    }
  }

  lemma {:induction false} LikesSplit(v: seq<Reaction>)
    ensures CountLikes(v) + CountNotLikes(v) == |v|
  {
    if v != [] {
      LikesSplit(v[1..]);
    }
  }

  /** `i` is the position of the first entry of user `u`. */
  predicate FirstEntry(v: seq<Reaction>, u: int, i: int) {
    && 0 <= i < |v| && v[i].userId == Some(u)
    && forall j :: 0 <= j < i ==> v[j].userId != Some(u)
  }

  lemma FirstEntryUnique(v: seq<Reaction>, u: int)
    ensures forall i, j :: FirstEntry(v, u, i) && FirstEntry(v, u, j) ==> i == j
  {
  }

  /** The first non-null entry whose user is `u` (`find`). */
  function FindByUser(v: seq<Reaction>, u: int): (r: Option<Reaction>)
    ensures r.None? <==> forall i :: 0 <= i < |v| ==> v[i].userId != Some(u)
    ensures r.Some? ==> exists i :: FirstEntry(v, u, i) && v[i] == r.value
  {
    if v == [] then None
    else if v[0].userId == Some(u) then
      assert FirstEntry(v, u, 0);
      Some(v[0])
    else
      assert forall i :: 1 <= i < |v| ==> v[i] == v[1..][i - 1];
      var r := FindByUser(v[1..], u);
      assert r.Some? ==> exists i :: FirstEntry(v, u, i) && v[i] == r.value by {
        if r.Some? {
          var i :| FirstEntry(v[1..], u, i) && v[1..][i] == r.value;
          assert FirstEntry(v, u, i + 1);
        }
      }
      r
  }

  lemma FindByUserCons(v: seq<Reaction>, u: int)
    requires v != []
    ensures FindByUser(v, u) == if v[0].userId == Some(u) then Some(v[0]) else FindByUser(v[1..], u)
  {
  }

  /** `getUserReaction`: null without a (truthy) user id or with no entries;
      otherwise the first entry of that user decides: 1 is a like, 0 or -1
      a dislike, anything else none. */
  function UserReaction(rs: seq<Option<Reaction>>, user: Option<int>): (r: Option<Vote>)
    ensures user.None? || user == Some(0) || rs == [] ==> r.None?
    ensures user.Some? && user != Some(0) ==>
      && (r == Some(Like) <==> exists i :: FirstEntry(Valid(rs), user.value, i) && Valid(rs)[i].reaction == 1)
      && (r == Some(Dislike) <==>
            exists i :: FirstEntry(Valid(rs), user.value, i) && Valid(rs)[i].reaction in {0, -1})
  {
    if user.None? || user.value == 0 || rs == [] then None
    else
      FirstEntryUnique(Valid(rs), user.value);
      match FindByUser(Valid(rs), user.value)
      case None => None
      case Some(e) =>
        if e.reaction == 1 then Some(Like)
        else if e.reaction == 0 || e.reaction == -1 then Some(Dislike)
        else None
  }

  // ---------------------------------------------------------------------
  // What the client reads from the server's aggregate

  /** The JSON array of the comment aggregate as the client sees it. */
  function FromServer(es: seq<Option<Comments.Entry>>): (rs: seq<Option<Reaction>>)
    ensures |rs| == |es|
    ensures forall i :: 0 <= i < |es| ==> (rs[i].None? <==> es[i].None?)
  {
    seq(|es|, i requires 0 <= i < |es| =>
      if es[i].None? then None else Some(Reaction(es[i].value.reaction, Some(es[i].value.userId))))
  }

  lemma EntriesCounts(rows: seq<Reactions.Row>, comment: int)
    ensures var v := Valid(FromServer(FromEntries(Comments.Entries(rows, comment))));
            && CountLikes(v) == Reactions.CountReactions(rows, comment, true)
            && CountNotLikes(v) == Reactions.CountReactions(rows, comment, false)
  {
    ValidFromEntries(Comments.Entries(rows, comment));
    ToClientCounts(rows, comment);
  }

  /** Each reaction row of the comment is one client entry of its polarity. */
  lemma {:induction false} ToClientCounts(rows: seq<Reactions.Row>, comment: int)
    ensures var v := ToClient(Comments.Entries(rows, comment));
            && CountLikes(v) == Reactions.CountReactions(rows, comment, true)
            && CountNotLikes(v) == Reactions.CountReactions(rows, comment, false)
  {
    if rows != [] {
      ToClientCounts(rows[1..], comment);
      var es := Comments.Entries(rows, comment);
      var rest := Comments.Entries(rows[1..], comment);
      if rows[0].target == comment {
        assert es == [es[0]] + rest;
        assert ToClient(es)[1..] == ToClient(rest);
      } else {
        assert es == rest;
      }
    }
  }

  function FromEntries(es: seq<Comments.Entry>): (r: seq<Option<Comments.Entry>>)
    ensures |r| == |es| && forall i :: 0 <= i < |es| ==> r[i] == Some(es[i])
  {
    seq(|es|, i requires 0 <= i < |es| => Some(es[i]))
  }

  /** The counts the client derives from a comment's `reactions` array
      agree with the server's `likes`, `dislikes` and `reaction_count`
      columns. */
  lemma ClientCountsMatchServer(rows: seq<Reactions.Row>, comment: int)
    ensures var a := Comments.CommentAggregate(rows, comment);
            ReactionCounts(FromServer(a.reactions)) == Counts(a.likes, a.dislikes, a.reactionCount)
  {
    var es := Comments.Entries(rows, comment);
    EntriesCounts(rows, comment);
    if es == [] {
      assert FromServer([None]) == [None];
      assert Valid([None]) == [];
    } else {
      assert Comments.CommentAggregate(rows, comment).reactions == FromEntries(es);
    }
  }

  /** The entries of one comment as the client reads them. */
  function ToClient(es: seq<Comments.Entry>): (v: seq<Reaction>)
    ensures |v| == |es|
  {
    seq(|es|, i requires 0 <= i < |es| => Reaction(es[i].reaction, Some(es[i].userId)))
  }

  lemma ValidCons(rs: seq<Option<Reaction>>)
    requires rs != [] && rs[0].Some?
    ensures Valid(rs) == [rs[0].value] + Valid(rs[1..])
  {
  }

  lemma {:induction false} ValidFromEntries(es: seq<Comments.Entry>)
    ensures Valid(FromServer(FromEntries(es))) == ToClient(es)
  {
    var v := ToClient(es);
    assert FromServer(FromEntries(es)) == Somes(v);
    ValidSomes(v);
  }

  function Somes(v: seq<Reaction>): (rs: seq<Option<Reaction>>)
    ensures |rs| == |v|
  {
    seq(|v|, i requires 0 <= i < |v| => Some(v[i]))
  }

  lemma {:induction false} ValidSomes(v: seq<Reaction>)
    ensures Valid(Somes(v)) == v
  {
    if v != [] {
      ValidSomes(v[1..]);
      assert Somes(v)[1..] == Somes(v[1..]);
      ValidCons(Somes(v));
      assert v == [v[0]] + v[1..];
    }
  }

  /** The client's first entry of a user is the server's first matching
      reaction row. */
  lemma {:induction false} FindMatchesLookup(rows: seq<Reactions.Row>, comment: int, u: int)
    ensures var l := Reactions.Lookup(rows, u, comment);
            FindByUser(ToClient(Comments.Entries(rows, comment)), u)
              == if l.None? then None else Some(Reaction(if l.value then 1 else 0, Some(u)))
  {
    if rows != [] {
      FindMatchesLookup(rows[1..], comment, u);
      var r0 := rows[0];
      var rest := ToClient(Comments.Entries(rows[1..], comment));
      ClientEntriesCons(rows, comment);
      LookupCons(rows, u, comment);
      if r0.target == comment {
        var x := Reaction(if r0.like then 1 else 0, Some(r0.user));
        assert ToClient(Comments.Entries(rows, comment)) == [x] + rest;
        FindByUserPrepend(x, rest, u);
      } else {
        assert ToClient(Comments.Entries(rows, comment)) == rest;
        assert !Reactions.Matches(r0, u, comment);
      }
    }
  }

  lemma ClientEntriesCons(rows: seq<Reactions.Row>, comment: int)
    requires rows != []
    ensures ToClient(Comments.Entries(rows, comment))
         == (if rows[0].target == comment then [Reaction(if rows[0].like then 1 else 0, Some(rows[0].user))] else [])
            + ToClient(Comments.Entries(rows[1..], comment))
  {
    var es := Comments.Entries(rows, comment);
    var rest := Comments.Entries(rows[1..], comment);
    if rows[0].target == comment {
      assert es == [es[0]] + rest;
      assert ToClient(es) == [ToClient(es)[0]] + ToClient(rest) by {
        assert ToClient(es)[1..] == ToClient(rest);
      }
    } else {
      assert es == rest;
    }
  }

  lemma LookupCons(rows: seq<Reactions.Row>, u: int, comment: int)
    requires rows != []
    ensures Reactions.Lookup(rows, u, comment)
         == if Reactions.Matches(rows[0], u, comment) then Some(rows[0].like) else Reactions.Lookup(rows[1..], u, comment)
  {
    assert rows == [rows[0]] + rows[1..];
    Reactions.SelectCons(rows[0], rows[1..], u, comment);
  }

  lemma FindByUserPrepend(x: Reaction, rest: seq<Reaction>, u: int)
    ensures FindByUser([x] + rest, u) == if x.userId == Some(u) then Some(x) else FindByUser(rest, u)
  {
    assert ([x] + rest)[1..] == rest;
    FindByUserCons([x] + rest, u);
  }

  /** The reaction the client highlights for a signed-in user is the
      polarity of that user's reaction row on the server. */
  lemma ClientUserReactionMatchesServer(rows: seq<Reactions.Row>, comment: int, u: int)
    requires u != 0
    ensures var l := Reactions.Lookup(rows, u, comment);
            UserReaction(FromServer(Comments.CommentAggregate(rows, comment).reactions), Some(u))
              == if l.None? then None else if l.value then Some(Like) else Some(Dislike)
  {
    var es := Comments.Entries(rows, comment);
    FindMatchesLookup(rows, comment, u);
    if es == [] {
      assert FromServer([None]) == [None];
      assert Valid([None]) == [];
      Reactions.NoMatchSelectsNothing(rows, u, comment);
    } else {
      ValidFromEntries(es);
    }
  }

  // ---------------------------------------------------------------------
  // Optimistic reactions of one comment

  /** `localReaction`, `localLikes`, `localDislikes`. */
  datatype Local = Local(reaction: Option<Vote>, likes: int, dislikes: int)

  /** `likeMut.onMutate`. */
  function OnLike(s: Local): (r: Local)
    ensures s.reaction == Some(Like) ==> r == Local(None, s.likes - 1, s.dislikes)
    ensures s.reaction == Some(Dislike) ==> r == Local(Some(Like), s.likes + 1, s.dislikes - 1)
    ensures s.reaction.None? ==> r == Local(Some(Like), s.likes + 1, s.dislikes)
  {
    match s.reaction
    case Some(Like) => s.(reaction := None, likes := s.likes - 1)
    case Some(Dislike) => s.(reaction := Some(Like), likes := s.likes + 1, dislikes := s.dislikes - 1)
    case None => s.(reaction := Some(Like), likes := s.likes + 1)
  }

  /** `dislikeMut.onMutate`. */
  function OnDislike(s: Local): (r: Local)
    ensures s.reaction == Some(Dislike) ==> r == Local(None, s.likes, s.dislikes - 1)
    ensures s.reaction == Some(Like) ==> r == Local(Some(Dislike), s.likes - 1, s.dislikes + 1)
    ensures s.reaction.None? ==> r == Local(Some(Dislike), s.likes, s.dislikes + 1)
  {
    match s.reaction
    case Some(Dislike) => s.(reaction := None, dislikes := s.dislikes - 1)
    case Some(Like) => s.(reaction := Some(Dislike), likes := s.likes - 1, dislikes := s.dislikes + 1)
    case None => s.(reaction := Some(Dislike), dislikes := s.dislikes + 1)
  }

  /** The view of a comment the server data gives for one user. */
  function ServerView(rows: seq<Reactions.Row>, user: int, comment: int): Local {
    var l := Reactions.Lookup(rows, user, comment);
    Local(if l.None? then None else if l.value then Some(Like) else Some(Dislike),
          Reactions.CountReactions(rows, comment, true),
          Reactions.CountReactions(rows, comment, false))
  }

  /** A click on like (`desired`) or dislike as the page settles it:
      `onMutate` applies the optimistic change, and `onError` sets the state
      back to the server's view it started from. */
  function Click(shown: Local, desired: bool, ok: bool): (r: Local)
    ensures !ok ==> r == shown
    ensures ok && desired ==> r == OnLike(shown)
    ensures ok && !desired ==> r == OnDislike(shown)
  {
    var optimistic := if desired then OnLike(shown) else OnDislike(shown);
    if ok then optimistic else shown
  }

  /** One click: the settled local state is the view of the table after
      the server's transaction, which a failure rolled back. */
  lemma ClickSettles(cs: seq<Comments.Comment>, t: Reactions.Table, user: int, comment: int,
                     desired: bool, now: int, fault: Option<string>)
    requires Reactions.UniquePairs(t.rows)
    ensures var res := Comments.React(cs, t, user, comment, desired, now, fault);
            Click(ServerView(t.rows, user, comment), desired, res.1.Ok?) == ServerView(res.0.rows, user, comment)
  {
    var res := Comments.React(cs, t, user, comment, desired, now, fault);
    if res.1.Ok? {
      var c := Comments.FindById(cs, comment).value;
      assert res.0 == Reactions.Toggle(t, user, comment, desired, c.postId, now, true).0;
      OptimisticMatchesServer(t, user, comment, desired, c.postId, now);
    }
  }

  /** A run of clicks, each with its request's fault if it fails. */
  datatype Press = Press(desired: bool, now: int, fault: Option<string>)

  /** The table after the server handles each press in turn, and the local
      state the page settles on after each. */
  function Presses(cs: seq<Comments.Comment>, t: Reactions.Table, user: int, comment: int,
                   ps: seq<Press>, shown: Local): (r: (Reactions.Table, Local))
    ensures ps == [] ==> r == (t, shown)
    decreases |ps|
  {
    if ps == [] then (t, shown)
    else
      var res := Comments.React(cs, t, user, comment, ps[0].desired, ps[0].now, ps[0].fault);
      Presses(cs, res.0, user, comment, ps[1..], Click(shown, ps[0].desired, res.1.Ok?))
  }

  /** However many clicks succeed or fail, the page that starts from the
      server's view never drifts from it: after every press it shows what the
      server would report. */
  lemma {:induction false} PressesStayInSync(cs: seq<Comments.Comment>, t: Reactions.Table, user: int,
                                             comment: int, ps: seq<Press>)
    requires Reactions.UniquePairs(t.rows)
    ensures var r := Presses(cs, t, user, comment, ps, ServerView(t.rows, user, comment));
            r.1 == ServerView(r.0.rows, user, comment) && Reactions.UniquePairs(r.0.rows)
    decreases |ps|
  {
    if ps != [] {
      var p := ps[0];
      var res := Comments.React(cs, t, user, comment, p.desired, p.now, p.fault);
      ClickSettles(cs, t, user, comment, p.desired, p.now, p.fault);
      ReactKeepsPairs(cs, t, user, comment, p.desired, p.now, p.fault);
      PressesStayInSync(cs, res.0, user, comment, ps[1..]);
    }
  }

  lemma ReactKeepsPairs(cs: seq<Comments.Comment>, t: Reactions.Table, user: int, comment: int,
                        desired: bool, now: int, fault: Option<string>)
    requires Reactions.UniquePairs(t.rows)
    ensures Reactions.UniquePairs(Comments.React(cs, t, user, comment, desired, now, fault).0.rows)
  {
    var res := Comments.React(cs, t, user, comment, desired, now, fault);
    if res.1.Ok? {
      var c := Comments.FindById(cs, comment).value;
      Reactions.ToggleKeepsUnique(t, user, comment, desired, c.postId, now, true);
    }
  }

  /** The optimistic update predicts the server: starting from the server's
      view, the local state after a like or dislike is exactly the view of
      the table after the server's toggle. */
  lemma OptimisticMatchesServer(t: Reactions.Table, user: int, comment: int, desired: bool,
                                postId: Option<int>, now: int)
    requires Reactions.UniquePairs(t.rows)
    ensures var after := Reactions.Toggle(t, user, comment, desired, postId, now, true).0.rows;
            var local := ServerView(t.rows, user, comment);
            (if desired then OnLike(local) else OnDislike(local)) == ServerView(after, user, comment)
  {
    var after := Reactions.Toggle(t, user, comment, desired, postId, now, true).0.rows;
    Reactions.ToggleCounts(t, user, comment, desired, postId, now, true, comment, true);
    Reactions.ToggleCounts(t, user, comment, desired, postId, now, true, comment, false);
    Reactions.ToggleRefinesMap(t, user, comment, desired, postId, now, true);
    Reactions.LookupIsView(t.rows, user, comment);
    Reactions.LookupIsView(after, user, comment);
  }

  // ---------------------------------------------------------------------
  // Filter

  datatype FilterOption = All | MyComments | RepliesToMe

  /** Whether the filter keeps a top-level comment. */
  predicate Keep(n: Node, opt: FilterOption, me: Option<int>) {
    match opt
    case All => true
    case MyComments => me == Some(n.item.userId)
    case RepliesToMe => exists i :: 0 <= i < |n.children| && me == Some(n.children[i].item.userId)
  }

  /** `filterComments`: the comments the option keeps, in order. With no
      current user neither "my_comments" nor "replies_to_me" keeps anything. */
  function Filter(ns: seq<Node>, opt: FilterOption, me: Option<int>): (r: seq<Node>)
    ensures |r| <= |ns|
  {
    if ns == [] then []
    else (if Keep(ns[0], opt, me) then [ns[0]] else []) + Filter(ns[1..], opt, me)
  }

  /** A comment is kept exactly when it is in the list and the option
      keeps it. */
  lemma {:induction false} FilterMembers(ns: seq<Node>, opt: FilterOption, me: Option<int>)
    ensures forall n :: n in Filter(ns, opt, me) <==> n in ns && Keep(n, opt, me)
  {
    if ns != [] {
      FilterMembers(ns[1..], opt, me);
      FilterCons(ns, opt, me);
      assert forall x :: x in ns <==> x == ns[0] || x in ns[1..];
    }
  }

  /** The filter works comment by comment and keeps their order: it
      distributes over concatenation, and on one comment it keeps it
      exactly when the option does. */
  lemma {:induction false} FilterAppend(a: seq<Node>, b: seq<Node>, n: Node, opt: FilterOption, me: Option<int>)
    ensures Filter(a + b, opt, me) == Filter(a, opt, me) + Filter(b, opt, me)
    ensures Filter([n], opt, me) == if Keep(n, opt, me) then [n] else []
  {
    FilterConcat(a, b, opt, me);
    FilterCons([n], opt, me);
    assert [n][1..] == [];
  }

  lemma {:induction false} FilterConcat(a: seq<Node>, b: seq<Node>, opt: FilterOption, me: Option<int>)
    ensures Filter(a + b, opt, me) == Filter(a, opt, me) + Filter(b, opt, me)
  {
    if a == [] {
      assert a + b == b;
    } else {
      var h := if Keep(a[0], opt, me) then [a[0]] else [];
      var x, y := Filter(a[1..], opt, me), Filter(b, opt, me);
      FilterConcat(a[1..], b, opt, me);
      assert Filter(a + b, opt, me) == h + (x + y) by {
        assert (a + b)[1..] == a[1..] + b;
        FilterCons(a + b, opt, me);
      }
      assert Filter(a, opt, me) == h + x by {
        FilterCons(a, opt, me);
      }
      Ordering.SeqAssoc(h, x, y);
    }
  }

  lemma FilterCons(ns: seq<Node>, opt: FilterOption, me: Option<int>)
    requires ns != []
    ensures Filter(ns, opt, me) == (if Keep(ns[0], opt, me) then [ns[0]] else []) + Filter(ns[1..], opt, me)
  {
  }

  /** "all" returns the list itself; with no current user the other two
      options return nothing. */
  lemma {:induction false} FilterAllIdentity(ns: seq<Node>, me: Option<int>)
    ensures Filter(ns, All, me) == ns
    ensures me.None? ==> Filter(ns, MyComments, me) == [] && Filter(ns, RepliesToMe, me) == []
  {
    if ns != [] {
      FilterAllIdentity(ns[1..], me);
      assert ns == [ns[0]] + ns[1..];
    }
    if me.None? {
      NothingKept(ns, MyComments, me);
      NothingKept(ns, RepliesToMe, me);
    }
  }

  /** An option that keeps no comment of the list filters it to nothing. */
  lemma NothingKept(ns: seq<Node>, opt: FilterOption, me: Option<int>)
    requires forall i :: 0 <= i < |ns| ==> !Keep(ns[i], opt, me)
    ensures Filter(ns, opt, me) == []
  {
  }

  // ---------------------------------------------------------------------
  // Sort

  datatype SortOption = Newest | Oldest | MostLiked | MostDiscussed

  /** The comparator `cmp(a, b)` of each option is `Key(a) - Key(b)`. */
  function Key(n: Node, opt: SortOption): int {
    match opt
    case Newest => -n.item.createdAt
    case Oldest => n.item.createdAt
    case MostLiked => -n.item.likes
    case MostDiscussed => -|n.children|
  }

  /** The comparator of an option as a key function. */
  function KeyOf(opt: SortOption): Node -> int {
    n => Key(n, opt)
  }

  predicate Sorted(ns: seq<Node>, opt: SortOption) {
    forall i, j :: 0 <= i < j < |ns| ==> Key(ns[i], opt) <= Key(ns[j], opt)
  }

  /** The comments with one key, in order. */
  function WithKey(ns: seq<Node>, opt: SortOption, k: int): (r: seq<Node>)
    ensures |r| <= |ns|
  {
    if ns == [] then [] else (if Key(ns[0], opt) == k then [ns[0]] else []) + WithKey(ns[1..], opt, k)
  }

  lemma {:induction false} WithKeyOf(ns: seq<Node>, opt: SortOption, k: int)
    ensures WithKey(ns, opt, k) == Ordering.WithKey(ns, KeyOf(opt), k)
  {
    if ns != [] {
      WithKeyOf(ns[1..], opt, k);
    }
  }

  /** `sortComments`: `Array.prototype.sort` on a copy, which is stable. */
  function Sort(ns: seq<Node>, opt: SortOption): (r: seq<Node>)
    ensures |r| == |ns|
    ensures multiset(r) == multiset(ns)
  {
    Ordering.SortBy(ns, KeyOf(opt))
  }

  /** The result is ordered by the comparator, and stable: the comments that
      compare equal keep their input order. */
  lemma SortCorrect(ns: seq<Node>, opt: SortOption)
    ensures Sorted(Sort(ns, opt), opt)
    ensures forall k :: WithKey(Sort(ns, opt), opt, k) == WithKey(ns, opt, k)
  {
    Ordering.SortCorrect(ns, KeyOf(opt));
    forall k ensures WithKey(Sort(ns, opt), opt, k) == WithKey(ns, opt, k) {
      WithKeyOf(Sort(ns, opt), opt, k);
      WithKeyOf(ns, opt, k);
    }
  }

  // ---------------------------------------------------------------------
  // Pagination

  /** `Array.prototype.slice(start, end)`: negative bounds count from the
      end, and both are clamped to the list. */
  function Slice<T>(s: seq<T>, start: int, end: int): (r: seq<T>)
    ensures |r| <= |s|
  {
    var n := |s|;
    var from := if start < 0 then (if n + start < 0 then 0 else n + start) else (if start > n then n else start);
    var to := if end < 0 then (if n + end < 0 then 0 else n + end) else (if end > n then n else end);
    if from < to then s[from..to] else []
  }

  /** The comments of page `p` with `k` per page. */
  function Page<T>(s: seq<T>, p: int, k: int): seq<T> {
    Slice(s, (p - 1) * k, (p - 1) * k + k)
  }

  /** `Math.ceil(n / k)`. */
  function TotalPages(n: nat, k: nat): (t: nat)
    requires k > 0
    ensures t * k >= n
    ensures t > 0 ==> (t - 1) * k < n
  {
    (n + k - 1) / k
  }

  /** For a page number from 1 on, a page is the run of `k` comments
      starting at `(p - 1) * k`, cut at the end of the list. */
  lemma PageWindow<T>(s: seq<T>, p: int, k: int)
    requires p >= 1 && k >= 1
    ensures (p - 1) * k >= |s| ==> Page(s, p, k) == []
    ensures (p - 1) * k < |s| ==>
      Page(s, p, k) == s[(p - 1) * k .. if (p - 1) * k + k < |s| then (p - 1) * k + k else |s|]
  {
    MulNonNeg(p - 1, k);
  }

  lemma MulNonNeg(a: int, b: int)
    requires a >= 0 && b >= 0
    ensures a * b >= 0
  {
  }

  lemma MulStep(a: int, k: int)
    ensures a * k + k == (a + 1) * k
  {
  }

  /** Pages `p`, `p + 1`, ..., `p + count - 1` one after another. */
  function Pages<T>(s: seq<T>, p: int, count: nat, k: int): seq<T>
    decreases count
  {
    if count == 0 then [] else Page(s, p, k) + Pages(s, p + 1, count - 1, k)
  }

  /** Reading all the pages in order gives back the whole list. */
  lemma PagesCover<T>(s: seq<T>, k: int)
    requires k >= 1
    ensures Pages(s, 1, TotalPages(|s|, k), k) == s
  {
    PagesFrom(s, 1, TotalPages(|s|, k), k, 0);
  }

  /** From page `p`, whose first index is `a`, `count` pages that reach the
      end of the list give the rest of the list. */
  lemma {:induction false} PagesFrom<T>(s: seq<T>, p: int, count: nat, k: int, a: int)
    requires k >= 1 && a >= 0 && a == (p - 1) * k
    requires a + count * k >= |s|
    ensures Pages(s, p, count, k) == s[if a < |s| then a else |s|..]
    decreases count
  {
    if count == 0 {
      assert count * k == 0;
    } else {
      MulStep(count - 1, k);
      MulStep(p - 1, k);
      PagesFrom(s, p + 1, count - 1, k, a + k);
      var mid := if a + k < |s| then a + k else |s|;
      if a < |s| {
        assert s[a..] == s[a..mid] + s[mid..];
      }
    }
  }

  // ---------------------------------------------------------------------
  // List state

  /** `commentState`. */
  datatype ListState = ListState(collapsed: set<int>, hidden: set<int>, sortBy: SortOption,
                                 filterBy: FilterOption, currentPage: int, commentsPerPage: int)

  /** The initial state: nothing collapsed or hidden, newest first, all
      comments, page 1 of 20. */
  function InitialListState(): (s: ListState)
    ensures s.collapsed == {} && s.hidden == {}
    ensures s.sortBy == Newest && s.filterBy == All
    ensures s.currentPage == 1 && s.commentsPerPage == 20
  {
    ListState({}, {}, Newest, All, 1, 20)
  }

  /** The page shown: filter, then sort, then slice. */
  function Shown(ns: seq<Node>, st: ListState, me: Option<int>): seq<Node> {
    Page(Sort(Filter(ns, st.filterBy, me), st.sortBy), st.currentPage, st.commentsPerPage)
  }

  /** Membership of one id flipped (`toggleCollapse`, `toggleHide`). */
  function ToggleId(s: set<int>, id: int): (r: set<int>)
    ensures id in r <==> id !in s
    ensures forall x :: x != id ==> (x in r <==> x in s)
  {
    if id in s then s - {id} else s + {id}
  }

  function ToggleCollapse(st: ListState, id: int): (r: ListState)
    ensures r.collapsed == ToggleId(st.collapsed, id)
    ensures r.(collapsed := st.collapsed) == st
  {
    st.(collapsed := ToggleId(st.collapsed, id))
  }

  function ToggleHide(st: ListState, id: int): (r: ListState)
    ensures r.hidden == ToggleId(st.hidden, id)
    ensures r.(hidden := st.hidden) == st
  {
    st.(hidden := ToggleId(st.hidden, id))
  }

  /** Toggling the same id twice restores the state. */
  lemma ToggleTwice(st: ListState, id: int)
    ensures ToggleCollapse(ToggleCollapse(st, id), id) == st
    ensures ToggleHide(ToggleHide(st, id), id) == st
  {
    assert ToggleId(ToggleId(st.collapsed, id), id) == st.collapsed;
    assert ToggleId(ToggleId(st.hidden, id), id) == st.hidden;
  }
}

=== FILE: comment_tree.dfy ===
/** The two comment-thread builders.

    The server (`buildCommentTree` in `backend/controllers/commentController.ts`)
    makes two passes over the flat list: the first indexes a copy of every
    comment by id with an empty `children` array, the second appends every
    root to the result and every other comment to the `children` of its
    parent when the parent was indexed. The copies are shared objects, so
    the result is an id-indexed arena: `Entry.children` lists ids, and the
    response serialises the arena into nested nodes (`Serialise*`).

    The client (`buildCommentTree` in `front-end/src/utils/commentUtils.ts`)
    filters the flat list on `parentComment_id === parentId` and recurses on
    each selected comment's id. The recursion terminates exactly when the
    parent links reachable from the starting level are acyclic; the witness
    of that is a rank on the reachable ids that strictly decreases from a
    parent to its children. Comments on a cycle no root reaches are never
    visited. */
module CommentTree {

  import opened Wrappers

  /** The fields of a comment the threading and the list views use. `likes`
      is the parsed `likes` column. */
  datatype Item = Item(id: int, parent: Option<int>, userId: int, createdAt: int, likes: int)

  /** A comment with its nested replies. */
  datatype Node = Node(item: Item, children: seq<Node>)

  function Ids(items: seq<Item>): (r: seq<int>)
    ensures |r| == |items| && forall i :: 0 <= i < |items| ==> r[i] == items[i].id
  {
    seq(|items|, i requires 0 <= i < |items| => items[i].id)
  }

  function IdSet(items: seq<Item>): set<int> {
    set i | 0 <= i < |items| :: items[i].id
  }

  predicate DistinctIds(items: seq<Item>) {
    forall i, j :: 0 <= i < j < |items| ==> items[i].id != items[j].id
  }

  /** `flat.filter(c => c.parentComment_id === p)`: the comments whose parent
      is `p`, in input order. */
  function Children(flat: seq<Item>, p: Option<int>): (r: seq<Item>)
    ensures |r| <= |flat|
    ensures forall i :: 0 <= i < |r| ==> r[i] in flat && r[i].parent == p
  {
    if flat == [] then []
    else
      var r := (if flat[0].parent == p then [flat[0]] else []) + Children(flat[1..], p);
      assert forall i :: 0 <= i < |r| ==> r[i] == flat[0] || r[i] in flat[1..];
      r
  }

  /** The children of `p` are exactly the comments naming `p`. */
  lemma {:induction false} ChildrenMember(flat: seq<Item>, p: Option<int>, x: Item)
    ensures x in Children(flat, p) <==> x in flat && x.parent == p
  {
    if flat != [] {
      ChildrenMember(flat[1..], p, x);
      assert x in flat <==> x == flat[0] || x in flat[1..] by {
        assert flat == [flat[0]] + flat[1..];
      }
    }
  }

  lemma {:induction false} ChildrenSnoc(flat: seq<Item>, c: Item, p: Option<int>)
    ensures Children(flat + [c], p) == Children(flat, p) + (if c.parent == p then [c] else [])
  {
    var t := if c.parent == p then [c] else [];
    if flat == [] {
      assert [c][1..] == [];
      assert Children([c], p) == t + Children([], p);
      assert flat + [c] == [c];
    } else {
      var h := if flat[0].parent == p then [flat[0]] else [];
      assert (flat + [c])[1..] == flat[1..] + [c];
      assert Children(flat + [c], p) == h + Children(flat[1..] + [c], p);
      ChildrenSnoc(flat[1..], c, p);
      assert Children(flat, p) == h + Children(flat[1..], p);
      assert h + (Children(flat[1..], p) + t) == (h + Children(flat[1..], p)) + t;
    }
  }

  // ---------------------------------------------------------------------
  // The client builder

  /** A rank on ids that strictly decreases from a parent to its child, for
      every comment whose parent is null or ranked: the comments reachable
      from the roots have acyclic parent links. A comment on a cycle no root
      reaches needs no rank. */
  predicate RankedBelow(flat: seq<Item>, rank: map<int, nat>) {
    forall i :: 0 <= i < |flat| && Rooted(flat[i].parent, rank) ==>
      && flat[i].id in rank
      && (flat[i].parent.Some? ==> rank[flat[i].parent.value] > rank[flat[i].id])
  }

  /** A level the recursion may start from: null or a ranked id. */
  predicate Rooted(p: Option<int>, rank: map<int, nat>) {
    p.None? || p.value in rank
  }

  /** A rank that covers every comment: all parent links are acyclic. */
  predicate Ranked(flat: seq<Item>, rank: map<int, nat>) {
    && RankedBelow(flat, rank)
    && forall i :: 0 <= i < |flat| ==> flat[i].id in rank
  }

  lemma RankedItem(flat: seq<Item>, rank: map<int, nat>, x: Item)
    requires RankedBelow(flat, rank) && x in flat && Rooted(x.parent, rank)
    ensures x.id in rank
    ensures x.parent.Some? ==> rank[x.parent.value] > rank[x.id]
  {
    var i :| 0 <= i < |flat| && flat[i] == x;
  }

  /** A comment that is its own parent is never shown: no rank can hold its
      id, and every comment of a built tree is ranked. */
  lemma SelfParentIgnored(flat: seq<Item>, p: Option<int>, rank: map<int, nat>, x: Item)
    requires RankedBelow(flat, rank) && Rooted(p, rank)
    requires x.parent == Some(x.id)
    ensures x !in Flatten(Build(flat, p, rank))
  {
    BuildNoOrphans(flat, p, rank);
    if x in Flatten(Build(flat, p, rank)) {
      RankedItem(flat, rank, x);
    }
  }

  /** The list of one self-parented comment builds no tree at all. */
  lemma SelfParentAlone()
    ensures var flat := [Item(5, Some(5), 1, 0, 0)];
            RankedBelow(flat, map[]) && Build(flat, None, map[]) == []
  {
    var flat := [Item(5, Some(5), 1, 0, 0)];
    assert Children(flat, None) == [] by {
      assert flat[1..] == [];
    }
  }

  function Level(p: Option<int>, rank: map<int, nat>): nat {
    if p.None? then 2 else if p.value in rank then 1 else 3
  }

  function RankOf(p: Option<int>, rank: map<int, nat>): nat {
    if p.Some? && p.value in rank then rank[p.value] else 0
  }

  /** `buildCommentTree(flat, p)` of the client: the comments whose parent is
      `p`, each with its replies, then the trailing filter that keeps a node
      with replies or with parent `p`. */
  function Build(flat: seq<Item>, p: Option<int>, ghost rank: map<int, nat>): (r: seq<Node>)
    requires RankedBelow(flat, rank) && Rooted(p, rank)
    ensures |r| == |Children(flat, p)|
    ensures forall i :: 0 <= i < |r| ==> r[i].item == Children(flat, p)[i]
    decreases Level(p, rank), RankOf(p, rank), |flat| + 1
  {
    var expanded := Expand(flat, Children(flat, p), p, rank);
    KeepRepliedNoOp(expanded, p);
    KeepReplied(expanded, p)
  }

  /** The `map` step: every selected comment with `replies` built for it. */
  function Expand(flat: seq<Item>, items: seq<Item>, p: Option<int>, ghost rank: map<int, nat>): (r: seq<Node>)
    requires RankedBelow(flat, rank) && Rooted(p, rank)
    requires forall i :: 0 <= i < |items| ==> items[i] in flat && items[i].parent == p
    ensures |r| == |items|
    ensures forall i :: 0 <= i < |r| ==> r[i].item == items[i]
    decreases Level(p, rank), RankOf(p, rank), |items|
  {
    if items == [] then []
    else
      RankedItem(flat, rank, items[0]);
      [Node(items[0], Build(flat, Some(items[0].id), rank))] + Expand(flat, items[1..], p, rank)
  }

  /** The trailing `filter(c => c.replies.length > 0 || c.parentComment_id === p)`. */
  function KeepReplied(nodes: seq<Node>, p: Option<int>): (r: seq<Node>)
    ensures |r| <= |nodes|
  {
    if nodes == [] then []
    else
      (if |nodes[0].children| > 0 || nodes[0].item.parent == p then [nodes[0]] else [])
      + KeepReplied(nodes[1..], p)
  }

  /** The trailing filter keeps everything: every node already has parent `p`. */
  lemma {:induction false} KeepRepliedNoOp(nodes: seq<Node>, p: Option<int>)
    requires forall i :: 0 <= i < |nodes| ==> nodes[i].item.parent == p
    ensures KeepReplied(nodes, p) == nodes
  {
    if nodes != [] {
      KeepRepliedNoOp(nodes[1..], p);
    }
  }

  /** Each node of a level carries as replies the level built for its id. */
  lemma BuildReplies(flat: seq<Item>, p: Option<int>, rank: map<int, nat>, i: nat)
    requires RankedBelow(flat, rank) && Rooted(p, rank) && i < |Build(flat, p, rank)|
    ensures Build(flat, p, rank)[i].children == Build(flat, Some(Build(flat, p, rank)[i].item.id), rank)
  {
    var items := Children(flat, p);
    KeepRepliedNoOp(Expand(flat, items, p, rank), p);
    ExpandReplies(flat, items, p, rank, i);
  }

  lemma {:induction false} ExpandReplies(flat: seq<Item>, items: seq<Item>, p: Option<int>,
                                         rank: map<int, nat>, i: nat)
    requires RankedBelow(flat, rank) && Rooted(p, rank)
    requires forall k :: 0 <= k < |items| ==> items[k] in flat && items[k].parent == p
    requires i < |items|
    ensures Expand(flat, items, p, rank)[i].children == Build(flat, Some(items[i].id), rank)
  {
    if i > 0 {
      ExpandReplies(flat, items[1..], p, rank, i - 1);
    }
  }

  /** Every comment of a tree, in pre-order. */
  function Flatten(ts: seq<Node>): seq<Item>
    decreases ts
  {
    if ts == [] then [] else [ts[0].item] + Flatten(ts[0].children) + Flatten(ts[1..])
  }

  /** Whatever appears anywhere in a built tree is an input comment whose
      parent is either the level's `p` or the id of an input comment. In
      particular the top-level call (`p` = null) never shows a comment whose
      parent is missing from the input. */
  lemma {:induction false} BuildNoOrphans(flat: seq<Item>, p: Option<int>, rank: map<int, nat>)
    requires RankedBelow(flat, rank) && Rooted(p, rank)
    ensures forall x :: x in Flatten(Build(flat, p, rank)) ==>
      x in flat && x.id in rank && (x.parent == p || (x.parent.Some? && x.parent.value in IdSet(flat)))
    decreases Level(p, rank), RankOf(p, rank), |flat| + 1
  {
    var items := Children(flat, p);
    KeepRepliedNoOp(Expand(flat, items, p, rank), p);
    ExpandNoOrphans(flat, items, p, rank);
  }

  lemma {:induction false} ExpandNoOrphans(flat: seq<Item>, items: seq<Item>, p: Option<int>, rank: map<int, nat>)
    requires RankedBelow(flat, rank) && Rooted(p, rank)
    requires forall i :: 0 <= i < |items| ==> items[i] in flat && items[i].parent == p
    ensures forall x :: x in Flatten(Expand(flat, items, p, rank)) ==>
      x in flat && x.id in rank && (x.parent == p || (x.parent.Some? && x.parent.value in IdSet(flat)))
    decreases Level(p, rank), RankOf(p, rank), |items|
  {
    if items != [] {
      var c := items[0];
      RankedItem(flat, rank, c);
      var e := Expand(flat, items, p, rank);
      var sub := Build(flat, Some(c.id), rank);
      BuildNoOrphans(flat, Some(c.id), rank);
      ExpandNoOrphans(flat, items[1..], p, rank);
      assert e == [Node(c, sub)] + Expand(flat, items[1..], p, rank);
      assert e[1..] == Expand(flat, items[1..], p, rank);
      assert Flatten(e) == [c] + Flatten(sub) + Flatten(e[1..]);
      var k :| 0 <= k < |flat| && flat[k] == c;
      assert c.id in IdSet(flat);
    }
  }

  // ---------------------------------------------------------------------
  // The server builder

  /** The indexed copy of a comment and the ids appended to its `children`. */
  datatype Entry = Entry(item: Item, children: seq<int>)

  /** What the two passes produce. Each id of the input is indexed by the
      last comment that carries it; the roots are the null-parent comments
      and each `children` list the comments naming that id as parent, both
      in input order. A comment whose parent id is not indexed is in
      neither. */
  predicate ServerShape(flat: seq<Item>, roots: seq<int>, arena: map<int, Entry>) {
    && arena.Keys == IdSet(flat)
    && (forall i :: 0 <= i < |flat| && (forall j :: i < j < |flat| ==> flat[j].id != flat[i].id) ==>
          arena[flat[i].id].item == flat[i])
    && (forall x :: x in arena ==> arena[x].children == Ids(Children(flat, Some(x))))
    && roots == Ids(Children(flat, None))
  }

  /** `buildCommentTree` of the server. */
  method BuildServer(flat: seq<Item>) returns (roots: seq<int>, arena: map<int, Entry>)
    ensures ServerShape(flat, roots, arena)
  {
    var indexed := IndexPass(flat);
    roots, arena := AttachPass(flat, indexed);
  }

  /** First pass: index a copy of every comment with no children; a later
      comment with the same id overwrites an earlier one. */
  method IndexPass(flat: seq<Item>) returns (arena: map<int, Entry>)
    ensures arena.Keys == IdSet(flat)
    ensures forall x :: x in arena ==> arena[x].children == []
    ensures forall i :: 0 <= i < |flat| && (forall j :: i < j < |flat| ==> flat[j].id != flat[i].id) ==>
      arena[flat[i].id].item == flat[i]
  {
    arena := map[];
    var i := 0;
    assert flat[..0] == [];
    while i < |flat|
      invariant 0 <= i <= |flat|
      invariant IndexInv(flat[..i], arena)
    {
      assert flat[..i + 1] == flat[..i] + [flat[i]];
      IndexPreserves(flat[..i], flat[i], arena);
      arena := arena[flat[i].id := Entry(flat[i], [])];
      i := i + 1;
    }
    assert flat[..i] == flat;
  }

  /** The first pass after the comments `done`: every id indexed, no
      children yet, and the last comment of each id is the one kept. */
  predicate IndexInv(done: seq<Item>, arena: map<int, Entry>) {
    && arena.Keys == IdSet(done)
    && (forall x :: x in arena ==> arena[x].children == [])
    && (forall k :: 0 <= k < |done| && (forall j :: k < j < |done| ==> done[j].id != done[k].id) ==>
          arena[done[k].id].item == done[k])
  }

  lemma IndexPreserves(done: seq<Item>, c: Item, arena: map<int, Entry>)
    requires IndexInv(done, arena)
    ensures IndexInv(done + [c], arena[c.id := Entry(c, [])])
  {
    var d := done + [c];
    var a := arena[c.id := Entry(c, [])];
    assert IdSet(d) == IdSet(done) + {c.id} by {
      assert forall k :: 0 <= k < |done| ==> d[k] == done[k];
      assert d[|done|] == c;
    }
    forall k | 0 <= k < |d| && (forall j :: k < j < |d| ==> d[j].id != d[k].id)
      ensures a[d[k].id].item == d[k]
    {
      if k < |done| {
        assert d[|done|] == c && c.id != done[k].id;
        assert forall j :: k < j < |done| ==> done[j] == d[j];
      }
    }
  }

  /** Second pass: append every root to the result and every other comment
      to the children of its parent when the parent is indexed. */
  method AttachPass(flat: seq<Item>, indexed: map<int, Entry>) returns (roots: seq<int>, arena: map<int, Entry>)
    requires forall x :: x in indexed ==> indexed[x].children == []
    ensures arena.Keys == indexed.Keys
    ensures forall x :: x in arena ==> arena[x].item == indexed[x].item
    ensures forall x :: x in arena ==> arena[x].children == Ids(Children(flat, Some(x)))
    ensures roots == Ids(Children(flat, None))
  {
    arena := indexed;
    roots := [];
    var i := 0;
    assert flat[..0] == [];
    while i < |flat|
      invariant 0 <= i <= |flat|
      invariant AttachInv(flat[..i], indexed, roots, arena)
    {
      assert flat[..i + 1] == flat[..i] + [flat[i]];
      AttachPreserves(flat[..i], flat[i], indexed, roots, arena);
      var step := Attach(roots, arena, flat[i]);
      roots, arena := step.0, step.1;
      i := i + 1;
    }
    assert flat[..i] == flat;
  }

  /** The second pass after the comments `done`. */
  predicate AttachInv(done: seq<Item>, indexed: map<int, Entry>, roots: seq<int>, arena: map<int, Entry>) {
    && arena.Keys == indexed.Keys
    && (forall x :: x in arena ==> arena[x].item == indexed[x].item)
    && (forall x :: x in arena ==> arena[x].children == Ids(Children(done, Some(x))))
    && roots == Ids(Children(done, None))
  }

  lemma AttachPreserves(done: seq<Item>, c: Item, indexed: map<int, Entry>, roots: seq<int>, arena: map<int, Entry>)
    requires AttachInv(done, indexed, roots, arena)
    ensures AttachInv(done + [c], indexed, Attach(roots, arena, c).0, Attach(roots, arena, c).1)
  {
    AttachStep(done, c);
  }

  /** One step of the second pass. */
  function Attach(roots: seq<int>, arena: map<int, Entry>, c: Item): (res: (seq<int>, map<int, Entry>))
    ensures res.0 == roots + (if c.parent.None? then [c.id] else [])
    ensures res.1.Keys == arena.Keys
    ensures forall x :: x in res.1 ==>
      && res.1[x].item == arena[x].item
      && res.1[x].children == arena[x].children + (if c.parent == Some(x) then [c.id] else [])
  {
    if c.parent.None? then (roots + [c.id], arena)
    else if c.parent.value in arena then
      var e := arena[c.parent.value];
      (roots, arena[c.parent.value := e.(children := e.children + [c.id])])
    else (roots, arena)
  }

  /** How one more comment changes every level's id list. */
  lemma AttachStep(done: seq<Item>, c: Item)
    ensures forall p :: Ids(Children(done + [c], p)) == Ids(Children(done, p)) + (if c.parent == p then [c.id] else [])
  {
    forall p
      ensures Ids(Children(done + [c], p)) == Ids(Children(done, p)) + (if c.parent == p then [c.id] else [])
    {
      ChildrenSnoc(done, c, p);
    }
  }

  /** The arena's child links go from a higher to a lower rank. */
  predicate ArenaRanked(arena: map<int, Entry>, rank: map<int, nat>) {
    forall x :: x in arena ==>
      && x in rank
      && forall k :: k in arena[x].children ==> k in arena && k in rank && rank[k] < rank[x]
  }

  /** The JSON serialisation of the indexed copy of `x`. */
  function SerialiseOne(arena: map<int, Entry>, x: int, ghost rank: map<int, nat>): Node
    requires ArenaRanked(arena, rank) && x in arena
    decreases rank[x], 1, 0
  {
    Node(arena[x].item, SerialiseList(arena, arena[x].children, rank[x], rank))
  }

  function SerialiseList(arena: map<int, Entry>, ids: seq<int>, ghost bound: nat,
                         ghost rank: map<int, nat>): (r: seq<Node>)
    requires ArenaRanked(arena, rank)
    requires forall k :: k in ids ==> k in arena && k in rank && rank[k] < bound
    ensures |r| == |ids|
    decreases bound, 0, |ids|
  {
    if ids == [] then []
    else [SerialiseOne(arena, ids[0], rank)] + SerialiseList(arena, ids[1..], bound, rank)
  }

  /** The serialised result array. */
  function SerialiseRoots(arena: map<int, Entry>, roots: seq<int>, ghost rank: map<int, nat>): (r: seq<Node>)
    requires ArenaRanked(arena, rank)
    requires forall k :: k in roots ==> k in arena
    ensures |r| == |roots|
  {
    if roots == [] then [] else [SerialiseOne(arena, roots[0], rank)] + SerialiseRoots(arena, roots[1..], rank)
  }

  // ---------------------------------------------------------------------
  // Properties of the server builder

  lemma IdsMember(items: seq<Item>, k: int)
    ensures k in Ids(items) <==> exists j :: 0 <= j < |items| && items[j].id == k
  {
    if k in Ids(items) {
      var j :| 0 <= j < |Ids(items)| && Ids(items)[j] == k;
    }
  }

  /** With distinct ids, an id is in a children list exactly when its
      comment names that parent, and it is a root exactly when its comment
      has no parent: every comment is placed at most once, and a comment
      whose parent is not an input comment is placed nowhere. */
  lemma ServerPlacement(flat: seq<Item>, roots: seq<int>, arena: map<int, Entry>, c: Item)
    requires ServerShape(flat, roots, arena) && DistinctIds(flat) && c in flat
    ensures c.id in roots <==> c.parent.None?
    ensures forall x :: x in arena ==> (c.id in arena[x].children <==> c.parent == Some(x))
    ensures c.parent.Some? && c.parent.value !in IdSet(flat) ==>
      c.id !in roots && forall x :: x in arena ==> c.id !in arena[x].children
  {
    forall p: Option<int>
      ensures c.id in Ids(Children(flat, p)) <==> c.parent == p
    {
      IdInChildren(flat, p, c);
    }
  }

  /** With distinct ids, a comment's id is in the list for `p` exactly when
      the comment names `p` as its parent. */
  lemma IdInChildren(flat: seq<Item>, p: Option<int>, c: Item)
    requires DistinctIds(flat) && c in flat
    ensures c.id in Ids(Children(flat, p)) <==> c.parent == p
  {
    var cs := Children(flat, p);
    if c.parent == p {
      ChildrenMember(flat, p, c);
      var j :| 0 <= j < |cs| && cs[j] == c;
      assert Ids(cs)[j] == c.id;
    }
    if c.id in Ids(cs) {
      var j :| 0 <= j < |cs| && Ids(cs)[j] == c.id;
      SameIdSameItem(flat, cs[j], c);
    }
  }

  lemma SameIdSameItem(flat: seq<Item>, d: Item, c: Item)
    requires DistinctIds(flat) && d in flat && c in flat && d.id == c.id
    ensures d == c
  {
    var a :| 0 <= a < |flat| && flat[a] == d;
    var b :| 0 <= b < |flat| && flat[b] == c;
  }

  /** A list of distinct ids has no repeated entry. */
  lemma {:induction false} ChildrenDistinct(flat: seq<Item>, p: Option<int>)
    requires DistinctIds(flat)
    ensures DistinctIds(Children(flat, p))
  {
    if flat != [] {
      var tail := flat[1..];
      assert DistinctIds(tail) by {
        forall i, j | 0 <= i < j < |tail| ensures tail[i].id != tail[j].id {
          assert tail[i] == flat[i + 1] && tail[j] == flat[j + 1];
        }
      }
      ChildrenDistinct(tail, p);
      var r := Children(flat, p);
      var rest := Children(tail, p);
      if flat[0].parent == p {
        assert r == [flat[0]] + rest;
        forall k | 0 <= k < |rest| ensures rest[k].id != flat[0].id {
          assert rest[k] in tail;
          var m :| 0 <= m < |tail| && tail[m] == rest[k];
          assert flat[m + 1] == rest[k];
        }
        DistinctCons(flat[0], rest);
      } else {
        assert r == rest;
      }
    }
  }

  lemma DistinctCons(x: Item, rest: seq<Item>)
    requires DistinctIds(rest) && forall k :: 0 <= k < |rest| ==> rest[k].id != x.id
    ensures DistinctIds([x] + rest)
  {
    var r := [x] + rest;
    forall i, j | 0 <= i < j < |r| ensures r[i].id != r[j].id {
      assert r[j] == rest[j - 1];
      if i > 0 {
        assert r[i] == rest[i - 1];
      }
    }
  }

  /** The number of roots equals the number of null-parent comments, and no
      id is repeated in the roots or in any children list. */
  lemma ServerCounts(flat: seq<Item>, roots: seq<int>, arena: map<int, Entry>)
    requires ServerShape(flat, roots, arena) && DistinctIds(flat)
    ensures |roots| == |Children(flat, None)|
    ensures forall i, j :: 0 <= i < j < |roots| ==> roots[i] != roots[j]
    ensures forall x, i, j :: x in arena && 0 <= i < j < |arena[x].children| ==>
      arena[x].children[i] != arena[x].children[j]
  {
    ChildrenDistinct(flat, None);
    forall x, i, j | x in arena && 0 <= i < j < |arena[x].children|
      ensures arena[x].children[i] != arena[x].children[j]
    {
      ChildrenDistinct(flat, Some(x));
    }
  }

  // ---------------------------------------------------------------------
  // Cross-check: on acyclic input with distinct ids both builders agree

  /** Every input comment is indexed by itself with its children list. */
  predicate Indexed(flat: seq<Item>, arena: map<int, Entry>) {
    forall i :: 0 <= i < |flat| ==>
      && flat[i].id in arena
      && arena[flat[i].id].item == flat[i]
      && arena[flat[i].id].children == Ids(Children(flat, Some(flat[i].id)))
  }

  lemma ShapeIndexed(flat: seq<Item>, roots: seq<int>, arena: map<int, Entry>)
    requires ServerShape(flat, roots, arena) && DistinctIds(flat)
    ensures Indexed(flat, arena)
  {
    forall i | 0 <= i < |flat|
      ensures flat[i].id in arena && arena[flat[i].id].item == flat[i]
    {
      assert flat[i].id in IdSet(flat);
    }
  }

  lemma ShapeRanked(flat: seq<Item>, roots: seq<int>, arena: map<int, Entry>, rank: map<int, nat>)
    requires ServerShape(flat, roots, arena) && Ranked(flat, rank)
    ensures ArenaRanked(arena, rank)
  {
    forall x | x in arena
      ensures x in rank
      ensures forall k :: k in arena[x].children ==> k in arena && k in rank && rank[k] < rank[x]
    {
      assert x in IdSet(flat);
      var a :| 0 <= a < |flat| && flat[a].id == x;
      forall k | k in arena[x].children
        ensures k in arena && k in rank && rank[k] < rank[x]
      {
        var cs := Children(flat, Some(x));
        IdsMember(cs, k);
        var j :| 0 <= j < |cs| && cs[j].id == k;
        RankedItem(flat, rank, cs[j]);
        var b :| 0 <= b < |flat| && flat[b] == cs[j];
        assert k in IdSet(flat);
      }
    }
  }

  lemma {:induction false} SerialiseOneAgrees(flat: seq<Item>, arena: map<int, Entry>,
                                              rank: map<int, nat>, c: Item)
    requires Ranked(flat, rank) && ArenaRanked(arena, rank) && Indexed(flat, arena) && c in flat
    ensures c.id in arena
    ensures SerialiseOne(arena, c.id, rank) == Node(c, Build(flat, Some(c.id), rank))
    decreases rank[c.id], 1, 0
  {
    var cs := Children(flat, Some(c.id));
    assert c.id in arena && arena[c.id] == Entry(c, Ids(cs)) by {
      var a :| 0 <= a < |flat| && flat[a] == c;
    }
    var e := Expand(flat, cs, Some(c.id), rank);
    assert SerialiseList(arena, Ids(cs), rank[c.id], rank) == e by {
      SerialiseListAgrees(flat, arena, rank, cs, Some(c.id), rank[c.id]);
    }
    assert Build(flat, Some(c.id), rank) == e by {
      KeepRepliedNoOp(e, Some(c.id));
    }
  }

  lemma {:induction false} SerialiseListAgrees(flat: seq<Item>, arena: map<int, Entry>,
                                               rank: map<int, nat>, items: seq<Item>, p: Option<int>,
                                               bound: nat)
    requires Ranked(flat, rank) && ArenaRanked(arena, rank) && Indexed(flat, arena) && Rooted(p, rank)
    requires forall i :: 0 <= i < |items| ==> items[i] in flat && items[i].parent == p
    requires forall k :: k in Ids(items) ==> k in arena && k in rank && rank[k] < bound
    ensures SerialiseList(arena, Ids(items), bound, rank) == Expand(flat, items, p, rank)
    decreases bound, 0, |items|
  {
    if items != [] {
      var ids := Ids(items);
      assert ids[0] == items[0].id && ids[0] in ids;
      assert ids[1..] == Ids(items[1..]);
      assert SerialiseList(arena, ids, bound, rank)
          == [SerialiseOne(arena, ids[0], rank)] + SerialiseList(arena, ids[1..], bound, rank);
      assert SerialiseOne(arena, ids[0], rank) == Node(items[0], Build(flat, Some(items[0].id), rank)) by {
        SerialiseOneAgrees(flat, arena, rank, items[0]);
      }
      assert SerialiseList(arena, ids[1..], bound, rank) == Expand(flat, items[1..], p, rank) by {
        SerialiseListAgrees(flat, arena, rank, items[1..], p, bound);
      }
    }
  }

  lemma {:induction false} SerialiseRootsAgrees(flat: seq<Item>, arena: map<int, Entry>,
                                                rank: map<int, nat>, items: seq<Item>)
    requires Ranked(flat, rank) && ArenaRanked(arena, rank) && Indexed(flat, arena)
    requires forall i :: 0 <= i < |items| ==> items[i] in flat && items[i].parent.None?
    ensures forall k :: k in Ids(items) ==> k in arena
    ensures SerialiseRoots(arena, Ids(items), rank) == Expand(flat, items, None, rank)
  {
    if items != [] {
      assert Ids(items)[1..] == Ids(items[1..]);
      SerialiseOneAgrees(flat, arena, rank, items[0]);
      SerialiseRootsAgrees(flat, arena, rank, items[1..]);
    }
  }

  /** On input with acyclic parent links and distinct ids, the serialised
      server tree is exactly the client's tree for `parentId` = null. */
  lemma ServerMatchesClient(flat: seq<Item>, roots: seq<int>, arena: map<int, Entry>, rank: map<int, nat>)
    requires ServerShape(flat, roots, arena) && Ranked(flat, rank) && DistinctIds(flat)
    ensures ArenaRanked(arena, rank)
    ensures forall k :: k in roots ==> k in arena
    ensures SerialiseRoots(arena, roots, rank) == Build(flat, None, rank)
  {
    ShapeRanked(flat, roots, arena, rank);
    ShapeIndexed(flat, roots, arena);
    var cs := Children(flat, None);
    var e := Expand(flat, cs, None, rank);
    assert SerialiseRoots(arena, roots, rank) == e by {
      SerialiseRootsAgrees(flat, arena, rank, cs);
    }
    assert Build(flat, None, rank) == e by {
      KeepRepliedNoOp(e, None);
    }
  }
}

=== FILE: comments.dfy ===
/** The comment store and the comment side of the reaction store
    (`backend/models/Comments.ts`): `create` with its null normalisation,
    `findById`, `update`, `deleteById`, the `likeComment`/`dislikeComment`
    transactions and the per-comment aggregate of `findCommentByPostId`.

    In `comment_reactions` the target of a row is the comment, an inserted
    row records the post of the comment, and a flip also sets `updated_at`. */
module Comments {

  import opened Wrappers
  import opened Reactions
  import Ordering

  type CommentId = int

  /** A row of `comments`. `parent` is `parentComment_id`, `postId` is
      `post_id`; both may be NULL. */
  datatype Comment = Comment(id: CommentId, content: string, parent: Option<int>,
                             postId: Option<int>, userId: UserId, createdAt: int, updatedAt: int)

  /** The table of comments in storage order, with its auto-increment counter. */
  datatype Store = Store(comments: seq<Comment>, nextId: nat)

  /** Ids are the primary key and every id was handed out by the counter. */
  predicate Wf(s: Store) {
    && (forall i :: 0 <= i < |s.comments| ==> 0 <= s.comments[i].id < s.nextId)
    && (forall i, j :: 0 <= i < j < |s.comments| ==> s.comments[i].id != s.comments[j].id)
  }

  /** JavaScript `x || null` on a numeric field: 0 and a missing value
      both become NULL. */
  function OrNull(x: Option<int>): (r: Option<int>)
    ensures r.None? <==> x.None? || x.value == 0
    ensures r.Some? ==> r == x
  {
    if x.None? || x.value == 0 then None else x
  }

  /** `findById`: the row with the id, if any (`rows[0]` of the select). */
  function FindById(cs: seq<Comment>, id: CommentId): (r: Option<Comment>)
    ensures r.None? <==> forall i :: 0 <= i < |cs| ==> cs[i].id != id
    ensures r.Some? ==> r.value.id == id && r.value in cs
  {
    if cs == [] then None
    else if cs[0].id == id then Some(cs[0])
    else
      var r := FindById(cs[1..], id);
      assert forall i :: 1 <= i < |cs| ==> cs[i] == cs[1..][i - 1];
      r
  }

  /** `create(postId, userId, payload)`: appends one comment with the next
      id and returns that id. A falsy post id and a falsy parent id are
      stored as NULL, so a comment with parent 0 is a root. */
  function Create(s: Store, postId: Option<int>, userId: UserId, content: string,
                  parent: Option<int>, now: int): (res: (Store, nat))
    ensures res.1 == s.nextId && res.0.nextId == s.nextId + 1
    ensures |res.0.comments| == |s.comments| + 1
    ensures res.0.comments[..|s.comments|] == s.comments
    ensures var c := res.0.comments[|s.comments|];
            && c.id == res.1 && c.content == content && c.userId == userId
            && (c.parent.None? <==> parent.None? || parent.value == 0)
            && (c.parent.Some? ==> c.parent == parent)
            && (c.postId.None? <==> postId.None? || postId.value == 0)
            && (c.postId.Some? ==> c.postId == postId)
            && c.createdAt == now && c.updatedAt == now
  {
    var c := Comment(s.nextId, content, OrNull(parent), OrNull(postId), userId, now, now);
    (Store(s.comments + [c], s.nextId + 1), s.nextId)
  }

  /** Creating keeps ids unique, and the new comment is then what
      `findById` returns for the returned id. */
  lemma CreateFound(s: Store, postId: Option<int>, userId: UserId, content: string,
                    parent: Option<int>, now: int)
    requires Wf(s)
    ensures var res := Create(s, postId, userId, content, parent, now);
            && Wf(res.0)
            && FindById(res.0.comments, res.1) == Some(res.0.comments[|s.comments|])
            && forall id :: id != res.1 ==> FindById(res.0.comments, id) == FindById(s.comments, id)
  {
    var res := Create(s, postId, userId, content, parent, now);
    FindAppendAbsent(s.comments, res.0.comments[|s.comments|]);
    forall id | id != res.1
      ensures FindById(res.0.comments, id) == FindById(s.comments, id)
    {
      FindAppendOther(s.comments, res.0.comments[|s.comments|], id);
    }
  }

  lemma {:induction false} FindAppendAbsent(cs: seq<Comment>, c: Comment)
    requires forall i :: 0 <= i < |cs| ==> cs[i].id != c.id
    ensures FindById(cs + [c], c.id) == Some(c)
  {
    if cs != [] {
      assert (cs + [c])[1..] == cs[1..] + [c];
      FindAppendAbsent(cs[1..], c);
    }
  }

  lemma {:induction false} FindAppendOther(cs: seq<Comment>, c: Comment, id: CommentId)
    requires c.id != id
    ensures FindById(cs + [c], id) == FindById(cs, id)
  {
    if cs == [] {
      assert [c][1..] == [];
    } else {
      assert (cs + [c])[1..] == cs[1..] + [c];
      FindAppendOther(cs[1..], c, id);
    }
  }

  /** `deleteById`: removes the comment with the id; its replies stay. */
  function DeleteById(cs: seq<Comment>, id: CommentId): (r: seq<Comment>)
    ensures |r| <= |cs|
    ensures forall i :: 0 <= i < |r| ==> r[i].id != id && r[i] in cs
    ensures forall i :: 0 <= i < |cs| && cs[i].id != id ==> cs[i] in r
  {
    if cs == [] then []
    else
      var rest := DeleteById(cs[1..], id);
      assert forall i :: 1 <= i < |cs| ==> cs[i] == cs[1..][i - 1];
      if cs[0].id == id then rest else [cs[0]] + rest
  }

  /** What one comment leaves behind when `id` is deleted. */
  function Kept(id: CommentId): Comment -> seq<Comment> {
    (c: Comment) => if c.id == id then [] else [c]
  }

  lemma {:induction false} DeleteIsGather(cs: seq<Comment>, id: CommentId)
    ensures DeleteById(cs, id) == Ordering.Gather(cs, Kept(id))
  {
    if cs != [] {
      DeleteIsGather(cs[1..], id);
      Ordering.GatherCons(cs, Kept(id));
    }
  }

  /** The delete works comment by comment and keeps the rest in order: it
      distributes over concatenation, and a single comment goes exactly
      when it has the id. */
  lemma DeleteAppend(a: seq<Comment>, b: seq<Comment>, c: Comment, id: CommentId)
    ensures DeleteById(a + b, id) == DeleteById(a, id) + DeleteById(b, id)
    ensures DeleteById([c], id) == if c.id == id then [] else [c]
  {
    DeleteIsGather(a + b, id);
    DeleteIsGather(a, id);
    DeleteIsGather(b, id);
    Ordering.GatherConcat(a, b, Kept(id));
    assert [c][1..] == [];
  }

  /** `update(id, content)`: sets the content and `updated_at` of the
      comment. A falsy content leaves the `SET` list empty and the statement
      is an SQL syntax error. */
  function Update(cs: seq<Comment>, id: CommentId, content: Option<string>, now: int): (r: Result<seq<Comment>, string>)
    ensures r.Err? <==> content.None? || content.value == ""
    ensures r.Ok? ==>
      && |r.value| == |cs|
      && (forall i :: 0 <= i < |cs| ==> r.value[i].id == cs[i].id && r.value[i].userId == cs[i].userId)
      && (forall i :: 0 <= i < |cs| && cs[i].id != id ==> r.value[i] == cs[i])
  {
    if content.None? || content.value == "" then Err("ER_PARSE_ERROR")
    else Ok(seq(|cs|, i requires 0 <= i < |cs| =>
                if cs[i].id == id then cs[i].(content := content.value, updatedAt := now) else cs[i]))
  }

  /** After an update the comment is found with the new content. */
  lemma UpdateFound(cs: seq<Comment>, id: CommentId, content: string, now: int)
    requires content != ""
    ensures var r := Update(cs, id, Some(content), now);
            && r.Ok?
            && FindById(r.value, id) == if FindById(cs, id).None? then None
                                         else Some(FindById(cs, id).value.(content := content, updatedAt := now))
  {
    var r := Update(cs, id, Some(content), now).value;
    FindMapped(cs, r, id, content, now);
  }

  lemma {:induction false} FindMapped(cs: seq<Comment>, r: seq<Comment>, id: CommentId, content: string, now: int)
    requires |r| == |cs|
    requires forall i :: 0 <= i < |cs| ==>
      r[i] == if cs[i].id == id then cs[i].(content := content, updatedAt := now) else cs[i]
    ensures FindById(r, id) == if FindById(cs, id).None? then None
                               else Some(FindById(cs, id).value.(content := content, updatedAt := now))
  {
    if cs != [] {
      FindMapped(cs[1..], r[1..], id, content, now);
    }
  }

  // ---------------------------------------------------------------------
  // Reactions on comments

  /** `likeComment`/`dislikeComment` as one transaction. A missing comment
      throws "Comment not found" and `fault` stands for any statement that
      fails; either way the transaction rolls back. Otherwise the toggle
      runs with the comment's post id and a flip stamps `updated_at`. */
  function React(cs: seq<Comment>, t: Table, user: UserId, comment: CommentId, desired: bool,
                 now: int, fault: Option<string>): (res: (Table, Result<Outcome, string>))
    ensures FindById(cs, comment).None? ==> res == (t, Err("Comment not found"))
    ensures fault.Some? ==> res.0 == t && res.1.Err?
    ensures FindById(cs, comment).Some? && fault.None? ==>
      && res.1.Ok?
      && View(res.0.rows) == ToggleMap(View(t.rows), (user, comment), desired).0
      && res.1.value.action == ToggleMap(View(t.rows), (user, comment), desired).1
    ensures FindById(cs, comment).Some? && fault.None? && Lookup(t.rows, user, comment) == None ==>
      && res.0.rows == t.rows + [Row(t.nextId, user, comment, FindById(cs, comment).value.postId, desired, now)]
      && res.1.value == Outcome(SetLabel(desired), 1, t.nextId)
    ensures FindById(cs, comment).Some? && fault.None? && Lookup(t.rows, user, comment) == Some(!desired) ==>
      && |res.0.rows| == |t.rows|
      && forall i :: 0 <= i < |t.rows| && Matches(t.rows[i], user, comment) ==>
           res.0.rows[i] == t.rows[i].(like := desired, updatedAt := now)
    ensures forall u, x :: (u, x) != (user, comment) ==> Select(res.0.rows, u, x) == Select(t.rows, u, x)
  {
    match FindById(cs, comment)
    case None => (t, Err("Comment not found"))
    case Some(c) =>
      match fault
      case Some(e) => (t, Err(e))
      case None =>
        var r := Toggle(t, user, comment, desired, c.postId, now, true);
        ToggleRefinesMap(t, user, comment, desired, c.postId, now, true);
        forall u, x | (u, x) != (user, comment)
          ensures Select(r.0.rows, u, x) == Select(t.rows, u, x)
        {
          ToggleFrame(t, user, comment, desired, c.postId, now, true, u, x);
        }
        (r.0, Ok(r.1))
  }

  function LikeComment(cs: seq<Comment>, t: Table, user: UserId, comment: CommentId,
                       now: int, fault: Option<string>): (res: (Table, Result<Outcome, string>))
    ensures FindById(cs, comment).None? ==> res == (t, Err("Comment not found"))
    ensures FindById(cs, comment).Some? && fault.None? ==>
      res.1.Ok? && res.1.value.action == (if Lookup(t.rows, user, comment) == Some(true) then Unliked else Liked)
  {
    React(cs, t, user, comment, true, now, fault)
  }

  function DislikeComment(cs: seq<Comment>, t: Table, user: UserId, comment: CommentId,
                          now: int, fault: Option<string>): (res: (Table, Result<Outcome, string>))
    ensures FindById(cs, comment).None? ==> res == (t, Err("Comment not found"))
    ensures FindById(cs, comment).Some? && fault.None? ==>
      res.1.Ok? && res.1.value.action == (if Lookup(t.rows, user, comment) == Some(false) then Undisliked else Disliked)
  {
    LookupIsView(t.rows, user, comment);
    React(cs, t, user, comment, false, now, fault)
  }

  // ---------------------------------------------------------------------
  // The aggregate of `findCommentByPostId`

  /** One element of the `reactions` JSON array: the reaction row's id,
      its value (1 or 0) and the reacting user. */
  datatype Entry = Entry(id: nat, reaction: int, userId: UserId)

  /** The reaction columns of one comment. */
  datatype Aggregate = Aggregate(reactionCount: nat, likes: nat, dislikes: nat,
                                 reactions: seq<Option<Entry>>)

  /** The reaction rows of one comment as JSON entries, in storage order. */
  function Entries(rows: seq<Row>, comment: CommentId): (es: seq<Entry>)
    ensures |es| == CountAll(rows, comment)
    ensures forall i :: 0 <= i < |es| ==> es[i].reaction == 0 || es[i].reaction == 1
  {
    if rows == [] then []
    else
      (if rows[0].target == comment then [Entry(rows[0].id, if rows[0].like then 1 else 0, rows[0].user)] else [])
      + Entries(rows[1..], comment)
  }

  /** `SUM(CASE WHEN cr.reaction = v THEN 1 ELSE 0 END)` over the joined rows. */
  function SumCase(es: seq<Entry>, v: int): (n: nat)
    ensures n <= |es|
  {
    if es == [] then 0 else (if es[0].reaction == v then 1 else 0) + SumCase(es[1..], v)
  }

  /** The grouped columns: `COUNT(cr.id)`, the two sums, and
      `JSON_ARRAYAGG`, which yields `[null]` for the single NULL row of a
      comment without reactions. */
  function CommentAggregate(rows: seq<Row>, comment: CommentId): (a: Aggregate)
    ensures a.reactionCount == CountAll(rows, comment)
    ensures a.likes == CountReactions(rows, comment, true)
    ensures a.dislikes == CountReactions(rows, comment, false)
    ensures a.reactionCount == a.likes + a.dislikes
    ensures a.reactions == [None] <==> a.reactionCount == 0
    ensures a.reactionCount > 0 ==> |a.reactions| == a.reactionCount && None !in a.reactions
  {
    var es := Entries(rows, comment);
    EntriesSum(rows, comment, true);
    EntriesSum(rows, comment, false);
    CountAllSplits(rows, comment);
    var json := if es == [] then [None] else seq(|es|, i requires 0 <= i < |es| => Some(es[i]));
    assert es != [] ==> json[0] != None;
    Aggregate(|es|, SumCase(es, 1), SumCase(es, 0), json)
  }

  lemma {:induction false} EntriesSum(rows: seq<Row>, comment: CommentId, like: bool)
    ensures SumCase(Entries(rows, comment), if like then 1 else 0) == CountReactions(rows, comment, like)
  {
    if rows != [] {
      EntriesSum(rows[1..], comment, like);
      var rest := Entries(rows[1..], comment);
      if rows[0].target == comment {
        var e := Entry(rows[0].id, if rows[0].like then 1 else 0, rows[0].user);
        assert Entries(rows, comment) == [e] + rest;
        assert ([e] + rest)[1..] == rest;
      } else {
        assert Entries(rows, comment) == rest;
      }
    }
  }

  /** A comment together with its reaction columns. */
  datatype CommentView = CommentView(comment: Comment, aggregate: Aggregate)

  /** The comments the query joins: those of `post` (`WHERE c.post_id = ?`)
      whose author has a row in `users` (`INNER JOIN users u ON c.user_id = u.id`). */
  predicate Listed(c: Comment, post: int, authors: set<UserId>) {
    c.postId == Some(post) && c.userId in authors
  }

  /** The joined rows before `ORDER BY`: one per listed comment, each with
      its aggregate, in storage order. */
  function Selected(cs: seq<Comment>, rows: seq<Row>, post: int, authors: set<UserId>): (r: seq<CommentView>)
    ensures |r| <= |cs|
  {
    if cs == [] then []
    else
      Head(cs[0], rows, post, authors) + Selected(cs[1..], rows, post, authors)
  }

  /** The view one comment contributes: its own when listed, else none. */
  function Head(c: Comment, rows: seq<Row>, post: int, authors: set<UserId>): seq<CommentView> {
    if Listed(c, post, authors) then [CommentView(c, CommentAggregate(rows, c.id))] else []
  }

  /** A view is selected exactly for a listed comment, with its aggregate. */
  lemma {:induction false} SelectedMembers(cs: seq<Comment>, rows: seq<Row>, post: int, authors: set<UserId>)
    ensures forall v :: v in Selected(cs, rows, post, authors) <==>
      && v.comment in cs
      && Listed(v.comment, post, authors)
      && v.aggregate == CommentAggregate(rows, v.comment.id)
  {
    if cs != [] {
      SelectedMembers(cs[1..], rows, post, authors);
      SelectedCons(cs, rows, post, authors);
      assert forall c :: c in cs <==> c == cs[0] || c in cs[1..];
    }
  }

  /** The selection goes comment by comment and keeps storage order: it
      distributes over concatenation, and a single comment gives its view
      exactly when it is listed. */
  lemma SelectedAppend(a: seq<Comment>, b: seq<Comment>, c: Comment, rows: seq<Row>,
                       post: int, authors: set<UserId>)
    ensures Selected(a + b, rows, post, authors) == Selected(a, rows, post, authors) + Selected(b, rows, post, authors)
    ensures Selected([c], rows, post, authors)
              == if Listed(c, post, authors) then [CommentView(c, CommentAggregate(rows, c.id))] else []
  {
    SelectedConcat(a, b, rows, post, authors);
    SelectedCons([c], rows, post, authors);
    assert [c][1..] == [];
  }

  lemma SelectedConcat(a: seq<Comment>, b: seq<Comment>, rows: seq<Row>, post: int, authors: set<UserId>)
    ensures Selected(a + b, rows, post, authors) == Selected(a, rows, post, authors) + Selected(b, rows, post, authors)
  {
    SelectedIsGather(a + b, rows, post, authors);
    SelectedIsGather(a, rows, post, authors);
    SelectedIsGather(b, rows, post, authors);
    Ordering.GatherConcat(a, b, HeadOf(rows, post, authors));
  }

  function HeadOf(rows: seq<Row>, post: int, authors: set<UserId>): Comment -> seq<CommentView> {
    c => Head(c, rows, post, authors)
  }

  lemma {:induction false} SelectedIsGather(cs: seq<Comment>, rows: seq<Row>, post: int, authors: set<UserId>)
    ensures Selected(cs, rows, post, authors) == Ordering.Gather(cs, HeadOf(rows, post, authors))
  {
    if cs != [] {
      SelectedIsGather(cs[1..], rows, post, authors);
      SelectedCons(cs, rows, post, authors);
      Ordering.GatherCons(cs, HeadOf(rows, post, authors));
    }
  }

  lemma SelectedCons(cs: seq<Comment>, rows: seq<Row>, post: int, authors: set<UserId>)
    requires cs != []
    ensures Selected(cs, rows, post, authors) == Head(cs[0], rows, post, authors) + Selected(cs[1..], rows, post, authors)
  {
  }

  /** `ORDER BY c.created_at DESC` as an ascending key. */
  function NewestFirst(v: CommentView): int {
    -v.comment.createdAt
  }

  /** `findCommentByPostId`: the listed comments of one post, each with its
      aggregate, newest first. */
  function FindCommentByPostId(cs: seq<Comment>, rows: seq<Row>, post: int, authors: set<UserId>)
    : (r: seq<CommentView>)
    ensures multiset(r) == multiset(Selected(cs, rows, post, authors))
    ensures forall i, j :: 0 <= i < j < |r| ==> r[i].comment.createdAt >= r[j].comment.createdAt
    ensures forall v :: v in r <==>
      && v.comment in cs
      && Listed(v.comment, post, authors)
      && v.aggregate == CommentAggregate(rows, v.comment.id)
  {
    var s := Selected(cs, rows, post, authors);
    SelectedMembers(cs, rows, post, authors);
    Ordering.SortCorrect(s, NewestFirst);
    var r := Ordering.SortBy(s, NewestFirst);
    assert forall v :: v in r <==> v in s by {
      forall v ensures v in r <==> v in s {
        assert v in r <==> v in multiset(r);
        assert v in s <==> v in multiset(s);
      }
    }
    r
  }
}

=== FILE: forgot_password.dfy ===
/** The password reset form (`front-end/src/pages/Login/ForgotPassword.tsx`):
    three steps (e-mail, one-time code, new password), the field rules, the
    digits-only code input, the two countdowns, their clock format, and the
    message shown for a failed request. The browser clock used to read the
    server's limit message is a parameter (`parseLimit`); toasts are kept as
    the text they show. */
module ForgotPassword {

  import opened Wrappers
  import opened Text
  import opened Validation

  // ---------------------------------------------------------------------
  // Field rules

  predicate SixDigits(s: string) {
    |s| == 6 && AllDigits(s)
  }

  /** `validators.otp`: required once trimmed, then `^\d{6}$` on the trimmed
      text. */
  function OtpError(otp: string): (e: Option<string>)
    ensures e.None? <==> !IsBlank(otp) && SixDigits(Trim(otp))
    ensures IsBlank(otp) ==> e == Some("OTP code is required")
  {
    if IsBlank(otp) then Some("OTP code is required")
    else if !SixDigits(Trim(otp)) then Some("OTP must be 6 digits")
    else None
  }

  /** `validators.confirmPassword`: a blank confirmation is missing even when
      the password is equally blank. */
  function ConfirmError(confirm: string, password: string): (e: Option<string>)
    ensures e.None? <==> !IsBlank(confirm) && confirm == password
  {
    if IsBlank(confirm) then Some("Please confirm your password")
    else if confirm != password then Some("Passwords do not match")
    else None
  }

  /** A blank confirmation is refused before it is compared. */
  lemma BlankConfirmRefused()
    ensures ConfirmError("  ", "  ") == Some("Please confirm your password")
  {
    assert AllSpace("  ");
  }

  // ---------------------------------------------------------------------
  // The code input

  /** `value.replace(/\D/g, "")`. */
  function Digits(s: string): (r: string)
    ensures AllDigits(r) && |r| <= |s|
  {
    if s == [] then [] else (if IsDigit(s[0]) then [s[0]] else []) + Digits(s[1..])
  }

  /** Removing the non-digits leaves a string unchanged exactly when it has
      none. */
  lemma {:induction false} DigitsFixed(s: string)
    ensures Digits(s) == s <==> AllDigits(s)
  {
    if s != [] {
      DigitsFixed(s[1..]);
      if AllDigits(s) {
        assert AllDigits(s[1..]);
      }
    }
  }

  /** What the code field keeps of a typed value: its digits, at most six
      (`.slice(0, 6)`). */
  function Sanitise(v: string): (r: string)
    ensures AllDigits(r) && |r| <= 6
    ensures |r| == (if |Digits(v)| < 6 then |Digits(v)| else 6)
    ensures r == Digits(v)[..|r|]
  {
    var d := Digits(v);
    if |d| <= 6 then d else d[..6]
  }

  /** Typing a value that is already sanitised changes nothing. */
  lemma SanitiseIdempotent(v: string)
    ensures Sanitise(Sanitise(v)) == Sanitise(v)
  {
    DigitsFixed(Sanitise(v));
  }

  /** Digits are never blanks, so trimming leaves them alone. */
  lemma TrimOfDigits(s: string)
    requires AllDigits(s)
    ensures Trim(s) == s
  {
    if s != [] {
      assert !IsSpace(s[0]);
      assert LeadingSpaces(s) == 0;
      assert !IsSpace(s[|s| - 1]);
      assert TrailingSpaces(s) == 0;
    } else {
      assert LeadingSpaces(s) == 0;
    }
  }

  /** A sanitised code passes the code rule exactly when six digits were
      typed. */
  lemma SanitisedCodeValid(v: string)
    ensures OtpError(Sanitise(v)).None? <==> |Digits(v)| >= 6
  {
    var r := Sanitise(v);
    TrimOfDigits(r);
    if r != [] {
      assert !IsSpace(r[0]);
      assert !AllSpace(r);
    }
  }

  // ---------------------------------------------------------------------
  // Countdowns

  /** One second of either countdown: a positive count goes down by one, and
      no timer runs at zero. */
  function Tick(n: nat): (r: nat)
    ensures n > 0 ==> r == n - 1
    ensures n == 0 ==> r == 0
  {
    if n > 0 then n - 1 else 0
  }

  function Ticks(n: nat, k: nat): nat {
    if k == 0 then n else Ticks(Tick(n), k - 1)
  }

  /** After `k` seconds the count is `n - k`, and it stops at zero. */
  lemma {:induction false} TicksCountDown(n: nat, k: nat)
    ensures Ticks(n, k) == if k <= n then n - k else 0
  {
    if k > 0 {
      TicksCountDown(Tick(n), k - 1);
    }
  }

  /** `formatCountdown`: `H:MM:SS` from one hour on, `M:SS` below. */
  function FormatCountdown(seconds: nat): (t: string)
    ensures Count(t, ':') == if seconds >= 3600 then 2 else 1
  {
    var h, m, s := seconds / 3600, (seconds % 3600) / 60, seconds % 60;
    ClockSplit(seconds);
    ClockColons(h, m, s);
    ClockText(h, m, s)
  }

  /** The text for `h` hours, `m` minutes and `s` seconds; the hours are
      left out when there are none. */
  function ClockText(h: nat, m: nat, s: nat): string {
    var ss := PadStart2(NatToString(s));
    if h > 0 then NatToString(h) + (":" + (PadStart2(NatToString(m)) + (":" + ss)))
    else NatToString(m) + (":" + ss)
  }

  /** The pieces of `ClockText` between its colons. */
  function ClockPieces(h: nat, m: nat, s: nat): seq<string> {
    var ss := PadStart2(NatToString(s));
    if h > 0 then [NatToString(h), PadStart2(NatToString(m)), ss] else [NatToString(m), ss]
  }

  lemma ClockColons(h: nat, m: nat, s: nat)
    requires m < 60 && s < 60
    ensures Count(ClockText(h, m, s), ':') == if h > 0 then 2 else 1
  {
    var ss := PadStart2(NatToString(s));
    DigitsNoColon(NatToString(h));
    DigitsNoColon(NatToString(m));
    PaddedClock(m);
    PaddedClock(s);
    DigitsNoColon(ss);
    NoOccurrenceCount(ss, ':');
    if h > 0 {
      var mm := PadStart2(NatToString(m));
      DigitsNoColon(mm);
      ColonCount(mm, ss);
      ColonCount(NatToString(h), mm + (":" + ss));
    } else {
      ColonCount(NatToString(m), ss);
    }
  }

  /** A two-digit clock field below 60. */
  predicate ClockField(x: string) {
    |x| == 2 && AllDigits(x) && ParseDigits(x) < 60
  }

  /** Reading a countdown back: `M:SS` or `H:MM:SS`. */
  function ParseCountdown(t: string): (r: Option<nat>)
    ensures r.Some? ==> |Split(t, ':')| in {2, 3}
  {
    ParseParts(Split(t, ':'))
  }

  /** The value of the pieces between the colons. */
  function ParseParts(p: seq<string>): (r: Option<nat>)
    ensures r.Some? ==> |p| in {2, 3}
  {
    if |p| == 2 && |p[0]| >= 1 && AllDigits(p[0]) && ClockField(p[1]) then
      Some(ParseDigits(p[0]) * 60 + ParseDigits(p[1]))
    else if |p| == 3 && |p[0]| >= 1 && AllDigits(p[0]) && ClockField(p[1]) && ClockField(p[2]) then
      Some(ParseDigits(p[0]) * 3600 + ParseDigits(p[1]) * 60 + ParseDigits(p[2]))
    else None
  }

  /** The format loses nothing: the text reads back as the same number of
      seconds. */
  lemma FormatCountdownParses(seconds: nat)
    ensures ParseCountdown(FormatCountdown(seconds)) == Some(seconds)
  {
    var h, m, s := seconds / 3600, (seconds % 3600) / 60, seconds % 60;
    ClockSplit(seconds);
    ClockReadsBack(seconds, h, m, s);
  }

  /** Split at its colons, the text for `h`, `m` and `s` gives back its
      pieces, and they read back as the total. */
  lemma ClockReadsBack(n: nat, h: nat, m: nat, s: nat)
    requires m < 60 && s < 60 && n == h * 3600 + m * 60 + s
    ensures ParseCountdown(ClockText(h, m, s)) == Some(n)
  {
    var t, pieces := ClockText(h, m, s), ClockPieces(h, m, s);
    var ss := PadStart2(NatToString(s));
    assert Split(t, ':') == pieces by {
      PaddedClock(s);
      if h > 0 {
        PaddedClock(m);
        SplitThree(NatToString(h), PadStart2(NatToString(m)), ss);
      } else {
        SplitTwo(NatToString(m), ss);
      }
    }
    assert ParseParts(pieces) == Some(n) by {
      if h > 0 {
        assert pieces == [NatToString(h), PadStart2(NatToString(m)), ss];
        ThreeParts(h, m, s, n);
      } else {
        assert pieces == [NatToString(m), ss];
        TwoParts(m, s, n);
      }
    }
    assert ParseCountdown(t) == ParseParts(Split(t, ':'));
  }

  lemma ThreeParts(h: nat, m: nat, s: nat, n: nat)
    requires m < 60 && s < 60 && n == h * 3600 + m * 60 + s
    ensures ParseParts([NatToString(h), PadStart2(NatToString(m)), PadStart2(NatToString(s))]) == Some(n)
  {
    var hs, mm, ss := NatToString(h), PadStart2(NatToString(m)), PadStart2(NatToString(s));
    assert ClockField(ss) && ParseDigits(ss) == s by {
      PaddedClock(s);
    }
    assert ClockField(mm) && ParseDigits(mm) == m by {
      PaddedClock(m);
    }
    assert ParseDigits(hs) == h by {
      ParseNatToString(h);
    }
    ThreeValue(hs, mm, ss, h, m, s, n);
  }

  lemma TwoParts(m: nat, s: nat, n: nat)
    requires s < 60 && n == m * 60 + s
    ensures ParseParts([NatToString(m), PadStart2(NatToString(s))]) == Some(n)
  {
    var ms, ss := NatToString(m), PadStart2(NatToString(s));
    assert ClockField(ss) && ParseDigits(ss) == s by {
      PaddedClock(s);
    }
    assert ParseDigits(ms) == m by {
      ParseNatToString(m);
    }
    TwoValue(ms, ss, m, s, n);
  }

  /** Hours, minutes and seconds pieces read back as their total. */
  lemma ThreeValue(a: string, b: string, c: string, h: nat, m: nat, s: nat, n: nat)
    requires |a| >= 1 && AllDigits(a) && ClockField(b) && ClockField(c)
    requires ParseDigits(a) == h && ParseDigits(b) == m && ParseDigits(c) == s
    requires n == h * 3600 + m * 60 + s
    ensures ParseParts([a, b, c]) == Some(n)
  {
  }

  /** Minutes and seconds pieces read back as their total. */
  lemma TwoValue(a: string, b: string, m: nat, s: nat, n: nat)
    requires |a| >= 1 && AllDigits(a) && ClockField(b)
    requires ParseDigits(a) == m && ParseDigits(b) == s && n == m * 60 + s
    ensures ParseParts([a, b]) == Some(n)
  {
  }

  lemma SplitTwo(a: string, b: string)
    requires AllDigits(a) && AllDigits(b)
    ensures Split(a + (":" + b), ':') == [a, b]
  {
    DigitsNoColon(a);
    DigitsNoColon(b);
    SplitWhole(b, ':');
    SplitAt(a, b, ':');
  }

  lemma SplitThree(a: string, b: string, c: string)
    requires AllDigits(a) && AllDigits(b) && AllDigits(c)
    ensures Split(a + (":" + (b + (":" + c))), ':') == [a, b, c]
  {
    DigitsNoColon(a);
    SplitTwo(b, c);
    SplitAt(a, b + (":" + c), ':');
  }

  /** The hours, minutes and seconds of the format recompose the total. */
  lemma ClockSplit(n: nat)
    ensures (n % 3600) / 60 < 60
    ensures n == (n / 3600) * 3600 + ((n % 3600) / 60) * 60 + n % 60
  {
    var q, r := n / 3600, n % 3600;
    assert n == q * 3600 + r && 0 <= r < 3600;
    var a, b := r / 60, r % 60;
    assert r == a * 60 + b && 0 <= b < 60;
    assert n == (q * 60 + a) * 60 + b;
    ModSixty(n, q * 60 + a, b);
  }

  lemma ModSixty(n: int, q: int, b: int)
    requires 0 <= b < 60 && n == q * 60 + b
    ensures n % 60 == b
  {
  }

  lemma DigitsNoColon(s: string)
    requires AllDigits(s)
    ensures ':' !in s
  {
    forall i | 0 <= i < |s| ensures s[i] != ':' {
      assert IsDigit(s[i]);
    }
  }

  /** A value below 60 padded to two digits is a clock field of that value. */
  lemma PaddedClock(k: nat)
    requires k < 60
    ensures ClockField(PadStart2(NatToString(k))) && ParseDigits(PadStart2(NatToString(k))) == k
  {
    ParseNatToString(k);
    var t := NatToString(k);
    if k < 10 {
      var p := PadStart2(t);
      assert |t| == 1;
      assert p == ['0'] + t;
      assert p[..1] == ['0'];
      assert ParseDigits(['0']) == 0;
      assert ParseDigits(t) == DigitValue(t[0]);
    } else {
      assert NatToString(k) == NatToString(k / 10) + [DigitChar(k % 10)];
    }
  }

  lemma ColonCount(a: string, b: string)
    requires ':' !in a
    ensures Count(a + (":" + b), ':') == 1 + Count(b, ':')
  {
    CountAppend(a, ":" + b, ':');
    NoOccurrenceCount(a, ':');
    assert (":" + b)[1..] == b;
  }

  // ---------------------------------------------------------------------
  // Failed requests

  /** The message `handleApiError` returns, as written: when the server
      sends a `message` it returns the server's `error` instead, which is
      undefined (None) when only a message was sent. */
  function ApiMessageAsWritten(e: ApiError, online: bool): (m: Option<string>)
    ensures Truthy(e.dataMessage) ==> m == e.dataError
    ensures !Truthy(e.dataMessage) ==> m == Some(ApiMessage(e, online))
  {
    if Truthy(e.dataMessage) then e.dataError else Some(ApiMessage(e, online))
  }

  /** The message `handleApiError` evidently means to return: the server's
      `message`, else its `error`, else a text for the status or the
      failure. */
  function ApiMessage(e: ApiError, online: bool): (m: string)
    ensures m != ""
    ensures Truthy(e.dataMessage) ==> m == e.dataMessage.value
    ensures !Truthy(e.dataMessage) && Truthy(e.dataError) ==> m == e.dataError.value
  {
    if Truthy(e.dataMessage) then e.dataMessage.value
    else if Truthy(e.dataError) then e.dataError.value
    else if e.status == Some(400) then "Invalid request. Please check your information"
    else if e.status == Some(401) then "Unauthorized request"
    else if e.status == Some(404) then "Email address not found"
    else if e.status == Some(429) then "Too many requests. Please try again later"
    else if e.status.Some? && e.status.value in {500, 502, 503, 504} then "Server error. Please try again later"
    else if IsNetwork(e, online) then "Network error. Please check your connection"
    else if IsTimeout(e) then "Request timeout. Please try again"
    else "An unexpected error occurred. Please try again"
  }

  /** The two readings agree except when the server sends a message with no
      matching `error`; asking for a code for an unknown address (404 with
      `{ message: "User not found" }`) shows nothing as written. */
  lemma AsWrittenLosesMessage(online: bool)
    ensures forall e: ApiError :: ApiMessageAsWritten(e, online) == Some(ApiMessage(e, online)) <==>
              !Truthy(e.dataMessage) || e.dataError == e.dataMessage
    ensures var e := ApiError(Some(404), None, None, Some("User not found"), None);
            ApiMessageAsWritten(e, online).None? && ApiMessage(e, online) == "User not found"
  {
  }

  /** The server's refusal to issue a fourth code names, in Vietnamese, the
      limit and the time the last code expires. */
  predicate IsLimitMessage(msg: string) {
    Contains(msg, "đã đạt giới hạn") && Contains(msg, "OTP")
  }

  /** The lock-out countdown after a failed request: set from the limit
      message (only on the path where the server sent no `message`) when
      the time read from it lies ahead, otherwise kept. */
  function LimitAfter(e: ApiError, prev: nat, parseLimit: string -> nat): (r: nat)
    ensures r != prev ==>
      !Truthy(e.dataMessage) && Truthy(e.dataError) && IsLimitMessage(e.dataError.value)
      && r == parseLimit(e.dataError.value) && r > 0
  {
    if !Truthy(e.dataMessage) && Truthy(e.dataError) && IsLimitMessage(e.dataError.value)
       && parseLimit(e.dataError.value) > 0
    then parseLimit(e.dataError.value)
    else prev
  }

  // ---------------------------------------------------------------------
  // The three steps

  datatype Step = EmailStep | OtpStep | PasswordStep

  datatype Errors = Errors(email: Option<string>, otp: Option<string>,
                           newPassword: Option<string>, confirm: Option<string>)

  const NoErrors := Errors(None, None, None, None)

  /** A text the page shows; None is JavaScript's `undefined`, which
      shows nothing. */
  type Message = Option<string>

  /** `countdown` is the wait before a resend, `limit` the lock-out the
      server imposed; `redirecting` is set once the new password is saved. */
  datatype State = State(step: Step, email: string, otp: string, newPassword: string,
                         confirm: string, credential: string, errors: Errors,
                         countdown: nat, limit: nat, submitting: bool,
                         serverError: Message, redirecting: bool)

  const Initial := State(EmailStep, "", "", "", "", "", NoErrors, 0, 0, false, Some(""), false)

  /** The page as written, or with its two request-side slips corrected:
      the message of a failed request (`ApiMessage`) and the fields of the
      password change (`ClientChangePassword`). */
  datatype Reading = AsWritten | Intended

  /** Who a request is authorised as: the `authToken` cookie, or a given
      token. */
  datatype Bearer = CookieToken | Token(token: string)

  /** The body and the authorisation of `PATCH /users/change-password`. */
  datatype PasswordChange = PasswordChange(newPassword: string, oldPassword: Option<string>, bearer: Bearer)

  /** `changePassword(oldPassword, password)` of `api/userService.ts`: the
      second argument is the new password, and the cookie authorises. */
  function ServiceChangePassword(oldPassword: string, password: string): PasswordChange {
    PasswordChange(password, Some(oldPassword), CookieToken)
  }

  /** `changePassword(password, credential)` of `api/Client.ts`: the first
      argument is the new password, and the credential authorises. */
  function ClientChangePassword(password: string, credential: string): PasswordChange {
    PasswordChange(password, None, Token(credential))
  }

  /** The page calls `userService.changePassword(newPassword, credential)`. */
  function ResetRequest(reading: Reading, password: string, credential: string): PasswordChange {
    match reading
    case AsWritten => ServiceChangePassword(password, credential)
    case Intended => ClientChangePassword(password, credential)
  }

  /** The requests the form sends. */
  datatype Call = SendCode(email: string) | CheckCode(email: string, code: nat)
                | ChangePassword(request: PasswordChange)

  /** The state after a handler, the request it sent, and the toast it
      left. */
  datatype Outcome = Outcome(state: State, call: Option<Call>, toast: Option<Message>)

  function Say(text: string): Option<Message> {
    Some(Some(text))
  }

  /** What a failed request shows. */
  function Shown(reading: Reading, e: ApiError, online: bool): Message {
    match reading
    case AsWritten => ApiMessageAsWritten(e, online)
    case Intended => Some(ApiMessage(e, online))
  }

  /** A failed request: its message becomes the server error and the toast. */
  function Failed(reading: Reading, st: State, e: ApiError, online: bool, parseLimit: string -> nat): (st': State)
    ensures reading == AsWritten ==> st'.serverError == ApiMessageAsWritten(e, online)
    ensures reading == Intended ==> st'.serverError == Some(ApiMessage(e, online))
    ensures !st'.submitting && st'.step == st.step && st'.countdown == st.countdown
    ensures st'.limit == LimitAfter(e, st.limit, parseLimit)
  {
    st.(serverError := Shown(reading, e, online), submitting := false, limit := LimitAfter(e, st.limit, parseLimit))
  }

  /** `handleSendOTP`; `reply` is what the server answers if asked. */
  function SendCodeStep(reading: Reading, st: State, reply: Result<string, ApiError>, online: bool,
                        parseLimit: string -> nat): (o: Outcome)
    ensures st.limit > 0 ==> o == Outcome(st, None,
              Say("Please wait " + FormatCountdown(st.limit) + " before trying again"))
    ensures o.call.Some? <==> st.limit == 0 && EmailError(st.email).None?
    ensures o.call.Some? ==> o.call.value == SendCode(Trim(st.email))
    ensures o.state.step != st.step ==> o.call.Some? && reply.Ok? && o.state.step == OtpStep
    ensures o.call.Some? && reply.Ok? ==>
      o.state.step == OtpStep && o.state.countdown == 60 && o.state.otp == "" && o.state.errors == NoErrors
    ensures o.call.Some? && reply.Err? ==>
      o.state == Failed(reading, st, reply.error, online, parseLimit) && o.toast == Some(o.state.serverError)
  {
    if st.limit > 0 then
      Outcome(st, None, Say("Please wait " + FormatCountdown(st.limit) + " before trying again"))
    else if EmailError(st.email).Some? then
      Outcome(st.(errors := NoErrors.(email := EmailError(st.email))), None, Say("Please fix the errors in the form"))
    else
      var call := Some(SendCode(Trim(st.email)));
      match reply
      case Ok(_) =>
        Outcome(st.(step := OtpStep, countdown := 60, otp := "", errors := NoErrors, serverError := Some(""),
                    submitting := false), call, Say("OTP code sent to your email!"))
      case Err(e) =>
        Outcome(Failed(reading, st, e, online, parseLimit), call, Some(Shown(reading, e, online)))
  }

  /** `handleVerifyOTP`: the code goes as a number (`parseInt`); a successful
      answer carries the credential for the last step. */
  function CheckCodeStep(reading: Reading, st: State, reply: Result<string, ApiError>, online: bool,
                         parseLimit: string -> nat): (o: Outcome)
    ensures o.call.Some? <==> OtpError(st.otp).None?
    ensures o.call.Some? ==> o.call.value == CheckCode(Trim(st.email), ParseDigits(Trim(st.otp)))
    ensures o.state.step != st.step ==> o.call.Some? && reply.Ok? && o.state.step == PasswordStep
    ensures o.call.Some? && reply.Ok? ==>
      o.state.step == PasswordStep && o.state.credential == reply.value
      && o.state.newPassword == "" && o.state.confirm == ""
    ensures o.call.Some? && reply.Err? ==>
      o.state == Failed(reading, st, reply.error, online, parseLimit) && o.toast == Some(o.state.serverError)
  {
    if OtpError(st.otp).Some? then
      Outcome(st.(errors := NoErrors.(otp := OtpError(st.otp))), None, Say("Please enter a valid 6-digit OTP"))
    else
      var call := Some(CheckCode(Trim(st.email), ParseDigits(Trim(st.otp))));
      match reply
      case Ok(credential) =>
        Outcome(st.(step := PasswordStep, credential := credential, newPassword := "", confirm := "",
                    errors := NoErrors, serverError := Some(""), submitting := false),
                call, Say("OTP verified successfully!"))
      case Err(e) =>
        Outcome(Failed(reading, st, e, online, parseLimit), call, Some(Shown(reading, e, online)))
  }

  /** `handleChangePassword`: both fields are checked, then the typed
      password and the credential from the previous step are passed to
      `changePassword`. */
  function ChangePasswordStep(reading: Reading, st: State, reply: Result<string, ApiError>, online: bool,
                              parseLimit: string -> nat): (o: Outcome)
    ensures o.call.Some? <==>
      PasswordLengthError(st.newPassword).None? && ConfirmError(st.confirm, st.newPassword).None?
    ensures o.call.Some? ==> o.call.value == ChangePassword(ResetRequest(reading, st.newPassword, st.credential))
    ensures reading == Intended && o.call.Some? ==>
      var req := o.call.value.request;
      && PasswordLengthError(req.newPassword).None? && ConfirmError(st.confirm, req.newPassword).None?
      && req.bearer == Token(st.credential)
    ensures o.state.step == st.step
    ensures o.state.redirecting <==> st.redirecting || (o.call.Some? && reply.Ok?)
    ensures o.call.Some? && reply.Err? ==>
      o.state == Failed(reading, st, reply.error, online, parseLimit) && o.toast == Some(o.state.serverError)
  {
    var pe, ce := PasswordLengthError(st.newPassword), ConfirmError(st.confirm, st.newPassword);
    if pe.Some? || ce.Some? then
      Outcome(st.(errors := NoErrors.(newPassword := pe, confirm := ce)), None,
              Say("Please fix the errors in the form"))
    else
      var call := Some(ChangePassword(ResetRequest(reading, st.newPassword, st.credential)));
      match reply
      case Ok(_) =>
        Outcome(st.(redirecting := true, serverError := Some(""), submitting := false), call,
                Say("Password changed successfully!"))
      case Err(e) =>
        Outcome(Failed(reading, st, e, online, parseLimit), call, Some(Shown(reading, e, online)))
  }

  /** As written, the typed password travels as `oldPassword` and the
      credential as `newPassword`, under the cookie's authorisation, so the
      password the form checked is never the one set. As intended, the
      checked password is the new one and the credential authorises. */
  lemma PasswordFieldsSwapped(st: State, reply: Result<string, ApiError>, online: bool, parseLimit: string -> nat)
    ensures var o := ChangePasswordStep(AsWritten, st, reply, online, parseLimit);
            o.call.Some? ==>
              o.call.value.request == PasswordChange(st.credential, Some(st.newPassword), CookieToken)
    ensures var o := ChangePasswordStep(Intended, st, reply, online, parseLimit);
            o.call.Some? ==>
              o.call.value.request == PasswordChange(st.newPassword, None, Token(st.credential))
    ensures var typed := State(PasswordStep, "", "", "Secret1", "Secret1", "credential", NoErrors,
                               0, 0, false, Some(""), false);
            var o := ChangePasswordStep(AsWritten, typed, reply, online, parseLimit);
            o.call.Some? && o.call.value.request.newPassword != typed.newPassword
  {
    SamplePasswordPasses();
  }

  lemma SamplePasswordPasses()
    ensures PasswordLengthError("Secret1").None? && ConfirmError("Secret1", "Secret1").None?
  {
    assert LeadingSpaces("Secret1") == 0;
    assert TrailingSpaces("Secret1") == 0;
    assert Trim("Secret1") == "Secret1";
  }

  /** The form shows one step at a time; submitting it runs that step's
      handler. */
  function Submit(reading: Reading, st: State, reply: Result<string, ApiError>, online: bool,
                  parseLimit: string -> nat): (o: Outcome)
    ensures o.state.step == st.step || (st.step == EmailStep && o.state.step == OtpStep)
            || (st.step == OtpStep && o.state.step == PasswordStep)
    ensures o.state.step != st.step ==> o.call.Some? && reply.Ok?
  {
    match st.step
    case EmailStep => SendCodeStep(reading, st, reply, online, parseLimit)
    case OtpStep => CheckCodeStep(reading, st, reply, online, parseLimit)
    case PasswordStep => ChangePasswordStep(reading, st, reply, online, parseLimit)
  }

  /** Asking for a code for an address the server does not know: as
      written the page shows no message at all, neither under the form nor
      in the toast; as intended it shows the server's "User not found". */
  lemma UnknownAddressShowsNothing(st: State, online: bool, parseLimit: string -> nat)
    requires st.limit == 0 && EmailError(st.email).None?
    ensures var e := ApiError(Some(404), None, None, Some("User not found"), None);
            && SendCodeStep(AsWritten, st, Err(e), online, parseLimit).state.serverError == None
            && SendCodeStep(AsWritten, st, Err(e), online, parseLimit).toast == Some(None)
            && SendCodeStep(Intended, st, Err(e), online, parseLimit).state.serverError == Some("User not found")
  {
    AsWrittenLosesMessage(online);
  }

  /** `handleResendOTP`: nothing happens while the resend countdown runs, a
      request is in flight, or the server's lock-out lasts. */
  function Resend(reading: Reading, st: State, reply: Result<string, ApiError>, online: bool,
                  parseLimit: string -> nat): (o: Outcome)
    ensures o.call.Some? <==> st.countdown == 0 && !st.submitting && st.limit == 0
    ensures o.call.None? ==> o == Outcome(st, None, None)
    ensures o.call.Some? ==> o.call.value == SendCode(Trim(st.email))
    ensures o.state.step == st.step
    ensures o.call.Some? && reply.Ok? ==>
      o.state.countdown == 60 && o.state.otp == "" && o.state.errors == st.errors.(otp := None)
    ensures o.call.Some? && reply.Err? ==>
      o.state == Failed(reading, st, reply.error, online, parseLimit) && o.toast == Some(o.state.serverError)
  {
    if st.countdown > 0 || st.submitting || st.limit > 0 then Outcome(st, None, None)
    else
      var call := Some(SendCode(Trim(st.email)));
      match reply
      case Ok(_) =>
        Outcome(st.(countdown := 60, otp := "", errors := st.errors.(otp := None), serverError := Some(""),
                    submitting := false), call, Say("New OTP code sent!"))
      case Err(e) =>
        Outcome(Failed(reading, st, e, online, parseLimit), call, Some(Shown(reading, e, online)))
  }

  /** A code sent or resent holds off the next resend for a full minute,
      and a lock-out blocks both ways of asking for a code. */
  lemma ResendThrottled(reading: Reading, st: State, r1: Result<string, ApiError>, r2: Result<string, ApiError>,
                        online: bool, parseLimit: string -> nat, k: nat)
    ensures var o := Resend(reading, st, r1, online, parseLimit);
            o.call.Some? && r1.Ok? ==>
              (Resend(reading, o.state.(countdown := Ticks(60, k)), r2, online, parseLimit).call.Some? <==>
                 k >= 60 && !o.state.submitting && o.state.limit == 0)
    ensures st.limit > 0 ==> Resend(reading, st, r1, online, parseLimit).call.None?
                             && (st.step == EmailStep ==> Submit(reading, st, r1, online, parseLimit).call.None?)
  {
    TicksCountDown(60, k);
  }

  /** The fields a user edits. */
  datatype Field = EmailField | OtpField | NewPasswordField | ConfirmField

  /** `handleInputChange`: the field's error and the server error are
      cleared, and only the inputs of the current step take the value; the
      code keeps only its first six digits. */
  function Input(st: State, f: Field, value: string): (st': State)
    ensures st'.step == st.step && st'.serverError == Some("")
    ensures st.step == OtpStep && f == OtpField ==> st'.otp == Sanitise(value)
    ensures st'.otp != st.otp ==> st.step == OtpStep && f == OtpField
    ensures st'.email != st.email ==> st.step == EmailStep && f == EmailField
  {
    var cleared := st.(serverError := Some(""), errors := match f
      case EmailField => st.errors.(email := None)
      case OtpField => st.errors.(otp := None)
      case NewPasswordField => st.errors.(newPassword := None)
      case ConfirmField => st.errors.(confirm := None));
    match (st.step, f)
    case (EmailStep, EmailField) => cleared.(email := value)
    case (OtpStep, OtpField) => cleared.(otp := Sanitise(value))
    case (PasswordStep, NewPasswordField) => cleared.(newPassword := value)
    case (PasswordStep, ConfirmField) => cleared.(confirm := value)
    case _ => cleared
  }

  /** Whatever is typed, the code field holds at most six digits, and it
      holds six exactly when the user has typed six, which is when the code
      step sends a request. */
  lemma TypedCodeIsSent(reading: Reading, st: State, v: string, reply: Result<string, ApiError>, online: bool,
                        parseLimit: string -> nat)
    requires st.step == OtpStep
    ensures var st' := Input(st, OtpField, v);
            && AllDigits(st'.otp) && |st'.otp| <= 6
            && (CheckCodeStep(reading, st', reply, online, parseLimit).call.Some? <==> |Digits(v)| >= 6)
  {
    SanitisedCodeValid(v);
  }

  // ---------------------------------------------------------------------
  // The end of a lock-out

  /** One second of the lock-out as written. The effect's cleanup clears the
      timer reference before the effect runs again with the new count, so
      the branch that would clear the server error when the count reaches
      zero finds no timer and never runs. */
  function LimitTickAsWritten(st: State): (st': State)
    ensures st' == st.(limit := Tick(st.limit))
  {
    if st.limit == 0 then st
    else
      var next := st.(limit := st.limit - 1);
      var timerRef := false;  // the cleanup of the previous run cleared it
      if next.limit == 0 && timerRef then next.(serverError := Some("")) else next
  }

  /** One second of the lock-out as intended: when it runs out the server
      error (the limit message) is cleared. */
  function LimitTick(st: State): (st': State)
    ensures st'.limit == Tick(st.limit)
    ensures st.limit == 1 ==> st'.serverError == Some("")
    ensures st.limit != 1 ==> st' == st.(limit := Tick(st.limit))
  {
    if st.limit == 0 then st
    else if st.limit == 1 then st.(limit := 0, serverError := Some(""))
    else st.(limit := st.limit - 1)
  }

  /** As written the limit message outlives the lock-out; as intended it is
      gone when the lock-out ends. */
  lemma LimitMessageLingers(st: State, k: nat)
    requires st.limit > 0 && st.serverError.Some? && st.serverError.value != ""
    ensures LimitTicksAsWritten(st, st.limit).serverError == st.serverError
    ensures LimitTicks(st, st.limit).serverError == Some("") && LimitTicks(st, st.limit).limit == 0
  {
    LimitTicksAsWrittenKeeps(st, st.limit);
    LimitTicksEnd(st, st.limit);
  }

  function LimitTicksAsWritten(st: State, k: nat): State
    decreases k
  {
    if k == 0 then st else LimitTicksAsWritten(LimitTickAsWritten(st), k - 1)
  }

  function LimitTicks(st: State, k: nat): State
    decreases k
  {
    if k == 0 then st else LimitTicks(LimitTick(st), k - 1)
  }

  lemma {:induction false} LimitTicksAsWrittenKeeps(st: State, k: nat)
    ensures LimitTicksAsWritten(st, k) == st.(limit := Ticks(st.limit, k))
    decreases k
  {
    if k > 0 {
      LimitTicksAsWrittenKeeps(LimitTickAsWritten(st), k - 1);
    }
  }

  lemma {:induction false} LimitTicksEnd(st: State, k: nat)
    requires 0 < k == st.limit
    ensures LimitTicks(st, k).serverError == Some("") && LimitTicks(st, k).limit == 0
    decreases k
  {
    if k > 1 {
      LimitTicksEnd(LimitTick(st), k - 1);
    } else {
      assert LimitTicks(st, 1) == LimitTick(st);
    }
  }
}

=== FILE: http.dfy ===
/** What an Express handler does with a request: it answers with a status
    and a message, or it passes a thrown error on to the error-handling
    middleware (which is not part of this model). */
module Http {

  datatype Reply = Status(code: int, message: string) | Forwarded(error: string)
}

=== FILE: locked_overlay.dfy ===
/** The password prompt over a locked post
    (`front-end/src/pages/DetailPost/OverlayLocked.tsx`): the typed value,
    the error flag, and the count of wrong passwords, which the button caps
    at five and the Enter key does not. The page's check of the password is
    the `Verdict` each submission is given. */
module LockedOverlay {

  import opened Wrappers
  import opened Text

  /** `value` is the parent's password field; `attempts` counts wrong
      passwords. */
  datatype State = State(value: string, hasError: bool, attempts: nat)

  const Initial := State("", false, 0)

  /** What `onSubmit` did: resolved `false`, threw, or resolved anything
      else. */
  datatype Verdict = Rejected | Threw | Accepted

  const MaxAttempts := 5

  /** `handleInputChange`. */
  function Input(st: State, v: string): (st': State)
    ensures st'.value == v && !st'.hasError && st'.attempts == st.attempts
  {
    st.(value := v, hasError := false)
  }

  /** The toast of a wrong password, naming the attempt. */
  function WrongToast(n: nat): string {
    "\U{1F510} Mật khẩu không chính xác! (Lần thử " + NatToString(n) + ")"
  }

  /** `handlePasswordError`: one more attempt, the error flag on, the field
      emptied, and a toast from the second wrong password on. */
  function Fail(st: State): (o: (State, Option<string>))
    ensures o.0 == State("", true, st.attempts + 1)
    ensures o.1.Some? <==> st.attempts + 1 >= 2
    ensures o.1.Some? ==> o.1.value == WrongToast(st.attempts + 1)
  {
    var n := st.attempts + 1;
    (State("", true, n), if n >= 2 then Some(WrongToast(n)) else None)
  }

  /** `handleSubmit`: nothing while loading or with a blank field; a result
      of `false` and a thrown error are both a wrong password. */
  function Submit(st: State, loading: bool, verdict: Verdict): (o: (State, Option<string>))
    ensures o.0 != st ==> !loading && !IsBlank(st.value) && verdict != Accepted
    ensures !loading && !IsBlank(st.value) && verdict != Accepted ==> o == Fail(st)
    ensures o.0.attempts == st.attempts || o.0.attempts == st.attempts + 1
  {
    if !loading && !IsBlank(st.value) && verdict != Accepted then Fail(st) else (st, None)
  }

  /** The submit button: disabled while loading, with a blank field, or
      after five wrong passwords. */
  function Click(st: State, loading: bool, verdict: Verdict): (o: (State, Option<string>))
    ensures st.attempts >= MaxAttempts ==> o == (st, None)
    ensures st.attempts < MaxAttempts ==> o == Submit(st, loading, verdict)
  {
    if loading || IsBlank(st.value) || st.attempts >= MaxAttempts then (st, None)
    else Submit(st, loading, verdict)
  }

  /** `handleKeyDown` on Enter: the same guard as the submission itself,
      without the cap. */
  function Enter(st: State, loading: bool, verdict: Verdict): (o: (State, Option<string>))
    ensures o == Submit(st, loading, verdict)
  {
    if !loading && !IsBlank(st.value) then Submit(st, loading, verdict) else (st, None)
  }

  /** After five wrong passwords the button does nothing, while a sixth
      password typed and sent with Enter is still checked and counted. */
  lemma EnterBypassesCap()
    ensures var st := State("x", false, 5);
            && Click(st, false, Rejected) == (st, None)
            && Enter(st, false, Rejected).0.attempts == 6
  {
    assert !IsBlank("x") by {
      assert LeadingSpaces("x") == 0;
    }
  }

  /** A wrong password empties the field, so the next submission does
      nothing until something is typed again. */
  lemma FailureNeedsRetyping(st: State, loading: bool, v1: Verdict, v2: Verdict)
    ensures var st' := Submit(st, loading, v1).0;
            st' != st ==> Submit(st', loading, v2) == (st', None) && Enter(st', loading, v2) == (st', None)
  {
    assert IsBlank("") by {
      assert LeadingSpaces("") == 0;
    }
  }

  /** The user's actions on the prompt. */
  datatype Event = Type(v: string) | Press(loading: bool, verdict: Verdict) | Push(loading: bool, verdict: Verdict)

  function Step(st: State, e: Event): State {
    match e
    case Type(v) => Input(st, v)
    case Press(loading, verdict) => Enter(st, loading, verdict).0
    case Push(loading, verdict) => Click(st, loading, verdict).0
  }

  function Run(st: State, es: seq<Event>): State
    decreases |es|
  {
    if es == [] then st else Run(Step(st, es[0]), es[1..])
  }

  function Typings(es: seq<Event>): nat
    decreases |es|
  {
    if es == [] then 0 else (if es[0].Type? then 1 else 0) + Typings(es[1..])
  }

  function Filled(st: State): nat {
    if IsBlank(st.value) then 0 else 1
  }

  /** Each wrong password must be typed: over any run the count grows by
      at most the number of times something was typed (plus one for a
      password already in the field), and it never goes down. */
  lemma {:induction false} AttemptsNeedTyping(st: State, es: seq<Event>)
    ensures st.attempts <= Run(st, es).attempts
    ensures Run(st, es).attempts + Filled(Run(st, es)) <= st.attempts + Filled(st) + Typings(es)
    decreases |es|
  {
    if es != [] {
      StepBound(st, es[0]);
      AttemptsNeedTyping(Step(st, es[0]), es[1..]);
    }
  }

  /** One action: typing may fill the field, and a counted submission
      empties it. */
  lemma StepBound(st: State, e: Event)
    ensures st.attempts <= Step(st, e).attempts
    ensures Step(st, e).attempts + Filled(Step(st, e)) <= st.attempts + Filled(st) + (if e.Type? then 1 else 0)
  {
    assert IsBlank("") by {
      assert LeadingSpaces("") == 0;
    }
  }

  /** The help text under the field. */
  datatype Help = Contact | Remaining(left: nat) | Exhausted

  function HelpText(st: State): (h: Help)
    ensures h.Remaining? ==> h.left + st.attempts == MaxAttempts && 1 <= h.left <= 4
    ensures h == Contact <==> st.attempts == 0
    ensures h == Exhausted <==> st.attempts >= MaxAttempts
  {
    if st.attempts == 0 then Contact
    else if st.attempts < MaxAttempts then Remaining(MaxAttempts - st.attempts)
    else Exhausted
  }
}

=== FILE: login.dfy ===
/** The sign-in form (`front-end/src/pages/Login/Login.tsx`): its two field
    rules, the gate in front of the request and the message for a failed
    request. Storing the returned token and fetching the profile are the
    browser layer's part. */
module Login {

  import opened Wrappers
  import opened Text
  import opened Validation
  import Register

  datatype Form = Form(email: string, password: string)
  datatype Errors = Errors(email: Option<string>, password: Option<string>)

  /** `validateForm`. */
  function Validate(f: Form): (e: Errors)
    ensures e.email.None? && e.password.None? <==>
      && !IsBlank(f.email) && EmailShape(Trim(f.email)) && |f.email| <= 254
      && !IsBlank(f.password) && 6 <= |f.password| <= 128
  {
    Errors(EmailError(f.email), PasswordLengthError(f.password))
  }

  /** The login request: the e-mail trimmed, the password as typed. */
  datatype Request = Request(email: string, password: string)

  /** `handleSubmit`: no request while a field has an error. */
  function Submit(f: Form): (r: Option<Request>)
    ensures r.Some? <==> Validate(f).email.None? && Validate(f).password.None?
    ensures r.Some? ==> r.value == Request(Trim(f.email), f.password)
  {
    var e := Validate(f);
    if e.email.None? && e.password.None? then Some(Request(Trim(f.email), f.password)) else None
  }

  /** Every password the registration form accepts passes the sign-in rule:
      the letter and digit mix leaves it non-blank. The converse fails. */
  lemma RegisteredPasswordSignsIn(p: string)
    ensures Register.PasswordError(p).None? ==> PasswordLengthError(p).None?
    ensures PasswordLengthError("abcdef").None? && Register.PasswordError("abcdef").Some?
  {
    if Register.PasswordError(p).None? {
      MixedNotBlank(p);
    }
    assert PasswordLengthError("abcdef").None? by {
      BlankIsAllSpace("abcdef", 0);
    }
    assert !Register.Mixed("abcdef") by {
      forall q | 0 <= q <= 6 ensures !Register.Ahead("abcdef", q, IsDigit) {
      }
    }
  }

  /** The letter and digit mix puts a digit in the text, which trimming
      keeps. */
  lemma MixedNotBlank(p: string)
    requires Register.Mixed(p)
    ensures !IsBlank(p)
  {
    var q :| 0 <= q <= |p| && Register.Ahead(p, q, IsLower) && Register.Ahead(p, q, IsUpper)
              && Register.Ahead(p, q, IsDigit);
    var i :| q <= i < |p| && IsDigit(p[i]) && Register.SameLine(p, q, i);
    BlankIsAllSpace(p, i);
  }

  /** A string with a non-blank character is not blank once trimmed. */
  lemma BlankIsAllSpace(s: string, i: int)
    requires 0 <= i < |s| && !IsSpace(s[i])
    ensures !IsBlank(s)
  {
    var l, t := LeadingSpaces(s), TrailingSpaces(s);
    assert l <= i;
    assert Trim(s)[i - l] == s[i];
  }

  /** `handleApiError`: a missing status counts as 0, so it never reaches
      the server branch. */
  function ApiMessage(e: ApiError, online: bool): (m: string)
    ensures e.status == Some(401) ==> m == "Invalid email or password"
    ensures e.status == Some(429) ==> m == "Too many login attempts. Please try again later"
    ensures e.status.Some? && e.status.value >= 500 ==> m == "Server error. Please try again later"
    ensures (e.status.None? || (e.status.value !in {401, 429} && e.status.value < 500)) ==>
      m == (if IsNetwork(e, online) then "Network error. Please check your connection"
            else if IsTimeout(e) then "Request timeout. Please try again"
            else "Login failed. Please try again")
  {
    if e.status == Some(401) then "Invalid email or password"
    else if e.status == Some(429) then "Too many login attempts. Please try again later"
    else if e.status.GetOr(0) >= 500 then "Server error. Please try again later"
    else if IsNetwork(e, online) then "Network error. Please check your connection"
    else if IsTimeout(e) then "Request timeout. Please try again"
    else "Login failed. Please try again"
  }

  /** The two forms word a server failure, a lost connection and a timeout
      alike; they differ only on the statuses each names itself. */
  lemma SharedApiMessages(e: ApiError, online: bool)
    requires e.status.None? || e.status.value !in {400, 401, 409, 429}
    ensures ApiMessage(e, online) != Register.ApiMessage(e, online) <==>
      !(e.status.Some? && e.status.value >= 500) && !IsNetwork(e, online) && !IsTimeout(e)
  {
  }
}

=== FILE: ordering.dfy ===
/** A stable insertion sort on an integer key, and its correctness: the
    result is ordered by the key, and the elements of one key keep their
    input order. The client's comment sort and the server's
    `ORDER BY created_at DESC` are both this sort on their own key. Also
    the element-by-element gathering that a row-wise query is. */
module Ordering {

  /** Concatenation is associative. */
  lemma SeqAssoc<T>(h: seq<T>, x: seq<T>, y: seq<T>)
    ensures h + (x + y) == (h + x) + y
  {
  }

  /** What each element contributes, in order. */
  function Gather<T, U>(xs: seq<T>, f: T -> seq<U>): seq<U> {
    if xs == [] then [] else f(xs[0]) + Gather(xs[1..], f)
  }

  lemma GatherCons<T, U>(xs: seq<T>, f: T -> seq<U>)
    requires xs != []
    ensures Gather(xs, f) == f(xs[0]) + Gather(xs[1..], f)
  {
  }

  /** Gathering works element by element: it distributes over
      concatenation. */
  lemma {:induction false} GatherConcat<T, U>(a: seq<T>, b: seq<T>, f: T -> seq<U>)
    ensures Gather(a + b, f) == Gather(a, f) + Gather(b, f)
  {
    if a == [] {
      assert a + b == b;
    } else {
      var h, x, y := f(a[0]), Gather(a[1..], f), Gather(b, f);
      GatherConcat(a[1..], b, f);
      assert Gather(a + b, f) == h + (x + y) by {
        assert (a + b)[1..] == a[1..] + b && (a + b)[0] == a[0];
        GatherCons(a + b, f);
      }
      GatherCons(a, f);
      SeqAssoc(h, x, y);
    }
  }

  predicate Sorted<T>(s: seq<T>, key: T -> int) {
    forall i, j :: 0 <= i < j < |s| ==> key(s[i]) <= key(s[j])
  }

  /** The elements with key `k`, in order. */
  function WithKey<T>(s: seq<T>, key: T -> int, k: int): (r: seq<T>)
    ensures |r| <= |s|
  {
    if s == [] then [] else (if key(s[0]) == k then [s[0]] else []) + WithKey(s[1..], key, k)
  }

  /** Inserts `x` before the first element whose key is not smaller. */
  function Insert<T(==)>(x: T, s: seq<T>, key: T -> int): (r: seq<T>)
    ensures |r| == |s| + 1
    ensures multiset(r) == multiset(s) + multiset{x}
  {
    if s == [] then [x]
    else if key(x) <= key(s[0]) then [x] + s
    else
      assert s == [s[0]] + s[1..];
      [s[0]] + Insert(x, s[1..], key)
  }

  /** Insertion from the back: an earlier element goes in front of the
      later elements with the same key, so the sort is stable. */
  function SortBy<T(==)>(s: seq<T>, key: T -> int): (r: seq<T>)
    ensures |r| == |s|
    ensures multiset(r) == multiset(s)
  {
    if s == [] then []
    else
      assert s == [s[0]] + s[1..];
      Insert(s[0], SortBy(s[1..], key), key)
  }

  /** Every key of `Insert(x, s)` is at least `b` when `x`'s key and all
      of `s`'s are. */
  lemma {:induction false} InsertBound<T>(x: T, s: seq<T>, key: T -> int, b: int)
    requires b <= key(x)
    requires forall i :: 0 <= i < |s| ==> b <= key(s[i])
    ensures forall i :: 0 <= i < |Insert(x, s, key)| ==> b <= key(Insert(x, s, key)[i])
  {
    if s != [] && key(x) > key(s[0]) {
      InsertBound(x, s[1..], key, b);
      var tail := Insert(x, s[1..], key);
      assert Insert(x, s, key) == [s[0]] + tail;
    }
  }

  lemma {:induction false} InsertSorted<T>(x: T, s: seq<T>, key: T -> int)
    requires Sorted(s, key)
    ensures Sorted(Insert(x, s, key), key)
  {
    if s != [] && key(x) > key(s[0]) {
      InsertSorted(x, s[1..], key);
      InsertBound(x, s[1..], key, key(s[0]));
      SortedCons(s[0], Insert(x, s[1..], key), key);
    } else if s != [] {
      SortedCons(x, s, key);
    }
  }

  /** A sorted list stays sorted with a head whose key is at most all of
      its keys. */
  lemma SortedCons<T>(h: T, tail: seq<T>, key: T -> int)
    requires Sorted(tail, key)
    requires forall i :: 0 <= i < |tail| ==> key(h) <= key(tail[i])
    ensures Sorted([h] + tail, key)
  {
    var r := [h] + tail;
    forall i, j | 0 <= i < j < |r| ensures key(r[i]) <= key(r[j]) {
      assert r[j] == tail[j - 1];
      if i > 0 {
        assert r[i] == tail[i - 1];
      }
    }
  }

  lemma {:induction false} InsertWithKey<T>(x: T, s: seq<T>, key: T -> int, k: int)
    ensures WithKey(Insert(x, s, key), key, k) == (if key(x) == k then [x] else []) + WithKey(s, key, k)
  {
    var b := if key(x) == k then [x] else [];
    if s == [] {
      WithKeyCons(x, [], key, k);
    } else if key(x) <= key(s[0]) {
      WithKeyCons(x, s, key, k);
    } else {
      InsertWithKey(x, s[1..], key, k);
      var t := Insert(x, s[1..], key);
      var a := if key(s[0]) == k then [s[0]] else [];
      var w := WithKey(s[1..], key, k);
      assert Insert(x, s, key) == [s[0]] + t;
      WithKeyCons(s[0], t, key, k);
      WithKeyCons(s[0], s[1..], key, k);
      assert s == [s[0]] + s[1..];
      assert WithKey(Insert(x, s, key), key, k) == a + (b + w);
      assert WithKey(s, key, k) == a + w;
      // `x` and `s[0]` have different keys, so at most one is kept
      assert a + (b + w) == b + (a + w) by {
        if a == [] {
          assert a + w == w;
          assert a + (b + w) == b + w;
        } else {
          assert b == [];
          assert b + w == w;
          assert b + (a + w) == a + w;
        }
      }
    }
  }

  lemma WithKeyCons<T>(y: T, rest: seq<T>, key: T -> int, k: int)
    ensures WithKey([y] + rest, key, k) == (if key(y) == k then [y] else []) + WithKey(rest, key, k)
  {
    assert ([y] + rest)[1..] == rest;
  }

  /** The result is ordered by the key, and stable: the elements with equal
      keys keep their input order. */
  lemma {:induction false} SortCorrect<T>(s: seq<T>, key: T -> int)
    ensures Sorted(SortBy(s, key), key)
    ensures forall k :: WithKey(SortBy(s, key), key, k) == WithKey(s, key, k)
  {
    if s != [] {
      SortCorrect(s[1..], key);
      InsertSorted(s[0], SortBy(s[1..], key), key);
      forall k ensures WithKey(SortBy(s, key), key, k) == WithKey(s, key, k) {
        InsertWithKey(s[0], SortBy(s[1..], key), key, k);
      }
    }
  }
}

=== FILE: otp.dfy ===
/** One-time passwords (`backend/models/UserVerification.ts`): the
    `user_verification` rows, issuing with a sweep of expired rows and a
    limit of three active codes per user, and consumption by `checkOTP`.
    Time is an integer clock in milliseconds; the code itself is drawn at
    random by the source and is a parameter here. */
module Otp {

  import opened Wrappers
  import Users

  /** Ten minutes, the lifetime of a code. */
  const Lifetime: int := 10 * 60 * 1000

  /** The most active codes a user may hold. */
  const MaxActive: nat := 3

  datatype Kind = Email | Phone | PasswordReset

  /** A row of `user_verification`. The token column holds the decimal text
      of a six-digit code and is compared with a number, so it is kept as
      that number. */
  datatype Row = Row(id: nat, user: int, token: int, kind: Kind, verified: bool,
                     expireAt: int, attempts: int)

  datatype Store = Store(rows: seq<Row>, nextId: nat)

  // ---------------------------------------------------------------------
  // The verification object

  /** A `UserVerification` object. */
  datatype Verification = Verification(user: int, token: string, kind: Kind, verified: bool,
                                       createdAt: int, expiredAt: int, attempts: int)

  /** The constructor. Absent or falsy fields take their defaults: a token
      generated by the caller-supplied `generated`, no verification, the
      current time and 0 attempts. */
  function NewVerification(user: int, token: Option<string>, generated: string, kind: Kind,
                           verified: Option<bool>, createdAt: Option<int>, now: int,
                           attempts: Option<int>): (v: Verification)
    ensures v.expiredAt == v.createdAt + Lifetime
    ensures v.createdAt == (if createdAt.Some? then createdAt.value else now)
    ensures v.token == (if token.Some? && token.value != "" then token.value else generated)
    ensures v.verified == (verified == Some(true))
    ensures v.attempts == (if attempts.Some? then attempts.value else 0)
  {
    var created := if createdAt.Some? then createdAt.value else now;
    Verification(user, if token.Some? && token.value != "" then token.value else generated, kind,
                 verified == Some(true), created, created + Lifetime,
                 if attempts.Some? && attempts.value != 0 then attempts.value else 0)
  }

  // ---------------------------------------------------------------------
  // sendOTP

  /** `DELETE ... WHERE expire_at <= NOW()`, for every user. */
  function Sweep(rows: seq<Row>, now: int): (r: seq<Row>)
    ensures |r| <= |rows|
    ensures forall x :: x in r <==> x in rows && x.expireAt > now
  {
    if rows == [] then []
    else
      assert forall x :: x in rows <==> x == rows[0] || x in rows[1..];
      (if rows[0].expireAt > now then [rows[0]] else []) + Sweep(rows[1..], now)
  }

  /** `COUNT(id) ... WHERE user_id = ? AND expire_at > NOW()`. */
  function Active(rows: seq<Row>, user: int, now: int): (n: nat)
    ensures n <= |rows|
  {
    if rows == [] then 0
    else (if rows[0].user == user && rows[0].expireAt > now then 1 else 0) + Active(rows[1..], user, now)
  }

  /** `MAX(expire_at) ... WHERE user_id = ?`, None for no row. */
  function LatestExpiry(rows: seq<Row>, user: int): (m: Option<int>)
    ensures m.None? <==> forall i :: 0 <= i < |rows| ==> rows[i].user != user
    ensures m.Some? ==> (exists i :: 0 <= i < |rows| && rows[i].user == user && rows[i].expireAt == m.value)
                        && forall i :: 0 <= i < |rows| && rows[i].user == user ==> rows[i].expireAt <= m.value
  {
    if rows == [] then None
    else
      assert forall i :: 1 <= i < |rows| ==> rows[i] == rows[1..][i - 1];
      var rest := LatestExpiry(rows[1..], user);
      if rows[0].user != user then rest
      else if rest.None? || rest.value < rows[0].expireAt then Some(rows[0].expireAt)
      else rest
  }

  /** `sendOTP`. The sweep is kept whatever follows. With three or more
      active codes the call fails, reporting the latest expiry the message
      is formatted from; otherwise one row valid for ten minutes is added
      and the code is returned. */
  function SendOtp(s: Store, user: int, kind: Kind, now: int, otp: int): (res: (Store, Result<int, Option<int>>))
    requires 100000 <= otp <= 999999
    ensures res.1.Err? <==> Active(s.rows, user, now) >= MaxActive
    ensures res.1.Ok? ==> res.1.value == otp
    ensures res.1.Err? ==> res.1.error == LatestExpiry(res.0.rows, user)
    ensures forall x :: x in res.0.rows <==>
      (x in s.rows && x.expireAt > now) || (res.1.Ok? && x == Row(s.nextId, user, otp, kind, false, now + Lifetime, 1))
    ensures res.1.Ok? ==> res.0.rows[|res.0.rows| - 1] == Row(s.nextId, user, otp, kind, false, now + Lifetime, 1)
    ensures res.0.nextId == s.nextId + (if res.1.Ok? then 1 else 0)
  {
    var swept := Sweep(s.rows, now);
    ActiveSweep(s.rows, user, now);
    if Active(swept, user, now) >= MaxActive then (s.(rows := swept), Err(LatestExpiry(swept, user)))
    else (Store(swept + [Row(s.nextId, user, otp, kind, false, now + Lifetime, 1)], s.nextId + 1), Ok(otp))
  }

  lemma {:induction false} ActiveAppend(a: seq<Row>, b: seq<Row>, user: int, now: int)
    ensures Active(a + b, user, now) == Active(a, user, now) + Active(b, user, now)
  {
    if a != [] {
      assert (a + b)[0] == a[0];
      assert (a + b)[1..] == a[1..] + b;
      ActiveAppend(a[1..], b, user, now);
    } else {
      assert a + b == b;
    }
  }

  /** The sweep removes no active code. */
  lemma {:induction false} ActiveSweep(rows: seq<Row>, user: int, now: int)
    ensures Active(Sweep(rows, now), user, now) == Active(rows, user, now)
  {
    if rows != [] {
      ActiveSweep(rows[1..], user, now);
      if rows[0].expireAt > now {
        assert Sweep(rows, now) == [rows[0]] + Sweep(rows[1..], now);
      } else {
        assert Sweep(rows, now) == Sweep(rows[1..], now);
      }
    }
  }

  /** Codes only expire as time passes. */
  lemma {:induction false} ActiveLater(rows: seq<Row>, user: int, now: int, later: int)
    requires now <= later
    ensures Active(rows, user, later) <= Active(rows, user, now)
  {
    if rows != [] {
      ActiveLater(rows[1..], user, now, later);
    }
  }

  /** A successful issue adds exactly one active code for the user, and the
      user then holds at most three; other users' counts are unchanged. */
  lemma SendOtpCounts(s: Store, user: int, kind: Kind, now: int, otp: int, other: int)
    requires 100000 <= otp <= 999999
    ensures var res := SendOtp(s, user, kind, now, otp);
            res.1.Ok? ==>
              && Active(res.0.rows, user, now) == Active(s.rows, user, now) + 1
              && Active(res.0.rows, user, now) <= MaxActive
              && (other != user ==> Active(res.0.rows, other, now) == Active(s.rows, other, now))
    ensures var res := SendOtp(s, user, kind, now, otp);
            res.1.Err? <==> Active(s.rows, user, now) >= MaxActive
  {
    var swept := Sweep(s.rows, now);
    var row := Row(s.nextId, user, otp, kind, false, now + Lifetime, 1);
    ActiveSweep(s.rows, user, now);
    ActiveSweep(s.rows, other, now);
    ActiveAppend(swept, [row], user, now);
    ActiveAppend(swept, [row], other, now);
    assert [row][1..] == [];
  }

  /** The store invariant: nobody holds more than three active codes. */
  ghost predicate AtMostThree(s: Store, now: int) {
    forall u :: Active(s.rows, u, now) <= MaxActive
  }

  /** Issuing at any later time keeps the invariant. */
  lemma SendOtpKeepsLimit(s: Store, user: int, kind: Kind, now: int, later: int, otp: int)
    requires 100000 <= otp <= 999999
    requires AtMostThree(s, now) && now <= later
    ensures AtMostThree(SendOtp(s, user, kind, later, otp).0, later)
  {
    var after := SendOtp(s, user, kind, later, otp).0;
    forall u ensures Active(after.rows, u, later) <= MaxActive {
      ActiveLater(s.rows, u, now, later);
      SendOtpCounts(s, user, kind, later, otp, u);
      ActiveSweep(s.rows, u, later);
    }
  }

  // ---------------------------------------------------------------------
  // checkOTP

  /** The SELECT of `checkOTP`: user, token and type; expiry is not read. */
  predicate OtpMatches(r: Row, user: int, token: int, kind: Kind) {
    r.user == user && r.token == token && r.kind == kind
  }

  /** `DELETE ... WHERE user_id = ? AND verification_token = ?`, whatever
      the type. */
  function Consume(rows: seq<Row>, user: int, token: int): (r: seq<Row>)
    ensures |r| <= |rows|
    ensures forall x :: x in r <==> x in rows && !(x.user == user && x.token == token)
  {
    if rows == [] then []
    else
      assert forall x :: x in rows <==> x == rows[0] || x in rows[1..];
      (if rows[0].user == user && rows[0].token == token then [] else [rows[0]]) + Consume(rows[1..], user, token)
  }

  /** `checkOTP`. Unknown email and an unmatched code fail without any
      change. Otherwise the user is marked verified, every row with that
      code is deleted, and the object read before the update is returned.
      The type is one of the three kinds here; the source splices any string
      the route gives into the query text, which this model does not cover. */
  function CheckOtp(s: Store, users: Users.UserTable, email: string, token: int, kind: Kind):
    (res: (Store, Users.UserTable, Result<Users.User, string>))
    ensures var found := Users.FindOne(users, Users.Criteria(None, Some(email), None));
            && (found.None? ==> res == (s, users, Err("User not found")))
            && (found.Some? && !(exists i :: 0 <= i < |s.rows| && OtpMatches(s.rows[i], found.value.id.value, token, kind)) ==>
                  res == (s, users, Err("Invalid OTP")))
            && (found.Some? && (exists i :: 0 <= i < |s.rows| && OtpMatches(s.rows[i], found.value.id.value, token, kind)) ==>
                  res.2.Ok?)
            && (res.2.Ok? ==>
                  && found.Some? && res.2.value == found.value
                  && (exists i :: 0 <= i < |s.rows| && OtpMatches(s.rows[i], found.value.id.value, token, kind))
                  && res.0 == s.(rows := Consume(s.rows, found.value.id.value, token))
                  && |res.1.rows| == |users.rows| && res.1.nextId == users.nextId
                  && forall i :: 0 <= i < |users.rows| ==>
                       res.1.rows[i] == if users.rows[i].id == found.value.id.value
                                        then users.rows[i].(verified := true) else users.rows[i])
  {
    match Users.FindOne(users, Users.Criteria(None, Some(email), None))
    case None => (s, users, Err("User not found"))
    case Some(u) =>
      var id := u.id.GetOr(0);
      if !(exists i :: 0 <= i < |s.rows| && OtpMatches(s.rows[i], id, token, kind)) then (s, users, Err("Invalid OTP"))
      else
        (s.(rows := Consume(s.rows, id, token)),
         users.(rows := Users.UpdateWhere(users.rows, id, (r: Users.UserRow) => r.(verified := true))),
         Ok(u))
  }

  /** A code is accepted after its expiry as long as no sweep has run, and
      once accepted it cannot be used again. */
  lemma CheckOtpIgnoresExpiry(s: Store, users: Users.UserTable, email: string, r: Row, now: int)
    requires r in s.rows && r.expireAt <= now
    requires var found := Users.FindOne(users, Users.Criteria(None, Some(email), None));
             found.Some? && found.value.id == Some(r.user)
    ensures CheckOtp(s, users, email, r.token, r.kind).2.Ok?
  {
    var i :| 0 <= i < |s.rows| && s.rows[i] == r;
    assert OtpMatches(s.rows[i], r.user, r.token, r.kind);
  }

  /** Consuming codes keeps the invariant. */
  lemma {:induction false} ActiveConsume(rows: seq<Row>, user: int, token: int, u: int, now: int)
    ensures Active(Consume(rows, user, token), u, now) <= Active(rows, u, now)
  {
    if rows != [] {
      ActiveConsume(rows[1..], user, token, u, now);
      var rest := Consume(rows[1..], user, token);
      if rows[0].user == user && rows[0].token == token {
        assert Consume(rows, user, token) == rest;
      } else {
        assert Consume(rows, user, token) == [rows[0]] + rest;
        assert ([rows[0]] + rest)[1..] == rest;
      }
    }
  }

  lemma CheckOtpKeepsLimit(s: Store, users: Users.UserTable, email: string, token: int, kind: Kind, now: int)
    requires AtMostThree(s, now)
    ensures AtMostThree(CheckOtp(s, users, email, token, kind).0, now)
  {
    var res := CheckOtp(s, users, email, token, kind);
    if res.2.Ok? {
      var id := res.2.value.id.value;
      forall u ensures Active(res.0.rows, u, now) <= MaxActive {
        ActiveConsume(s.rows, id, token, u, now);
      }
    }
  }
}

=== FILE: pagination.dfy ===
/** The pagination middleware (`backend/middlewares/paginationMiddleware.ts`):
    the page number and page size from the query string, the size capped at
    100, and the row offset. `parseInt` is given as its result, None for
    NaN. */
module Pagination {

  import opened Wrappers
  import CommentList

  const DefaultPage: int := 1
  const DefaultPageSize: int := 10
  const MaxLimit: int := 100

  /** `req.pagination`. */
  datatype Info = Info(currentPage: int, pageSize: int, offset: int)

  /** `parseInt(x) || d`: NaN and 0 fall back to the default. */
  function OrDefault(parsed: Option<int>, d: int): (r: int)
    ensures parsed.None? || parsed == Some(0) ==> r == d
    ensures parsed.Some? && parsed.value != 0 ==> r == parsed.value
  {
    if parsed.Some? && parsed.value != 0 then parsed.value else d
  }

  /** The middleware. Negative values are not rejected. */
  function Paginate(page: Option<int>, pageSize: Option<int>): (p: Info)
    ensures p.currentPage == OrDefault(page, DefaultPage)
    ensures p.pageSize <= MaxLimit
    ensures p.pageSize == MaxLimit || p.pageSize == OrDefault(pageSize, DefaultPageSize)
    ensures OrDefault(pageSize, DefaultPageSize) <= MaxLimit ==> p.pageSize == OrDefault(pageSize, DefaultPageSize)
    ensures p.offset == (p.currentPage - 1) * p.pageSize
  {
    var pg := OrDefault(page, DefaultPage);
    var size := OrDefault(pageSize, DefaultPageSize);
    var limit := if size < MaxLimit then size else MaxLimit;
    Info(pg, limit, (pg - 1) * limit)
  }

  /** Without query parameters the first ten rows are asked for. */
  lemma Defaults()
    ensures Paginate(None, None) == Info(1, 10, 0)
    ensures Paginate(Some(0), Some(0)) == Info(1, 10, 0)
  {
  }

  /** Neither a negative page nor a negative size is clamped: page -1 of
      size -5 gives an offset of 10. */
  lemma NegativesPassThrough()
    ensures Paginate(Some(-1), Some(-5)) == Info(-1, -5, 10)
  {
  }

  /** `LIMIT size OFFSET offset` on a result list. */
  function Window<T>(s: seq<T>, offset: nat, size: nat): (r: seq<T>)
    ensures |r| <= size
    ensures offset >= |s| ==> r == []
    ensures offset < |s| ==> r == s[offset..if offset + size < |s| then offset + size else |s|]
  {
    if offset >= |s| then [] else s[offset..if offset + size < |s| then offset + size else |s|]
  }

  /** For a positive page and size, the rows the middleware selects are the
      client's page of the same number and size, and the windows of
      consecutive pages are adjacent. */
  lemma WindowIsPage<T>(s: seq<T>, page: int, pageSize: int)
    requires page >= 1 && pageSize >= 1
    ensures var p := Paginate(Some(page), Some(pageSize));
            && p.offset >= 0
            && Window(s, p.offset, p.pageSize) == CommentList.Page(s, p.currentPage, p.pageSize)
            && Paginate(Some(page + 1), Some(pageSize)).offset == p.offset + p.pageSize
  {
    var p := Paginate(Some(page), Some(pageSize));
    CommentList.MulNonNeg(page - 1, p.pageSize);
    CommentList.MulStep(page - 1, p.pageSize);
    CommentList.PageWindow(s, page, p.pageSize);
  }
}

=== FILE: post_lock.dfy ===
/** The lock flag of a post (`backend/controllers/cryptoController.ts`,
    `turnOnEncryptionPost` and `turnOffEncryptionPost`): a locked post holds
    its content encrypted under the author's key. AES is a pair of functions
    given by the caller: encryption always yields a text, and decryption
    either throws (None) or yields the plaintext. `CryptoUtils.decrypt`
    turns an empty plaintext into a failure as well. */
module PostLock {

  import opened Wrappers
  import opened Http

  /** A row of `posts`, with the columns the handlers do not write kept
      together. `locked` is the raw `isLocked` column: None for NULL. */
  datatype Other = Other(ownerId: int, title: string, caption: string, slug: string, cover: string)
  datatype PostRow = PostRow(id: int, content: string, locked: Option<int>, other: Other)

  /** `isLocked == false` and `isLocked == true` on the number the driver
      returns: only 0 and 1 compare equal, and NULL equals neither. */
  predicate IsUnlocked(r: PostRow) { r.locked == Some(0) }
  predicate IsLocked(r: PostRow) { r.locked == Some(1) }

  /** The driver writes `parseInt` of a non-number, `NaN`, into the SQL
      text as a bare word, which MySQL reads as a column name. */
  const UnknownNaN := "Unknown column 'NaN' in 'where clause'"

  /** `Post.findById`: the first row with the id. A missing post throws
      "Post not found"; a non-number id (None) makes the query itself fail. */
  function FindById(rows: seq<PostRow>, id: Option<int>): (r: Result<PostRow, string>)
    ensures r.Err? <==> id.None? || forall i :: 0 <= i < |rows| ==> rows[i].id != id.value
    ensures r.Ok? ==> r.value in rows && r.value.id == id.value
    ensures r.Err? ==> r.error == if id.None? then UnknownNaN else "Post not found"
  {
    if id.None? then Err(UnknownNaN)
    else if rows == [] then Err("Post not found")
    else if rows[0].id == id.value then Ok(rows[0])
    else
      assert forall i :: 1 <= i < |rows| ==> rows[i] == rows[1..][i - 1];
      FindById(rows[1..], id)
  }

  /** `UPDATE posts SET isLocked = ?, content = ? WHERE id = ?`. */
  function Write(rows: seq<PostRow>, id: int, locked: bool, content: string): (r: seq<PostRow>)
    ensures |r| == |rows|
    ensures forall i :: 0 <= i < |rows| ==>
      r[i] == if rows[i].id == id then rows[i].(locked := Some(if locked then 1 else 0), content := content)
              else rows[i]
  {
    seq(|rows|, i requires 0 <= i < |rows| =>
      if rows[i].id == id then rows[i].(locked := Some(if locked then 1 else 0), content := content) else rows[i])
  }

  /** `turnOnEncryptionPost`. */
  function TurnOn(rows: seq<PostRow>, id: Option<int>, key: string,
                  encrypt: (string, string) -> string): (res: (seq<PostRow>, Reply))
    ensures FindById(rows, id).Err? ==> res == (rows, Forwarded(FindById(rows, id).error))
    ensures FindById(rows, id).Ok? && !IsUnlocked(FindById(rows, id).value) ==>
      res == (rows, Status(400, "Post is already encrypted"))
    ensures FindById(rows, id).Ok? && IsUnlocked(FindById(rows, id).value) ==>
      && res.1 == Status(200, "Post encryption turned on successfully")
      && res.0 == Write(rows, id.value, true, encrypt(FindById(rows, id).value.content, key))
    ensures res.1 != Status(404, "Post not found")
  {
    match FindById(rows, id)
    case Err(e) => (rows, Forwarded(e))
    case Ok(p) =>
      if IsUnlocked(p) then
        (Write(rows, id.value, true, encrypt(p.content, key)), Status(200, "Post encryption turned on successfully"))
      else (rows, Status(400, "Post is already encrypted"))
  }

  const DecryptFailed := "Decryption failed. Please check the key and ciphertext."

  /** `CryptoUtils.decrypt` over the AES primitive `aes`: a throw, and a
      result of no bytes (`sigBytes > 0` false, which is the empty
      plaintext), both become the one "Decryption failed" error. */
  function Decrypt(aes: (string, string) -> Option<string>, ciphertext: string, key: string): (r: Result<string, string>)
    ensures r.Ok? <==> aes(ciphertext, key).Some? && aes(ciphertext, key).value != ""
    ensures r.Ok? ==> r.value == aes(ciphertext, key).value
    ensures r.Err? ==> r.error == DecryptFailed
  {
    match aes(ciphertext, key)
    case None => Err(DecryptFailed)
    case Some(text) => if text != "" then Ok(text) else Err(DecryptFailed)
  }

  /** `turnOffEncryptionPost`: a failed decryption is forwarded before the
      UPDATE, so the post stays locked with its ciphertext. */
  function TurnOff(rows: seq<PostRow>, id: Option<int>, key: string,
                   aes: (string, string) -> Option<string>): (res: (seq<PostRow>, Reply))
    ensures FindById(rows, id).Err? ==> res == (rows, Forwarded(FindById(rows, id).error))
    ensures FindById(rows, id).Ok? && !IsLocked(FindById(rows, id).value) ==>
      res == (rows, Status(400, "Post is already decrypted"))
    ensures FindById(rows, id).Ok? && IsLocked(FindById(rows, id).value)
            && Decrypt(aes, FindById(rows, id).value.content, key).Err? ==>
      res == (rows, Forwarded(DecryptFailed))
    ensures FindById(rows, id).Ok? && IsLocked(FindById(rows, id).value)
            && Decrypt(aes, FindById(rows, id).value.content, key).Ok? ==>
      && res.1 == Status(200, "Post encryption turned off successfully")
      && res.0 == Write(rows, id.value, false, Decrypt(aes, FindById(rows, id).value.content, key).value)
    ensures res.0 != rows ==> res.1 == Status(200, "Post encryption turned off successfully")
    ensures res.1 != Status(404, "Post not found")
  {
    match FindById(rows, id)
    case Err(e) => (rows, Forwarded(e))
    case Ok(p) =>
      if IsLocked(p) then
        match Decrypt(aes, p.content, key)
        case Err(e) => (rows, Forwarded(e))
        case Ok(text) => (Write(rows, id.value, false, text), Status(200, "Post encryption turned off successfully"))
      else (rows, Status(400, "Post is already decrypted"))
  }

  /** Either transition writes only the flag and the content: every other
      column of every row, and every row of another post, is as before. */
  lemma OnlyFlagAndContent(rows: seq<PostRow>, id: Option<int>, key: string,
                           encrypt: (string, string) -> string, aes: (string, string) -> Option<string>)
    ensures var on := TurnOn(rows, id, key, encrypt).0;
            var off := TurnOff(rows, id, key, aes).0;
            && |on| == |rows| && |off| == |rows|
            && forall i :: 0 <= i < |rows| ==>
                 && on[i].id == rows[i].id && on[i].other == rows[i].other
                 && off[i].id == rows[i].id && off[i].other == rows[i].other
                 && (id.None? || rows[i].id != id.value ==> on[i] == rows[i] && off[i] == rows[i])
  {
  }

  /** The two-state machine, for a cipher whose decryption undoes its
      encryption under the same key: a post that is unlocked becomes locked
      and a second lock is refused. Unlocking then restores the content and
      a second unlock is refused, except for an empty content, whose
      decryption yields no bytes: that unlock fails and the post stays
      locked with its ciphertext. */
  lemma LockCycle(rows: seq<PostRow>, id: int, key: string,
                  encrypt: (string, string) -> string, aes: (string, string) -> Option<string>)
    requires FindById(rows, Some(id)).Ok? && IsUnlocked(FindById(rows, Some(id)).value)
    requires var c := FindById(rows, Some(id)).value.content; aes(encrypt(c, key), key) == Some(c)
    ensures var c := FindById(rows, Some(id)).value.content;
            var on := TurnOn(rows, Some(id), key, encrypt).0;
            && FindById(on, Some(id)).Ok? && IsLocked(FindById(on, Some(id)).value)
            && FindById(on, Some(id)).value.content == encrypt(c, key)
            && TurnOn(on, Some(id), key, encrypt).1 == Status(400, "Post is already encrypted")
            && var off := TurnOff(on, Some(id), key, aes);
               && (c == "" ==> off == (on, Forwarded(DecryptFailed)))
               && (c != "" ==>
                     && off.1 == Status(200, "Post encryption turned off successfully")
                     && FindById(off.0, Some(id)).Ok? && IsUnlocked(FindById(off.0, Some(id)).value)
                     && FindById(off.0, Some(id)).value.content == c
                     && TurnOff(off.0, Some(id), key, aes).1 == Status(400, "Post is already decrypted"))
  {
    var p := FindById(rows, Some(id)).value;
    var on := TurnOn(rows, Some(id), key, encrypt).0;
    FirstWithId(rows, id);
    FirstWithId(on, id);
    if p.content != "" {
      var off := TurnOff(on, Some(id), key, aes).0;
      FirstWithId(off, id);
    }
  }

  /** A key under which AES fails leaves a locked post as it is and
      forwards the error. */
  lemma WrongKeyKeepsLock(rows: seq<PostRow>, id: int, key: string, aes: (string, string) -> Option<string>)
    requires FindById(rows, Some(id)).Ok? && IsLocked(FindById(rows, Some(id)).value)
    requires aes(FindById(rows, Some(id)).value.content, key).None?
    ensures TurnOff(rows, Some(id), key, aes) == (rows, Forwarded(DecryptFailed))
  {
  }

  /** The lookup after a write to the same id sees the written row: the
      first row with the id is at the same position before and after. */
  lemma {:induction false} FirstWithId(rows: seq<PostRow>, id: int)
    ensures FindById(rows, Some(id)).Ok? ==>
      exists i :: 0 <= i < |rows| && rows[i] == FindById(rows, Some(id)).value
                  && forall j :: 0 <= j < i ==> rows[j].id != id
  {
    if rows != [] && rows[0].id != id {
      FirstWithId(rows[1..], id);
      if FindById(rows, Some(id)).Ok? {
        var i :| 0 <= i < |rows[1..]| && rows[1..][i] == FindById(rows[1..], Some(id)).value
                 && forall j :: 0 <= j < i ==> rows[1..][j].id != id;
        assert rows[i + 1] == FindById(rows, Some(id)).value;
      }
    }
  }
}

=== FILE: posts.dfy ===
/** The post side of the reaction store (`backend/models/Posts.ts`): the
    `likePost`/`dislikePost` transactions, `isUserReactThisPost`, and the
    like/dislike/viewer-reaction columns that `findOnePostBySlug` and
    `getPostAndReaction` compute with `LEFT JOIN ... GROUP BY`.

    In `post_reactions` the target of a row is the post, the flip does not
    touch `updated_at`, and there is no separate post column, so an
    inserted row records no post id. */
module Posts {

  import opened Wrappers
  import opened Reactions
  import Text

  type PostId = int

  /** One reaction transaction on a post. `fault` stands for a statement
      that fails inside the transaction (a lost connection, a constraint
      violation): the transaction rolls back and the error is rethrown. */
  function React(t: Table, user: UserId, post: PostId, desired: bool, now: int,
                 fault: Option<string>): (res: (Table, Result<Outcome, string>))
    ensures fault.Some? ==> res.0 == t && res.1 == Err(fault.value)
    ensures fault.None? ==>
      && res.1.Ok?
      && View(res.0.rows) == ToggleMap(View(t.rows), (user, post), desired).0
      && res.1.value.action == ToggleMap(View(t.rows), (user, post), desired).1
    ensures forall u, x :: (u, x) != (user, post) ==> Select(res.0.rows, u, x) == Select(t.rows, u, x)
  {
    match fault
    case Some(e) => (t, Err(e))
    case None =>
      var r := Toggle(t, user, post, desired, None, now, false);
      ToggleRefinesMap(t, user, post, desired, None, now, false);
      forall u, x | (u, x) != (user, post)
        ensures Select(r.0.rows, u, x) == Select(t.rows, u, x)
      {
        ToggleFrame(t, user, post, desired, None, now, false, u, x);
      }
      (r.0, Ok(r.1))
  }

  /** `likePost`: no row inserts a like ("liked"), a like row is deleted
      ("unliked"), any other row is flipped to a like in place ("liked"). */
  function LikePost(t: Table, user: UserId, post: PostId, now: int,
                    fault: Option<string>): (res: (Table, Result<Outcome, string>))
    ensures fault.Some? ==> res.0 == t && res.1.Err?
    ensures fault.None? && Lookup(t.rows, user, post) == None ==>
      && res.0.rows == t.rows + [Row(t.nextId, user, post, None, true, now)]
      && res.1 == Ok(Outcome(Liked, 1, t.nextId))
    ensures fault.None? && Lookup(t.rows, user, post) == Some(true) ==>
      && Lookup(res.0.rows, user, post) == None
      && res.1.Ok? && res.1.value.action == Unliked
    ensures fault.None? && Lookup(t.rows, user, post) == Some(false) ==>
      && Lookup(res.0.rows, user, post) == Some(true)
      && |res.0.rows| == |t.rows|
      && res.1.Ok? && res.1.value.action == Liked
  {
    React(t, user, post, true, now, fault)
  }

  /** `dislikePost`: the mirror image, with "disliked"/"undisliked". */
  function DislikePost(t: Table, user: UserId, post: PostId, now: int,
                       fault: Option<string>): (res: (Table, Result<Outcome, string>))
    ensures fault.Some? ==> res.0 == t && res.1.Err?
    ensures fault.None? && Lookup(t.rows, user, post) == None ==>
      && res.0.rows == t.rows + [Row(t.nextId, user, post, None, false, now)]
      && res.1 == Ok(Outcome(Disliked, 1, t.nextId))
    ensures fault.None? && Lookup(t.rows, user, post) == Some(false) ==>
      && Lookup(res.0.rows, user, post) == None
      && res.1.Ok? && res.1.value.action == Undisliked
    ensures fault.None? && Lookup(t.rows, user, post) == Some(true) ==>
      && Lookup(res.0.rows, user, post) == Some(false)
      && |res.0.rows| == |t.rows|
      && res.1.Ok? && res.1.value.action == Disliked
  {
    React(t, user, post, false, now, fault)
  }

  /** Both transactions keep at most one row per (user, post). */
  lemma ReactKeepsUnique(t: Table, user: UserId, post: PostId, desired: bool, now: int,
                         fault: Option<string>)
    requires UniquePairs(t.rows)
    ensures UniquePairs(React(t, user, post, desired, now, fault).0.rows)
  {
    if fault.None? {
      ToggleKeepsUnique(t, user, post, desired, None, now, false);
    }
  }

  /** `isUserReactThisPost`: the viewer's reaction, or null without one. */
  function IsUserReactThisPost(rows: seq<Row>, post: PostId, user: UserId): (r: Option<bool>)
    ensures r == if (user, post) in View(rows) then Some(View(rows)[(user, post)]) else None
  {
    LookupIsView(rows, user, post);
    Lookup(rows, user, post)
  }

  // ---------------------------------------------------------------------
  // The aggregating queries, row by row

  /** The `reaction` values of the rows of one post, in storage order. */
  function Polarities(rows: seq<Row>, post: PostId): (p: seq<bool>)
    ensures |p| <= |rows|
  {
    if rows == [] then []
    else (if rows[0].target == post then [rows[0].like] else []) + Polarities(rows[1..], post)
  }

  /** The rows one side of a `LEFT JOIN` contributes: every match, or a
      single NULL row when nothing matches. */
  function LeftJoinSide(p: seq<bool>): (s: seq<Option<bool>>)
    ensures |s| == if p == [] then 1 else |p|
  {
    if p == [] then [None] else seq(|p|, i requires 0 <= i < |p| => Some(p[i]))
  }

  /** Every combination of a row of `a` with a row of `b` (the second join). */
  function Cross(a: seq<Option<bool>>, b: seq<Option<bool>>): (j: seq<(Option<bool>, Option<bool>)>)
    ensures |j| == |a| * |b|
  {
    if a == [] then [] else seq(|b|, k requires 0 <= k < |b| => (a[0], b[k])) + Cross(a[1..], b)
  }

  /** `COUNT(CASE WHEN x.reaction = like THEN 1 END)` over single-join rows. */
  function CountCase(s: seq<Option<bool>>, like: bool): (n: nat)
    ensures n <= |s|
  {
    if s == [] then 0 else (if s[0] == Some(like) then 1 else 0) + CountCase(s[1..], like)
  }

  /** The same count over the first column of double-join rows. */
  function CountCaseFirst(j: seq<(Option<bool>, Option<bool>)>, like: bool): (n: nat)
    ensures n <= |j|
  {
    if j == [] then 0 else (if j[0].0 == Some(like) then 1 else 0) + CountCaseFirst(j[1..], like)
  }

  /** The second column of double-join rows. */
  function Seconds(j: seq<(Option<bool>, Option<bool>)>): (c: seq<Option<bool>>)
    ensures |c| == |j| && forall k :: 0 <= k < |j| ==> c[k] == j[k].1
  {
    seq(|j|, k requires 0 <= k < |j| => j[k].1)
  }

  /** `MAX(...)` of the second column: NULLs are ignored, 1 beats 0, and the
      result is NULL when every value is NULL. */
  function MaxSecond(j: seq<(Option<bool>, Option<bool>)>): (m: Option<bool>)
    ensures m == Some(true) <==> Some(true) in Seconds(j)
    ensures m == None <==> forall k :: 0 <= k < |j| ==> j[k].1 == None
  {
    if j == [] then None
    else
      var rest := MaxSecond(j[1..]);
      assert Seconds(j) == [j[0].1] + Seconds(j[1..]);
      match j[0].1
      case None => rest
      case Some(v) => if v || rest == Some(true) then Some(true) else Some(false)
  }

  /** The reaction columns of one post in `findOnePostBySlug`. */
  datatype Totals = Totals(totalLikes: nat, totalDislikes: nat)

  /** The reaction columns of `getPostAndReaction`. */
  datatype Summary = Summary(totalLikes: nat, totalDislikes: nat, userReaction: Option<bool>)

  /** `findOnePostBySlug`: one `LEFT JOIN post_reactions`, grouped per post. */
  function SlugTotals(rows: seq<Row>, post: PostId): (r: Totals)
    ensures r.totalLikes == CountReactions(rows, post, true)
    ensures r.totalDislikes == CountReactions(rows, post, false)
  {
    var side := LeftJoinSide(Polarities(rows, post));
    CountCaseOfSide(Polarities(rows, post), true);
    CountCaseOfSide(Polarities(rows, post), false);
    PolaritiesCount(rows, post, true);
    PolaritiesCount(rows, post, false);
    Totals(CountCase(side, true), CountCase(side, false))
  }

  /** `getPostAndReaction`: the post joined once with all its reactions and
      once with the viewer's, grouped per post. */
  function PostAndReaction(rows: seq<Row>, post: PostId, viewer: UserId): Summary {
    var all := LeftJoinSide(Polarities(rows, post));
    var mine := LeftJoinSide(SelectedPolarities(Select(rows, viewer, post)));
    var joined := Cross(all, mine);
    Summary(CountCaseFirst(joined, true), CountCaseFirst(joined, false), MaxSecond(joined))
  }

  function SelectedPolarities(sel: seq<Row>): (p: seq<bool>)
    ensures |p| == |sel| && forall i :: 0 <= i < |sel| ==> p[i] == sel[i].like
  {
    seq(|sel|, i requires 0 <= i < |sel| => sel[i].like)
  }

  // ---------------------------------------------------------------------
  // What the aggregates amount to

  lemma {:induction false} PolaritiesCount(rows: seq<Row>, post: PostId, like: bool)
    ensures Text.Count(Polarities(rows, post), like) == CountReactions(rows, post, like)
  {
    if rows != [] {
      PolaritiesCount(rows[1..], post, like);
      var head := if rows[0].target == post then [rows[0].like] else [];
      CountAppend(head, Polarities(rows[1..], post), like);
    }
  }

  lemma {:induction false} CountAppend(a: seq<bool>, b: seq<bool>, like: bool)
    ensures Text.Count(a + b, like) == Text.Count(a, like) + Text.Count(b, like)
  {
    if a == [] {
      assert a + b == b;
    } else {
      assert (a + b)[1..] == a[1..] + b;
      CountAppend(a[1..], b, like);
    }
  }

  lemma {:induction false} CountCaseOfSide(p: seq<bool>, like: bool)
    ensures CountCase(LeftJoinSide(p), like) == Text.Count(p, like)
  {
    if p != [] {
      CountCaseOfSide(p[1..], like);
      if p[1..] == [] {
        assert LeftJoinSide(p)[1..] == [];
      } else {
        assert LeftJoinSide(p)[1..] == LeftJoinSide(p[1..]);
      }
    }
  }

  lemma {:induction false} CountCaseFirstAppend(a: seq<(Option<bool>, Option<bool>)>,
                                                b: seq<(Option<bool>, Option<bool>)>, like: bool)
    ensures CountCaseFirst(a + b, like) == CountCaseFirst(a, like) + CountCaseFirst(b, like)
  {
    if a == [] {
      assert a + b == b;
    } else {
      assert (a + b)[1..] == a[1..] + b;
      CountCaseFirstAppend(a[1..], b, like);
    }
  }

  /** A block of `n` join rows that share the first column. */
  lemma {:induction false} CountCaseFirstBlock(x: Option<bool>, b: seq<Option<bool>>, like: bool)
    ensures CountCaseFirst(seq(|b|, k requires 0 <= k < |b| => (x, b[k])), like)
         == if x == Some(like) then |b| else 0
  {
    if b != [] {
      var blk := seq(|b|, k requires 0 <= k < |b| => (x, b[k]));
      assert blk[1..] == seq(|b[1..]|, k requires 0 <= k < |b[1..]| => (x, b[1..][k]));
      CountCaseFirstBlock(x, b[1..], like);
    }
  }

  /** The double join repeats every row of the first side once per row of
      the second side. */
  lemma {:induction false} CountCaseFirstCross(a: seq<Option<bool>>, b: seq<Option<bool>>, like: bool)
    ensures CountCaseFirst(Cross(a, b), like) == CountCase(a, like) * |b|
  {
    if a != [] {
      var blk := seq(|b|, k requires 0 <= k < |b| => (a[0], b[k]));
      var h := if a[0] == Some(like) then 1 else 0;
      CountCaseFirstAppend(blk, Cross(a[1..], b), like);
      CountCaseFirstBlock(a[0], b, like);
      CountCaseFirstCross(a[1..], b, like);
      Distribute(h, CountCase(a[1..], like), |b|);
    }
  }

  lemma Distribute(x: int, y: int, z: int)
    ensures (x + y) * z == x * z + y * z
  {
  }

  /** Closed form of the two counts of `getPostAndReaction`: each is the
      plain count multiplied by the number of rows the viewer's join
      contributes, which is at least one. */
  lemma PostAndReactionCounts(rows: seq<Row>, post: PostId, viewer: UserId)
    ensures var s := PostAndReaction(rows, post, viewer);
            var k := if Select(rows, viewer, post) == [] then 1 else |Select(rows, viewer, post)|;
            && s.totalLikes == CountReactions(rows, post, true) * k
            && s.totalDislikes == CountReactions(rows, post, false) * k
  {
    var p := Polarities(rows, post);
    var all := LeftJoinSide(p);
    var mine := LeftJoinSide(SelectedPolarities(Select(rows, viewer, post)));
    CountCaseFirstCross(all, mine, true);
    CountCaseFirstCross(all, mine, false);
    CountCaseOfSide(p, true);
    CountCaseOfSide(p, false);
    PolaritiesCount(rows, post, true);
    PolaritiesCount(rows, post, false);
  }

  /** Closed form of the viewer column of `getPostAndReaction`: NULL without
      a row of the viewer, and a like exactly when one of the viewer's rows
      is a like. */
  lemma PostAndReactionViewer(rows: seq<Row>, post: PostId, viewer: UserId)
    ensures var s := PostAndReaction(rows, post, viewer);
            var sel := Select(rows, viewer, post);
            && (s.userReaction == None <==> sel == [])
            && (s.userReaction == Some(true) <==> Some(true) in LeftJoinSide(SelectedPolarities(sel)))
  {
    var all := LeftJoinSide(Polarities(rows, post));
    var mine := LeftJoinSide(SelectedPolarities(Select(rows, viewer, post)));
    CrossSecond(all, mine);
    var j := Cross(all, mine);
    if Select(rows, viewer, post) != [] {
      assert mine[0] != None;
      assert Seconds(j)[0] == mine[0];
    } else {
      assert None in mine;
      assert forall k :: 0 <= k < |j| ==> j[k].1 in Seconds(j);
    }
  }

  /** The second column of the double join holds exactly the values of the
      second side, provided the first side is not empty. */
  lemma {:induction false} CrossSecond(a: seq<Option<bool>>, b: seq<Option<bool>>)
    requires a != []
    ensures forall v :: v in Seconds(Cross(a, b)) <==> v in b
  {
    var j := Cross(a, b);
    var blk := seq(|b|, k requires 0 <= k < |b| => (a[0], b[k]));
    assert j == blk + Cross(a[1..], b);
    assert Seconds(j) == Seconds(blk) + Seconds(Cross(a[1..], b));
    assert Seconds(blk) == b;
    if a[1..] != [] {
      CrossSecond(a[1..], b);
    } else {
      assert Cross(a[1..], b) == [];
    }
  }

  /** Under the one-row-per-pair invariant the double join is harmless: the
      totals are the plain like/dislike counts of the post and the viewer's
      reaction is what `isUserReactThisPost` reports. */
  lemma PostAndReactionUnique(rows: seq<Row>, post: PostId, viewer: UserId)
    requires UniquePairs(rows)
    ensures PostAndReaction(rows, post, viewer)
         == Summary(CountReactions(rows, post, true), CountReactions(rows, post, false),
                    IsUserReactThisPost(rows, post, viewer))
  {
    var sel := Select(rows, viewer, post);
    var summary := PostAndReaction(rows, post, viewer);
    UniqueSelectsOne(rows, viewer, post);
    SingleRowCounts(rows, post, viewer);
    assert summary.userReaction == Lookup(rows, viewer, post) by {
      PostAndReactionViewer(rows, post, viewer);
      if sel != [] {
        assert LeftJoinSide(SelectedPolarities(sel)) == [Some(sel[0].like)];
      }
    }
  }

  /** With at most one row of the viewer, the second join does not
      multiply the totals. */
  lemma SingleRowCounts(rows: seq<Row>, post: PostId, viewer: UserId)
    requires |Select(rows, viewer, post)| <= 1
    ensures PostAndReaction(rows, post, viewer).totalLikes == CountReactions(rows, post, true)
    ensures PostAndReaction(rows, post, viewer).totalDislikes == CountReactions(rows, post, false)
  {
    PostAndReactionCounts(rows, post, viewer);
    var k := if Select(rows, viewer, post) == [] then 1 else |Select(rows, viewer, post)|;
    assert k == 1;
    assert CountReactions(rows, post, true) * k == CountReactions(rows, post, true);
    assert CountReactions(rows, post, false) * k == CountReactions(rows, post, false);
  }
}

=== FILE: reactions.dfy ===
/** The reaction tables (`post_reactions`, `comment_reactions`) and the
    like/dislike toggle that both `Post.likePost`/`dislikePost` and
    `Comment.likeComment`/`dislikeComment` run inside one transaction.

    A table is the sequence of its rows in storage order plus the
    auto-increment counter. Statements are modelled as SQL executes them:
    a `SELECT ... WHERE user AND target` yields every matching row and the
    code reads the first one; `DELETE` and `UPDATE` act on every matching
    row; `INSERT` appends one row with the next id. */
module Reactions {

  import opened Wrappers

  type UserId = int
  type TargetId = int
  type Key = (UserId, TargetId)

  /** One reaction row. `like` is the `reaction` column: true for 1, false
      for 0. `postId` is the post the reaction belongs to (the post itself in
      `post_reactions`, the comment's post in `comment_reactions`). */
  datatype Row = Row(id: nat, user: UserId, target: TargetId, postId: Option<int>,
                     like: bool, updatedAt: int)

  datatype Table = Table(rows: seq<Row>, nextId: nat)

  /** The `action` label of the response. */
  datatype Action = Liked | Unliked | Disliked | Undisliked

  /** The response of a committed toggle: the action label and the driver's
      result for the one write statement (`affectedRows`, `insertId ?? null`;
      the driver reports insert id 0 for a delete or an update). */
  datatype Outcome = Outcome(action: Action, affectedRows: nat, insertId: nat)

  /** The label reported when a reaction of polarity `like` is set. */
  function SetLabel(like: bool): Action {
    if like then Liked else Disliked
  }

  /** The label reported when a reaction of polarity `like` is withdrawn. */
  function UnsetLabel(like: bool): Action {
    if like then Unliked else Undisliked
  }

  predicate Matches(r: Row, user: UserId, target: TargetId) {
    r.user == user && r.target == target
  }

  /** `SELECT ... WHERE user = ? AND target = ?`: the matching rows in
      storage order. */
  function Select(rows: seq<Row>, user: UserId, target: TargetId): (sel: seq<Row>)
    ensures |sel| <= |rows|
    ensures forall i :: 0 <= i < |sel| ==> Matches(sel[i], user, target) && sel[i] in rows
  {
    if rows == [] then []
    else if Matches(rows[0], user, target) then [rows[0]] + Select(rows[1..], user, target)
    else Select(rows[1..], user, target)
  }

  /** The polarity of the first matching row, or None when there is none
      (`rows[0].reaction` after the existence check). */
  function Lookup(rows: seq<Row>, user: UserId, target: TargetId): Option<bool> {
    var sel := Select(rows, user, target);
    if sel == [] then None else Some(sel[0].like)
  }

  /** The table invariant: at most one row per (user, target) pair. */
  predicate UniquePairs(rows: seq<Row>) {
    forall i, j :: 0 <= i < j < |rows| ==> !Matches(rows[j], rows[i].user, rows[i].target)
  }

  /** `DELETE ... WHERE user = ? AND target = ?`. */
  function Delete(rows: seq<Row>, user: UserId, target: TargetId): (r: seq<Row>)
    ensures |r| <= |rows|
    ensures forall i :: 0 <= i < |r| ==> r[i] in rows && !Matches(r[i], user, target)
  {
    if rows == [] then []
    else if Matches(rows[0], user, target) then Delete(rows[1..], user, target)
    else [rows[0]] + Delete(rows[1..], user, target)
  }

  /** The row after `SET reaction = like [, updated_at = stamp]`. */
  function Flip(r: Row, like: bool, stamp: Option<int>): Row {
    r.(like := like, updatedAt := stamp.GetOr(r.updatedAt))
  }

  /** `UPDATE ... SET reaction = ? [, updated_at = now] WHERE user = ? AND
      target = ?`; `stamp` is the new `updated_at` when the statement sets one. */
  function Update(rows: seq<Row>, user: UserId, target: TargetId, like: bool,
                  stamp: Option<int>): (r: seq<Row>)
    ensures |r| == |rows|
    ensures forall i :: 0 <= i < |r| ==>
      r[i] == if Matches(rows[i], user, target) then Flip(rows[i], like, stamp) else rows[i]
  {
    if rows == [] then []
    else
      var head := if Matches(rows[0], user, target) then Flip(rows[0], like, stamp) else rows[0];
      [head] + Update(rows[1..], user, target, like, stamp)
  }

  /** The three-way decision of the toggle for a user asking for polarity
      `desired` (true = like, false = dislike): an existing row of the same
      polarity is deleted, one of the other polarity is flipped in place, and
      otherwise a new row is inserted. `postId` is recorded in an inserted
      row; `now` is the insertion time; `stampOnFlip` says whether the flip
      also sets `updated_at` (the comment variant does, the post one does
      not). */
  function Toggle(t: Table, user: UserId, target: TargetId, desired: bool,
                  postId: Option<int>, now: int, stampOnFlip: bool): (res: (Table, Outcome))
    ensures Lookup(t.rows, user, target) == Some(desired) ==>
      && Lookup(res.0.rows, user, target) == None
      && res.1.action == UnsetLabel(desired)
      && res.1.insertId == 0
      && res.0.nextId == t.nextId
    ensures Lookup(t.rows, user, target) == Some(!desired) ==>
      && Lookup(res.0.rows, user, target) == Some(desired)
      && res.1.action == SetLabel(desired)
      && res.1.insertId == 0
      && |res.0.rows| == |t.rows|
      && res.0.nextId == t.nextId
    ensures Lookup(t.rows, user, target) == None ==>
      && res.0.rows == t.rows + [Row(t.nextId, user, target, postId, desired, now)]
      && res.1 == Outcome(SetLabel(desired), 1, t.nextId)
      && res.0.nextId == t.nextId + 1
  {
    var stamp := if stampOnFlip then Some(now) else None;
    var n := |Select(t.rows, user, target)|;
    match Lookup(t.rows, user, target)
    case Some(current) =>
      if current == desired then
        SelectDeleteSame(t.rows, user, target);
        (t.(rows := Delete(t.rows, user, target)), Outcome(UnsetLabel(desired), n, 0))
      else
        SelectUpdateSame(t.rows, user, target, desired, stamp);
        (t.(rows := Update(t.rows, user, target, desired, stamp)), Outcome(SetLabel(desired), n, 0))
    case None =>
      (Table(t.rows + [Row(t.nextId, user, target, postId, desired, now)], t.nextId + 1),
       Outcome(SetLabel(desired), 1, t.nextId))
  }

  // ---------------------------------------------------------------------
  // Facts about the statements

  lemma {:induction false} SelectAppend(rows: seq<Row>, r: Row, user: UserId, target: TargetId)
    ensures Select(rows + [r], user, target)
         == Select(rows, user, target) + (if Matches(r, user, target) then [r] else [])
  {
    if rows == [] {
      assert [r][1..] == [];
    } else {
      assert (rows + [r])[1..] == rows[1..] + [r];
      SelectAppend(rows[1..], r, user, target);
    }
  }

  lemma {:induction false} SelectDeleteSame(rows: seq<Row>, user: UserId, target: TargetId)
    ensures Select(Delete(rows, user, target), user, target) == []
  {
    if rows != [] {
      SelectDeleteSame(rows[1..], user, target);
    }
  }

  lemma {:induction false} SelectDeleteOther(rows: seq<Row>, user: UserId, target: TargetId,
                                             u: UserId, x: TargetId)
    requires (u, x) != (user, target)
    ensures Select(Delete(rows, user, target), u, x) == Select(rows, u, x)
  {
    if rows != [] {
      SelectDeleteOther(rows[1..], user, target, u, x);
    }
  }

  /** Every row of a selection with the new polarity and stamp. */
  function FlipAll(sel: seq<Row>, like: bool, stamp: Option<int>): (r: seq<Row>)
    ensures |r| == |sel|
    ensures forall i :: 0 <= i < |sel| ==> r[i] == Flip(sel[i], like, stamp)
  {
    seq(|sel|, i requires 0 <= i < |sel| => Flip(sel[i], like, stamp))
  }

  lemma {:induction false} SelectUpdateSame(rows: seq<Row>, user: UserId, target: TargetId,
                                            like: bool, stamp: Option<int>)
    ensures Select(Update(rows, user, target, like, stamp), user, target)
         == FlipAll(Select(rows, user, target), like, stamp)
  {
    if rows != [] {
      var up := Update(rows, user, target, like, stamp);
      var rest := Update(rows[1..], user, target, like, stamp);
      var b := Select(rows[1..], user, target);
      var m := Matches(rows[0], user, target);
      SelectUpdateSame(rows[1..], user, target, like, stamp);
      assert Select(up, user, target) == (if m then [Flip(rows[0], like, stamp)] else []) + Select(rest, user, target) by {
        assert up == [up[0]] + rest;
        SelectCons(up[0], rest, user, target);
      }
      assert Select(rows, user, target) == (if m then [rows[0]] else []) + b by {
        assert rows == [rows[0]] + rows[1..];
        SelectCons(rows[0], rows[1..], user, target);
      }
      var h := if m then [rows[0]] else [];
      assert FlipAll(h, like, stamp) == if m then [Flip(rows[0], like, stamp)] else [];
      FlipAllAppend(h, b, like, stamp);
    }
  }

  lemma FlipAllAppend(x: seq<Row>, y: seq<Row>, like: bool, stamp: Option<int>)
    ensures FlipAll(x + y, like, stamp) == FlipAll(x, like, stamp) + FlipAll(y, like, stamp)
  {
  }

  lemma SelectCons(r: Row, rest: seq<Row>, user: UserId, target: TargetId)
    ensures Select([r] + rest, user, target)
         == (if Matches(r, user, target) then [r] else []) + Select(rest, user, target)
  {
    assert ([r] + rest)[1..] == rest;
  }

  lemma {:induction false} SelectUpdateOther(rows: seq<Row>, user: UserId, target: TargetId,
                                             like: bool, stamp: Option<int>, u: UserId, x: TargetId)
    requires (u, x) != (user, target)
    ensures Select(Update(rows, user, target, like, stamp), u, x) == Select(rows, u, x)
  {
    if rows != [] {
      SelectUpdateOther(rows[1..], user, target, like, stamp, u, x);
      assert Update(rows, user, target, like, stamp)[1..] == Update(rows[1..], user, target, like, stamp);
    }
  }

  /** Under the invariant a pair selects at most one row. */
  lemma {:induction false} UniqueSelectsOne(rows: seq<Row>, user: UserId, target: TargetId)
    requires UniquePairs(rows)
    ensures |Select(rows, user, target)| <= 1
  {
    if rows != [] {
      assert UniquePairs(rows[1..]) by {
        forall i, j | 0 <= i < j < |rows[1..]|
          ensures !Matches(rows[1..][j], rows[1..][i].user, rows[1..][i].target)
        {
          assert rows[1..][i] == rows[i + 1] && rows[1..][j] == rows[j + 1];
        }
      }
      UniqueSelectsOne(rows[1..], user, target);
      if Matches(rows[0], user, target) {
        NoMatchInTail(rows, user, target);
      }
    }
  }

  lemma NoMatchInTail(rows: seq<Row>, user: UserId, target: TargetId)
    requires UniquePairs(rows) && |rows| > 0 && Matches(rows[0], user, target)
    ensures Select(rows[1..], user, target) == []
  {
    var tail := rows[1..];
    forall k | 0 <= k < |tail|
      ensures !Matches(tail[k], user, target)
    {
      assert tail[k] == rows[k + 1];
    }
    NoMatchSelectsNothing(tail, user, target);
  }

  /** A pair selects nothing exactly when no row matches it. */
  lemma {:induction false} NoMatchSelectsNothing(rows: seq<Row>, user: UserId, target: TargetId)
    ensures Select(rows, user, target) == [] <==> forall i :: 0 <= i < |rows| ==> !Matches(rows[i], user, target)
  {
    if rows != [] {
      NoMatchSelectsNothing(rows[1..], user, target);
      assert forall i :: 1 <= i < |rows| ==> rows[i] == rows[1..][i - 1];
    }
  }

  // ---------------------------------------------------------------------
  // Properties of the toggle

  /** Frame: the rows of every other (user, target) pair are exactly as they
      were, whichever branch the toggle took. */
  lemma ToggleFrame(t: Table, user: UserId, target: TargetId, desired: bool,
                    postId: Option<int>, now: int, stampOnFlip: bool, u: UserId, x: TargetId)
    requires (u, x) != (user, target)
    ensures Select(Toggle(t, user, target, desired, postId, now, stampOnFlip).0.rows, u, x)
         == Select(t.rows, u, x)
  {
    var stamp := if stampOnFlip then Some(now) else None;
    match Lookup(t.rows, user, target)
    case Some(current) =>
      if current == desired {
        SelectDeleteOther(t.rows, user, target, u, x);
      } else {
        SelectUpdateOther(t.rows, user, target, desired, stamp, u, x);
      }
    case None =>
      SelectAppend(t.rows, Row(t.nextId, user, target, postId, desired, now), u, x);
  }

  /** The toggle preserves the at-most-one-row-per-pair invariant: it only
      inserts when the lookup came back empty. */
  lemma ToggleKeepsUnique(t: Table, user: UserId, target: TargetId, desired: bool,
                          postId: Option<int>, now: int, stampOnFlip: bool)
    requires UniquePairs(t.rows)
    ensures UniquePairs(Toggle(t, user, target, desired, postId, now, stampOnFlip).0.rows)
  {
    var stamp := if stampOnFlip then Some(now) else None;
    match Lookup(t.rows, user, target)
    case Some(current) =>
      if current == desired {
        DeleteKeepsUnique(t.rows, user, target);
      } else {
        var r := Update(t.rows, user, target, desired, stamp);
        assert forall i :: 0 <= i < |r| ==> r[i].user == t.rows[i].user && r[i].target == t.rows[i].target;
      }
    case None =>
      var row := Row(t.nextId, user, target, postId, desired, now);
      var r := t.rows + [row];
      NoMatchSelectsNothing(t.rows, user, target);
      forall i, j | 0 <= i < j < |r|
        ensures !Matches(r[j], r[i].user, r[i].target)
      {
        if j == |t.rows| {
          assert !Matches(t.rows[i], user, target);
        }
      }
  }

  lemma {:induction false} DeleteKeepsUnique(rows: seq<Row>, user: UserId, target: TargetId)
    requires UniquePairs(rows)
    ensures UniquePairs(Delete(rows, user, target))
  {
    if rows != [] {
      var tail := rows[1..];
      assert UniquePairs(tail) by {
        forall i, j | 0 <= i < j < |tail|
          ensures !Matches(tail[j], tail[i].user, tail[i].target)
        {
          assert tail[i] == rows[i + 1] && tail[j] == rows[j + 1];
        }
      }
      DeleteKeepsUnique(tail, user, target);
      if !Matches(rows[0], user, target) {
        var d := Delete(tail, user, target);
        var r := [rows[0]] + d;
        forall i, j | 0 <= i < j < |r|
          ensures !Matches(r[j], r[i].user, r[i].target)
        {
          if i == 0 {
            assert r[j] in tail;
            var k :| 0 <= k < |tail| && tail[k] == r[j];
            assert rows[k + 1] == r[j];
          } else {
            assert r[i] == d[i - 1] && r[j] == d[j - 1];
          }
        }
      }
    }
  }

  // ---------------------------------------------------------------------
  // The map view: the table as a partial map from (user, target) to polarity

  /** The polarity the lookup would report for every pair that has a row. */
  function View(rows: seq<Row>): map<Key, bool> {
    if rows == [] then map[] else View(rows[1..])[(rows[0].user, rows[0].target) := rows[0].like]
  }

  /** Reference decision table on the map view. */
  function ToggleMap(m: map<Key, bool>, k: Key, desired: bool): (map<Key, bool>, Action) {
    if k in m && m[k] == desired then (m - {k}, UnsetLabel(desired))
    else (m[k := desired], SetLabel(desired))
  }

  /** The lookup agrees with the map view. */
  lemma {:induction false} LookupIsView(rows: seq<Row>, user: UserId, target: TargetId)
    ensures Lookup(rows, user, target)
         == if (user, target) in View(rows) then Some(View(rows)[(user, target)]) else None
  {
    if rows != [] {
      LookupIsView(rows[1..], user, target);
    }
  }

  lemma {:induction false} ViewDelete(rows: seq<Row>, user: UserId, target: TargetId)
    ensures View(Delete(rows, user, target)) == View(rows) - {(user, target)}
  {
    if rows != [] {
      ViewDelete(rows[1..], user, target);
    }
  }

  lemma {:induction false} ViewUpdate(rows: seq<Row>, user: UserId, target: TargetId,
                                      like: bool, stamp: Option<int>)
    ensures View(Update(rows, user, target, like, stamp))
         == if (user, target) in View(rows) then View(rows)[(user, target) := like] else View(rows)
  {
    if rows != [] {
      ViewUpdate(rows[1..], user, target, like, stamp);
      assert Update(rows, user, target, like, stamp)[1..] == Update(rows[1..], user, target, like, stamp);
    }
  }

  lemma {:induction false} ViewAppend(rows: seq<Row>, r: Row)
    requires (r.user, r.target) !in View(rows)
    ensures View(rows + [r]) == View(rows)[(r.user, r.target) := r.like]
  {
    if rows == [] {
      assert [r][1..] == [];
    } else {
      assert (rows + [r])[1..] == rows[1..] + [r];
      ViewAppend(rows[1..], r);
    }
  }

  /** Refinement: on the map view the toggle is exactly the decision table
      (insert, delete or flip the one entry), with the same action label. */
  lemma ToggleRefinesMap(t: Table, user: UserId, target: TargetId, desired: bool,
                         postId: Option<int>, now: int, stampOnFlip: bool)
    ensures var res := Toggle(t, user, target, desired, postId, now, stampOnFlip);
            var spec := ToggleMap(View(t.rows), (user, target), desired);
            View(res.0.rows) == spec.0 && res.1.action == spec.1
  {
    var stamp := if stampOnFlip then Some(now) else None;
    LookupIsView(t.rows, user, target);
    match Lookup(t.rows, user, target)
    case Some(current) =>
      if current == desired {
        ViewDelete(t.rows, user, target);
      } else {
        ViewUpdate(t.rows, user, target, desired, stamp);
      }
    case None =>
      ViewAppend(t.rows, Row(t.nextId, user, target, postId, desired, now));
  }

  /** Under the invariant every branch writes exactly one row. */
  lemma ToggleAffectsOneRow(t: Table, user: UserId, target: TargetId, desired: bool,
                            postId: Option<int>, now: int, stampOnFlip: bool)
    requires UniquePairs(t.rows)
    ensures Toggle(t, user, target, desired, postId, now, stampOnFlip).1.affectedRows == 1
  {
    UniqueSelectsOne(t.rows, user, target);
  }

  /** Toggling the same polarity twice from no reaction leaves no row, and a
      third toggle inserts one again. */
  lemma ToggleTwiceRemoves(t: Table, user: UserId, target: TargetId, desired: bool,
                           postId: Option<int>, now: int, stampOnFlip: bool)
    requires Lookup(t.rows, user, target) == None
    ensures var t1 := Toggle(t, user, target, desired, postId, now, stampOnFlip);
            var t2 := Toggle(t1.0, user, target, desired, postId, now, stampOnFlip);
            var t3 := Toggle(t2.0, user, target, desired, postId, now, stampOnFlip);
            && t1.1.action == SetLabel(desired)
            && t2.1.action == UnsetLabel(desired)
            && Lookup(t2.0.rows, user, target) == None
            && t3.1.action == SetLabel(desired)
            && Lookup(t3.0.rows, user, target) == Some(desired)
  {
    var row := Row(t.nextId, user, target, postId, desired, now);
    SelectAppend(t.rows, row, user, target);
    var t1 := Toggle(t, user, target, desired, postId, now, stampOnFlip);
    var t2 := Toggle(t1.0, user, target, desired, postId, now, stampOnFlip);
    var row3 := Row(t2.0.nextId, user, target, postId, desired, now);
    SelectAppend(t2.0.rows, row3, user, target);
  }

  // ---------------------------------------------------------------------
  // Aggregation

  /** `COUNT(CASE WHEN reaction = <like> THEN 1 END)` over the rows of one
      target. */
  function CountReactions(rows: seq<Row>, target: TargetId, like: bool): (n: nat)
    ensures n <= |rows|
  {
    if rows == [] then 0
    else (if rows[0].target == target && rows[0].like == like then 1 else 0)
         + CountReactions(rows[1..], target, like)
  }

  /** `COUNT(r.id)` over the rows of one target. */
  function CountAll(rows: seq<Row>, target: TargetId): (n: nat)
    ensures n <= |rows|
  {
    if rows == [] then 0 else (if rows[0].target == target then 1 else 0) + CountAll(rows[1..], target)
  }

  /** Every row is a like or a dislike, so the total is their sum. */
  lemma {:induction false} CountAllSplits(rows: seq<Row>, target: TargetId)
    ensures CountAll(rows, target) == CountReactions(rows, target, true) + CountReactions(rows, target, false)
  {
    if rows != [] {
      CountAllSplits(rows[1..], target);
    }
  }

  lemma {:induction false} CountAppend(rows: seq<Row>, r: Row, target: TargetId, like: bool)
    ensures CountReactions(rows + [r], target, like)
         == CountReactions(rows, target, like) + (if r.target == target && r.like == like then 1 else 0)
  {
    if rows == [] {
      assert [r][1..] == [];
    } else {
      assert (rows + [r])[1..] == rows[1..] + [r];
      CountAppend(rows[1..], r, target, like);
    }
  }

  /** Deleting the rows of a pair removes exactly the selected rows from
      every count. */
  lemma {:induction false} CountDelete(rows: seq<Row>, user: UserId, x: TargetId, target: TargetId, like: bool)
    ensures CountReactions(rows, target, like)
         == CountReactions(Delete(rows, user, x), target, like)
          + CountReactions(Select(rows, user, x), target, like)
  {
    if rows != [] {
      CountDelete(rows[1..], user, x, target, like);
      if Matches(rows[0], user, x) {
        assert ([rows[0]] + Select(rows[1..], user, x))[1..] == Select(rows[1..], user, x);
      } else {
        assert ([rows[0]] + Delete(rows[1..], user, x))[1..] == Delete(rows[1..], user, x);
      }
    }
  }

  /** Flipping the rows of a pair moves exactly the selected rows to the new
      polarity. */
  lemma {:induction false} CountUpdate(rows: seq<Row>, user: UserId, x: TargetId, newLike: bool,
                                       stamp: Option<int>, target: TargetId, like: bool)
    ensures CountReactions(Update(rows, user, x, newLike, stamp), target, like)
         == CountReactions(Delete(rows, user, x), target, like)
          + (if target == x && like == newLike then |Select(rows, user, x)| else 0)
  {
    if rows != [] {
      var r0, tail := rows[0], rows[1..];
      var u := Update(rows, user, x, newLike, stamp);
      CountUpdate(tail, user, x, newLike, stamp, target, like);
      assert u == [u[0]] + Update(tail, user, x, newLike, stamp);
      assert CountReactions(u, target, like)
          == (if u[0].target == target && u[0].like == like then 1 else 0)
             + CountReactions(Update(tail, user, x, newLike, stamp), target, like) by {
        assert u[1..] == Update(tail, user, x, newLike, stamp);
      }
      if !Matches(r0, user, x) {
        var d := Delete(rows, user, x);
        assert d == [r0] + Delete(tail, user, x);
        assert d[1..] == Delete(tail, user, x);
      }
    }
  }

  /** The effect of one toggle on the like and dislike counts of every
      target, under the invariant: only the toggled target moves, by one, as
      the decision table says. */
  lemma ToggleCounts(t: Table, user: UserId, target: TargetId, desired: bool,
                     postId: Option<int>, now: int, stampOnFlip: bool, x: TargetId, like: bool)
    requires UniquePairs(t.rows)
    ensures var after := Toggle(t, user, target, desired, postId, now, stampOnFlip).0.rows;
            var before := CountReactions(t.rows, x, like);
            var delta :=
              if x != target then 0
              else match Lookup(t.rows, user, target)
                case None => (if like == desired then 1 else 0)
                case Some(cur) =>
                  if cur == desired then (if like == desired then -1 else 0)
                  else (if like == desired then 1 else -1);
            CountReactions(after, x, like) == before + delta
  {
    var stamp := if stampOnFlip then Some(now) else None;
    var sel := Select(t.rows, user, target);
    UniqueSelectsOne(t.rows, user, target);
    CountDelete(t.rows, user, target, x, like);
    match Lookup(t.rows, user, target)
    case Some(cur) =>
      assert sel == [sel[0]];
      assert CountReactions(sel, x, like) == (if sel[0].target == x && sel[0].like == like then 1 else 0) by {
        assert sel[1..] == [];
      }
      if cur != desired {
        CountUpdate(t.rows, user, target, desired, stamp, x, like);
      }
    case None =>
      CountAppend(t.rows, Row(t.nextId, user, target, postId, desired, now), x, like);
  }
}

=== FILE: register.dfy ===
/** The registration form (`front-end/src/pages/Login/Register.tsx`): the
    field rules, where the first failing rule of a field is its error, the
    gate in front of the request, and the message for a failed request. */
module Register {

  import opened Wrappers
  import opened Text
  import opened Validation

  datatype Form = Form(username: string, email: string, password: string, confirm: string)

  /** One optional error per field; the form may be sent only when all are
      None (`Object.keys(errors).length === 0`). */
  datatype Errors = Errors(username: Option<string>, email: Option<string>,
                           password: Option<string>, confirm: Option<string>)

  predicate NoErrors(e: Errors) {
    e.username.None? && e.email.None? && e.password.None? && e.confirm.None?
  }

  // ---------------------------------------------------------------------
  // Username

  /** The class `[a-zA-Z0-9_]`. */
  predicate WordChar(c: char) {
    IsLower(c) || IsUpper(c) || IsDigit(c) || c == '_'
  }

  /** `^[a-zA-Z0-9_]+$`. */
  predicate AllWord(s: string) {
    |s| > 0 && forall k :: 0 <= k < |s| ==> WordChar(s[k])
  }

  /** Blank after trimming, then 3 to 50 characters and the character set on
      the untrimmed text. */
  function UsernameError(u: string): (e: Option<string>)
    ensures e.None? <==> !IsBlank(u) && 3 <= |u| <= 50 && AllWord(u)
    ensures IsBlank(u) ==> e == Some("Username is required")
  {
    if IsBlank(u) then Some("Username is required")
    else if |u| < 3 then Some("Username must be at least 3 characters")
    else if |u| > 50 then Some("Username is too long")
    else if !AllWord(u) then Some("Username can only contain letters, numbers, and underscores")
    else None
  }

  /** Length is measured before trimming: " ab" passes the length rule and
      then fails on the character set, while "   " is simply missing. */
  lemma UsernameRawLength()
    ensures UsernameError(" ab") == Some("Username can only contain letters, numbers, and underscores")
    ensures UsernameError("   ") == Some("Username is required")
  {
    assert LeadingSpaces(" ab") == 1;
    assert !AllWord(" ab") by {
      assert !WordChar(" ab"[0]);
    }
    assert AllSpace("   ");
  }

  // ---------------------------------------------------------------------
  // Password

  /** `.*` cannot cross a line terminator: between `p` and `i` there is
      none. */
  predicate SameLine(s: string, p: int, i: int)
    requires 0 <= p <= i <= |s|
  {
    forall k :: p <= k < i ==> !IsLineTerminator(s[k])
  }

  /** The lookahead `(?=.*X)` at position `p`. */
  predicate Ahead(s: string, p: int, x: char -> bool)
    requires 0 <= p <= |s|
  {
    exists i :: p <= i < |s| && x(s[i]) && SameLine(s, p, i)
  }

  /** `/(?=.*[a-z])(?=.*[A-Z])(?=.*\d)/.test(s)`: some position sees a lower
      case letter, an upper case letter and a digit on its line. */
  predicate Mixed(s: string) {
    exists p :: 0 <= p <= |s| && Ahead(s, p, IsLower) && Ahead(s, p, IsUpper) && Ahead(s, p, IsDigit)
  }

  predicate Has(s: string, x: char -> bool) {
    exists i :: 0 <= i < |s| && x(s[i])
  }

  /** On a single line the pattern asks only that each kind of character
      occur somewhere; in general each must occur. */
  lemma MixedMeansAllThree(s: string)
    ensures Mixed(s) ==> Has(s, IsLower) && Has(s, IsUpper) && Has(s, IsDigit)
    ensures (forall k :: 0 <= k < |s| ==> !IsLineTerminator(s[k])) ==>
              (Mixed(s) <==> Has(s, IsLower) && Has(s, IsUpper) && Has(s, IsDigit))
  {
    if (forall k :: 0 <= k < |s| ==> !IsLineTerminator(s[k])) && Has(s, IsLower) && Has(s, IsUpper) && Has(s, IsDigit) {
      var a :| 0 <= a < |s| && IsLower(s[a]);
      var b :| 0 <= b < |s| && IsUpper(s[b]);
      var c :| 0 <= c < |s| && IsDigit(s[c]);
      assert SameLine(s, 0, a) && SameLine(s, 0, b) && SameLine(s, 0, c);
      assert Ahead(s, 0, IsLower) && Ahead(s, 0, IsUpper) && Ahead(s, 0, IsDigit);
    }
  }

  /** The three kinds on different lines do not satisfy the pattern. */
  lemma MixedNeedsOneLine()
    ensures !Mixed("a\nB\n1")
  {
    var s := "a\nB\n1";
    assert IsLineTerminator(s[1]);
    forall p | 0 <= p <= |s| ensures !(Ahead(s, p, IsLower) && Ahead(s, p, IsUpper) && Ahead(s, p, IsDigit)) {
      if p == 0 {
        // the only digit is on the third line
        forall j | 0 <= j < |s| && IsDigit(s[j]) ensures !SameLine(s, 0, j) {
          assert 1 < j;
        }
      } else {
        // the only lower case letter is before `p`
        forall i | p <= i < |s| ensures !IsLower(s[i]) {
        }
      }
    }
  }

  /** Missing only when empty (not trimmed), then 6 to 128 characters, then
      the letter and digit mix. */
  function PasswordError(p: string): (e: Option<string>)
    ensures e.None? <==> 6 <= |p| <= 128 && Mixed(p)
    ensures p == "" ==> e == Some("Password is required")
  {
    if p == "" then Some("Password is required")
    else if |p| < 6 then Some("Password must be at least 6 characters")
    else if |p| > 128 then Some("Password is too long")
    else if !Mixed(p) then Some("Password must contain at least one uppercase letter, one lowercase letter, and one number")
    else None
  }

  function ConfirmError(password: string, confirm: string): (e: Option<string>)
    ensures e.None? <==> confirm != "" && confirm == password
  {
    if confirm == "" then Some("Please confirm your password")
    else if password != confirm then Some("Passwords do not match")
    else None
  }

  /** `validateForm`. */
  function Validate(f: Form): (e: Errors)
    ensures NoErrors(e) <==>
      && !IsBlank(f.username) && 3 <= |f.username| <= 50 && AllWord(f.username)
      && !IsBlank(f.email) && EmailShape(Trim(f.email)) && |f.email| <= 254
      && 6 <= |f.password| <= 128 && Mixed(f.password)
      && f.confirm == f.password
  {
    Errors(UsernameError(f.username), EmailError(f.email), PasswordError(f.password),
           ConfirmError(f.password, f.confirm))
  }

  // ---------------------------------------------------------------------
  // Submission

  /** The registration request. */
  datatype Request = Request(username: string, email: string, password: string, confirm: string)

  /** `handleSubmit`: nothing is sent while any field has an error;
      otherwise the username and the e-mail go trimmed and the passwords as
      typed. */
  function Submit(f: Form): (r: Option<Request>)
    ensures r.Some? <==> NoErrors(Validate(f))
    ensures r.Some? ==> r.value == Request(Trim(f.username), Trim(f.email), f.password, f.confirm)
  {
    if NoErrors(Validate(f)) then Some(Request(Trim(f.username), Trim(f.email), f.password, f.confirm))
    else None
  }

  /** What is sent passes the rules again: the trimmed username and e-mail
      are still valid. */
  lemma SubmittedIsValid(f: Form)
    requires Submit(f).Some?
    ensures var r := Submit(f).value;
            && UsernameError(r.username).None? && EmailError(r.email).None?
            && PasswordError(r.password).None? && ConfirmError(r.password, r.confirm).None?
  {
    var r := Submit(f).value;
    TrimIdempotent(f.email);
    TrimOfWord(f.username);
    assert |Trim(f.email)| <= |f.email|;
  }

  /** A string of word characters has no blanks to trim. */
  lemma TrimOfWord(s: string)
    requires AllWord(s)
    ensures Trim(s) == s
  {
    assert !IsSpace(s[0]);
    assert LeadingSpaces(s) == 0;
    assert !IsSpace(s[|s| - 1]);
    assert TrailingSpaces(s) == 0;
  }

  /** `handleApiError`: the first matching case wins. */
  function ApiMessage(e: ApiError, online: bool): (m: string)
    ensures e.status == Some(409) ==> m == "User already exists. Please choose a different username or email"
    ensures e.status == Some(400) ==> m == "Invalid registration data. Please check your information"
    ensures e.status.Some? && e.status.value >= 500 ==> m == "Server error. Please try again later"
    ensures (e.status.None? || (e.status.value !in {400, 409} && e.status.value < 500)) ==>
      m == (if IsNetwork(e, online) then "Network error. Please check your connection"
            else if IsTimeout(e) then "Request timeout. Please try again"
            else "Registration failed. Please try again")
  {
    if e.status == Some(409) then "User already exists. Please choose a different username or email"
    else if e.status == Some(400) then "Invalid registration data. Please check your information"
    else if e.status.Some? && e.status.value >= 500 then "Server error. Please try again later"
    else if IsNetwork(e, online) then "Network error. Please check your connection"
    else if IsTimeout(e) then "Request timeout. Please try again"
    else "Registration failed. Please try again"
  }
}

=== FILE: responsive.dfy ===
/** The responsive layout slice (`front-end/src/store/responsive/responsiveSlice.ts`):
    the device type and whether the sidebar is open. */
module Responsive {

  datatype Device = PC | Mobile | Tablet

  datatype State = State(device: Device, isOpen: bool)

  /** A desktop with the sidebar open. */
  function Initial(): (s: State)
    ensures s.device == PC && s.isOpen
  {
    State(PC, true)
  }

  /** `setType`: the sidebar is open exactly on a desktop. */
  function SetType(s: State, d: Device): (r: State)
    ensures r.device == d
    ensures r.isOpen <==> d == PC
  {
    State(d, !(d == Mobile || d == Tablet))
  }

  /** `toggleSidebar`. */
  function ToggleSidebar(s: State): (r: State)
    ensures r.device == s.device
    ensures r.isOpen == !s.isOpen
  {
    s.(isOpen := !s.isOpen)
  }

  /** Setting a type twice is setting it once, and the result does not
      depend on whether the sidebar was open. */
  lemma SetTypeIdempotent(s: State, d: Device)
    ensures SetType(SetType(s, d), d) == SetType(s, d)
    ensures SetType(s.(isOpen := !s.isOpen), d) == SetType(s, d)
  {
  }

  /** Toggling twice changes nothing. */
  lemma ToggleTwice(s: State)
    ensures ToggleSidebar(ToggleSidebar(s)) == s
  {
  }

  /** The state after a sequence of actions. */
  datatype Action = SetTypeAction(d: Device) | Toggle

  function Run(s: State, actions: seq<Action>): State
    decreases |actions|
  {
    if actions == [] then s
    else
      var next := match actions[0]
        case SetTypeAction(d) => SetType(s, d)
        case Toggle => ToggleSidebar(s);
      Run(next, actions[1..])
  }

  /** An even number of toggles in a row changes nothing. */
  lemma {:induction false} TogglePairs(s: State, n: nat)
    ensures Run(s, seq(2 * n, i => Toggle)) == s
  {
    if n > 0 {
      var acts := seq(2 * n, i => Toggle);
      assert acts[0] == Toggle && acts[1..][0] == Toggle;
      assert acts[1..][1..] == seq(2 * (n - 1), i => Toggle);
      TogglePairs(s, n - 1);
    }
  }
}

=== FILE: text.dfy ===
/** Character classes and string operations of JavaScript that the client code
    relies on: `trim`, `split`, `startsWith`, `includes`, decimal `toString`
    and `padStart`. Strings are sequences of characters; a JavaScript string
    counts UTF-16 code units, which agrees with this model except on
    characters outside the Basic Multilingual Plane. */
module Text {

  import opened Wrappers

  /** ECMAScript LineTerminator: the characters a regular expression `.`
      refuses to match. */
  predicate IsLineTerminator(c: char) {
    c == '\n' || c == '\r' || c == '\U{2028}' || c == '\U{2029}'
  }

  /** ECMAScript WhiteSpace or LineTerminator: the class `\s` of a regular
      expression and the characters `String.prototype.trim` removes. */
  predicate IsSpace(c: char) {
    || IsLineTerminator(c)
    || c == ' ' || c == '\t' || c == '\U{000B}' || c == '\U{000C}'
    || c == '\U{00A0}' || c == '\U{FEFF}' || c == '\U{1680}'
    || ('\U{2000}' <= c <= '\U{200A}')
    || c == '\U{202F}' || c == '\U{205F}' || c == '\U{3000}'
  }

  /** The class `\d` (and `[0-9]`). */
  predicate IsDigit(c: char) {
    '0' <= c <= '9'
  }

  predicate IsLower(c: char) {
    'a' <= c <= 'z'
  }

  predicate IsUpper(c: char) {
    'A' <= c <= 'Z'
  }

  predicate AllSpace(s: string) {
    forall i :: 0 <= i < |s| ==> IsSpace(s[i])
  }

  predicate AllDigits(s: string) {
    forall i :: 0 <= i < |s| ==> IsDigit(s[i])
  }

  /** Number of leading whitespace characters. */
  function LeadingSpaces(s: string): (n: nat)
    ensures n <= |s|
    ensures forall i :: 0 <= i < n ==> IsSpace(s[i])
    ensures n < |s| ==> !IsSpace(s[n])
  {
    if |s| > 0 && IsSpace(s[0]) then 1 + LeadingSpaces(s[1..]) else 0
  }

  /** Number of trailing whitespace characters. */
  function TrailingSpaces(s: string): (n: nat)
    ensures n <= |s|
    ensures forall i :: |s| - n <= i < |s| ==> IsSpace(s[i])
    ensures n < |s| ==> !IsSpace(s[|s| - n - 1])
  {
    if |s| > 0 && IsSpace(s[|s| - 1]) then 1 + TrailingSpaces(s[..|s| - 1]) else 0
  }

  /** `s.trim()`: the text between the leading and the trailing whitespace. */
  function Trim(s: string): (r: string)
    ensures |r| <= |s|
    ensures r == [] <==> AllSpace(s)
    ensures r != [] ==> !IsSpace(r[0]) && !IsSpace(r[|r| - 1])
    ensures LeadingSpaces(s) + |r| <= |s|
    ensures r == s[LeadingSpaces(s)..LeadingSpaces(s) + |r|]
    ensures AllSpace(s[..LeadingSpaces(s)])
    ensures AllSpace(s[LeadingSpaces(s) + |r|..])
  {
    var a := LeadingSpaces(s);
    if a == |s| then
      []
    else
      var b := TrailingSpaces(s);
      assert !IsSpace(s[a]);
      assert b < |s| - a;
      assert s[a + (|s| - b - a)..] == s[|s| - b..];
      s[a..|s| - b]
  }

  /** `!s.trim()`: the string is empty once trimmed. */
  predicate IsBlank(s: string) {
    Trim(s) == []
  }

  lemma TrimIdempotent(s: string)
    ensures Trim(Trim(s)) == Trim(s)
  {
    var t := Trim(s);
    if t != [] {
      assert LeadingSpaces(t) == 0;
      assert TrailingSpaces(t[..]) == 0;
    }
  }

  /** `s.startsWith(p)`. */
  predicate StartsWith(s: string, p: string) {
    |p| <= |s| && s[..|p|] == p
  }

  /** `s.includes(t)`: `t` occurs in `s` at some offset. */
  predicate Contains(s: string, t: string)
    decreases |s|
  {
    StartsWith(s, t) || (|s| > 0 && Contains(s[1..], t))
  }

  /** Number of occurrences of `c` in `s`. */
  function Count<T(==)>(s: seq<T>, c: T): (n: nat)
    ensures n <= |s|
  {
    if s == [] then 0 else (if s[0] == c then 1 else 0) + Count(s[1..], c)
  }

  /** Index of the first occurrence of `c`, if any (`s.indexOf(c)`). */
  function IndexOf(s: string, c: char): (r: Option<nat>)
    ensures r.None? <==> c !in s
    ensures r.Some? ==> r.value < |s| && s[r.value] == c && c !in s[..r.value]
  {
    if s == [] then None
    else if s[0] == c then Some(0)
    else
      var r := IndexOf(s[1..], c);
      if r.None? then None
      else
        assert s[..r.value + 1] == [s[0]] + s[1..][..r.value];
        Some(r.value + 1)
  }

  /** Pieces joined back together with `sep` between consecutive pieces
      (`parts.join(sep)`). */
  function Join(parts: seq<string>, sep: char): string
    requires |parts| >= 1
  {
    if |parts| == 1 then parts[0] else parts[0] + [sep] + Join(parts[1..], sep)
  }

  /** `s.split(sep)` for a one-character separator: the maximal pieces between
      separators, one more piece than there are separators. */
  function Split(s: string, sep: char): (parts: seq<string>)
    ensures |parts| == Count(s, sep) + 1
    ensures forall i :: 0 <= i < |parts| ==> sep !in parts[i]
    ensures Join(parts, sep) == s
    decreases |s|
  {
    match IndexOf(s, sep)
    case None =>
      NoOccurrenceCount(s, sep);
      [s]
    case Some(i) =>
      var rest := Split(s[i + 1..], sep);
      CountSplit(s, sep, i);
      assert s == s[..i] + [sep] + s[i + 1..];
      [s[..i]] + rest
  }

  /** A text without the separator is one piece. */
  lemma SplitWhole(a: string, sep: char)
    requires sep !in a
    ensures Split(a, sep) == [a]
  {
  }

  /** Splitting at the first separator. */
  lemma SplitAt(a: string, b: string, sep: char)
    requires sep !in a
    ensures Split(a + ([sep] + b), sep) == [a] + Split(b, sep)
  {
    var s := a + ([sep] + b);
    assert s[..|a|] == a;
    assert s[|a|] == sep;
    assert s[|a| + 1..] == b;
    var r := IndexOf(s, sep);
    assert r.value <= |a| by {
      assert sep in s[..|a| + 1];
    }
    assert r == Some(|a|);
  }

  lemma NoOccurrenceCount(s: string, c: char)
    requires c !in s
    ensures Count(s, c) == 0
  {
    if s != [] {
      assert c !in s[1..];
      NoOccurrenceCount(s[1..], c);
    }
  }

  lemma {:induction false} CountAppend(a: string, b: string, c: char)
    ensures Count(a + b, c) == Count(a, c) + Count(b, c)
  {
    if a == [] {
      assert a + b == b;
    } else {
      assert (a + b)[1..] == a[1..] + b;
      CountAppend(a[1..], b, c);
    }
  }

  lemma CountSplit(s: string, c: char, i: nat)
    requires i < |s| && s[i] == c && c !in s[..i]
    ensures Count(s, c) == 1 + Count(s[i + 1..], c)
  {
    assert s == s[..i] + ([c] + s[i + 1..]);
    CountAppend(s[..i], [c] + s[i + 1..], c);
    NoOccurrenceCount(s[..i], c);
    assert ([c] + s[i + 1..])[1..] == s[i + 1..];
  }

  /** The decimal digit character of a value below ten. */
  function DigitChar(d: nat): (c: char)
    requires d < 10
    ensures IsDigit(c)
  {
    ['0', '1', '2', '3', '4', '5', '6', '7', '8', '9'][d]
  }

  function DigitValue(c: char): (d: nat)
    requires IsDigit(c)
    ensures d < 10 && DigitChar(d) == c
  {
    (c as int - '0' as int) as nat
  }

  /** `n.toString()` for a non-negative integer. */
  function NatToString(n: nat): (s: string)
    ensures |s| >= 1 && AllDigits(s)
    ensures (s[0] == '0') ==> n == 0 && s == "0"
  {
    if n < 10 then [DigitChar(n)] else NatToString(n / 10) + [DigitChar(n % 10)]
  }

  /** The value of a string of decimal digits. */
  function ParseDigits(s: string): nat
    requires AllDigits(s)
  {
    if s == [] then 0 else 10 * ParseDigits(s[..|s| - 1]) + DigitValue(s[|s| - 1])
  }

  lemma {:induction false} ParseNatToString(n: nat)
    ensures ParseDigits(NatToString(n)) == n
  {
    if n >= 10 {
      var s := NatToString(n);
      assert s[..|s| - 1] == NatToString(n / 10);
      ParseNatToString(n / 10);
    }
  }

  /** `s.padStart(2, "0")`. */
  function PadStart2(s: string): (r: string)
    ensures |s| >= 2 ==> r == s
    ensures |s| < 2 ==> |r| == 2 && r[2 - |s|..] == s
  {
    if |s| >= 2 then s else seq(2 - |s|, _ => '0') + s
  }
}

=== FILE: user_slice.dfy ===
/** The signed-in user slice (`front-end/src/store/user/userSlice.ts`): the
    reducers `setUser`, `clearUser` and `logout`, and the three outcomes of
    fetching the profile. The demo avatar is an imported image, passed in
    as `demo`. Removing the cookie on logout is left to the browser layer. */
module UserSlice {

  import opened Wrappers

  /** `UserState`. `id` is None only after a fetched profile without id
      (`u.id as number` stores undefined); `avatar` and `cover` are None for
      null; `error` is None for null. */
  datatype State = State(id: Option<int>, username: string, email: string,
                         avatar: Option<string>, cover: Option<string>, admin: bool,
                         description: string, loading: bool, error: Option<string>,
                         isAuthenticated: bool, verified: bool)

  /** `Partial<UserState>` as the reducers read it: None for an absent
      field; for `avatar` and `cover` a present field may hold null. */
  datatype Partial = Partial(id: Option<int>, username: Option<string>, email: Option<string>,
                             avatar: Option<Option<string>>, cover: Option<Option<string>>,
                             admin: Option<bool>, description: Option<string>,
                             verified: Option<bool>)

  function Initial(demo: string): (s: State)
    ensures s.id == Some(0) && s.username == "" && s.email == "" && s.avatar == Some(demo)
    ensures s.cover.None? && !s.admin && s.description == ""
    ensures !s.loading && s.error.None? && !s.isAuthenticated && !s.verified
  {
    State(Some(0), "", "", Some(demo), None, false, "", false, None, false, false)
  }

  /** `x !== undefined ? x : prev`. */
  function Pick<T>(x: Option<T>, prev: T): (r: T)
    ensures x.Some? ==> r == x.value
    ensures x.None? ==> r == prev
  {
    if x.Some? then x.value else prev
  }

  /** `setUser`: the fields present in the payload are copied, the others
      kept; the user counts as signed in and the error is cleared. */
  function SetUser(s: State, u: Partial): (r: State)
    ensures r.id == (if u.id.Some? then u.id else s.id)
    ensures r.username == Pick(u.username, s.username) && r.email == Pick(u.email, s.email)
    ensures r.avatar == Pick(u.avatar, s.avatar) && r.cover == Pick(u.cover, s.cover)
    ensures r.admin == Pick(u.admin, s.admin) && r.description == Pick(u.description, s.description)
    ensures r.verified == Pick(u.verified, s.verified)
    ensures r.isAuthenticated && r.error.None? && r.loading == s.loading
  {
    State(if u.id.Some? then u.id else s.id, Pick(u.username, s.username), Pick(u.email, s.email),
          Pick(u.avatar, s.avatar), Pick(u.cover, s.cover), Pick(u.admin, s.admin),
          Pick(u.description, s.description), s.loading, None, true, Pick(u.verified, s.verified))
  }

  /** Applying the same payload again changes nothing, and an empty payload
      only signs the user in. */
  lemma SetUserIdempotent(s: State, u: Partial)
    ensures SetUser(SetUser(s, u), u) == SetUser(s, u)
    ensures SetUser(s, Partial(None, None, None, None, None, None, None, None))
            == s.(isAuthenticated := true, error := None)
  {
  }

  /** `clearUser`: the profile is blanked (the cover to "", not to the
      initial null); `loading` and `verified` are kept. */
  function ClearUser(s: State, demo: string): (r: State)
    ensures r.id == Some(0) && r.username == "" && r.email == "" && r.avatar == Some(demo)
    ensures r.cover == Some("") && !r.admin && r.description == ""
    ensures !r.isAuthenticated && r.error.None?
    ensures r.loading == s.loading && r.verified == s.verified
  {
    s.(id := Some(0), username := "", email := "", avatar := Some(demo), cover := Some(""),
       admin := false, description := "", isAuthenticated := false, error := None)
  }

  /** `logout`: the state change of `clearUser`. */
  function Logout(s: State, demo: string): (r: State)
    ensures r.id == Some(0) && r.username == "" && r.email == "" && r.avatar == Some(demo)
    ensures r.cover == Some("") && !r.admin && r.description == ""
    ensures !r.isAuthenticated && r.error.None?
    ensures r.loading == s.loading && r.verified == s.verified
  {
    State(Some(0), "", "", Some(demo), Some(""), false, "", s.loading, None, false, s.verified)
  }

  /** Logging out and clearing are the same reducer on the state, both
      idempotent, and differ from the initial state at most in the cover,
      `loading` and `verified`. */
  lemma LogoutIsClear(s: State, demo: string)
    ensures Logout(s, demo) == ClearUser(s, demo)
    ensures ClearUser(ClearUser(s, demo), demo) == ClearUser(s, demo)
    ensures ClearUser(s, demo) == Initial(demo).(cover := Some(""), loading := s.loading, verified := s.verified)
  {
  }

  /** `fetchUserProfile.pending`. */
  function Pending(s: State): (r: State)
    ensures r.loading && r.error.None?
    ensures r == s.(loading := r.loading, error := r.error)
  {
    s.(loading := true, error := None)
  }

  /** JavaScript truthiness of the three identity fields. */
  predicate Identified(u: Partial) {
    (u.id.Some? && u.id.value != 0) || (u.username.Some? && u.username.value != "")
    || (u.email.Some? && u.email.value != "")
  }

  /** `fetchUserProfile.fulfilled`: every profile field is replaced, missing
      ones by their defaults (`??`), and the user counts as signed in when
      the id, the username or the email is truthy. `error` is not touched. */
  function Fulfilled(s: State, payload: Option<Partial>, demo: string): (r: State)
    ensures var u := payload.GetOr(Partial(None, None, None, None, None, None, None, None));
            && r.id == u.id
            && r.username == u.username.GetOr("") && r.email == u.email.GetOr("")
            && r.avatar == Some(if u.avatar.Some? && u.avatar.value.Some? then u.avatar.value.value else demo)
            && r.cover == Some(if u.cover.Some? && u.cover.value.Some? then u.cover.value.value else "")
            && r.admin == u.admin.GetOr(false) && r.description == u.description.GetOr("")
            && r.verified == u.verified.GetOr(false)
            && (r.isAuthenticated <==> Identified(u))
    ensures !r.loading && r.error == s.error
  {
    var u := payload.GetOr(Partial(None, None, None, None, None, None, None, None));
    State(u.id, u.username.GetOr(""), u.email.GetOr(""),
          Some(if u.avatar.Some? && u.avatar.value.Some? then u.avatar.value.value else demo),
          Some(if u.cover.Some? && u.cover.value.Some? then u.cover.value.value else ""),
          u.admin.GetOr(false), u.description.GetOr(""), false, s.error, Identified(u),
          u.verified.GetOr(false))
  }

  /** `fetchUserProfile.rejected`. */
  function Rejected(s: State, payload: Option<string>): (r: State)
    ensures r.error == Some(payload.GetOr("Fetch profile failed"))
    ensures !r.loading && !r.isAuthenticated
    ensures r == s.(loading := false, isAuthenticated := false, error := r.error)
  {
    s.(loading := false, isAuthenticated := false, error := Some(payload.GetOr("Fetch profile failed")))
  }

  /** A fetch ends with `loading` off whichever way it goes: success leaves
      no error, failure an error, and a successful fetch depends only on the
      payload, not on the profile shown before. */
  lemma FetchOutcomes(s: State, t: State, payload: Option<Partial>, err: Option<string>, demo: string)
    ensures var ok := Fulfilled(Pending(s), payload, demo);
            !ok.loading && ok.error.None?
    ensures var bad := Rejected(Pending(s), err);
            !bad.loading && bad.error.Some? && !bad.isAuthenticated
    ensures Fulfilled(Pending(s), payload, demo) == Fulfilled(Pending(t), payload, demo)
  {
  }
}

=== FILE: users.dfy ===
/** The user model (`backend/models/User.ts`): the `users` table with its
    lookup, insert and the two id-guarded updates, and the `follow` table
    of (follower, followed) rows. */
module Users {

  import opened Wrappers

  /** A row of `users`. `description` is None when the column holds its
      default (the insert does not set it). */
  datatype UserRow = UserRow(id: nat, username: string, email: string, password: string,
                             avatar: Option<string>, cover: Option<string>,
                             description: Option<string>, admin: bool, kind: string,
                             verified: bool)

  /** The table with its auto-increment counter. */
  datatype UserTable = UserTable(rows: seq<UserRow>, nextId: nat)

  /** A `User` object. Its `id` is None when the object was built without
      one; an undefined `admin` reads as false, which `!` treats the same. */
  datatype User = User(id: Option<int>, username: string, email: string, password: string,
                       avatar: Option<string>, cover: Option<string>, description: string,
                       admin: bool, kind: string, verified: bool)

  /** `!this.id`: undefined and 0 are both refused. */
  predicate HasId(u: User) {
    u.id.Some? && u.id.value != 0
  }

  /** The object `findOne` builds from a row (`description || ""`). */
  function FromRow(r: UserRow): (u: User)
    ensures u.id == Some(r.id) && u.admin == r.admin && u.verified == r.verified
    ensures u.description == (if r.description.Some? then r.description.value else "")
  {
    User(Some(r.id), r.username, r.email, r.password, r.avatar, r.cover,
         if r.description.Some? then r.description.value else "", r.admin, r.kind, r.verified)
  }

  // ---------------------------------------------------------------------
  // findOne

  /** The criteria given to `findOne`; an absent one is None. */
  datatype Criteria = Criteria(id: Option<int>, email: Option<string>, username: Option<string>)

  predicate NoCriteria(c: Criteria) {
    c.id.None? && c.email.None? && c.username.None?
  }

  /** `WHERE id = ? OR email = ? OR username = ?` over the given criteria. */
  predicate MatchesAny(r: UserRow, c: Criteria) {
    (c.id.Some? && r.id == c.id.value)
    || (c.email.Some? && r.email == c.email.value)
    || (c.username.Some? && r.username == c.username.value)
  }

  /** The first matching row in storage order (`LIMIT 1`). */
  function FirstMatch(rows: seq<UserRow>, c: Criteria): (r: Option<UserRow>)
    ensures r.None? <==> forall i :: 0 <= i < |rows| ==> !MatchesAny(rows[i], c)
    ensures r.Some? ==> r.value in rows && MatchesAny(r.value, c)
  {
    if rows == [] then None
    else if MatchesAny(rows[0], c) then Some(rows[0])
    else
      assert forall i :: 1 <= i < |rows| ==> rows[i] == rows[1..][i - 1];
      FirstMatch(rows[1..], c)
  }

  /** `User.findOne`: null without any criterion (no query is made),
      otherwise the first row that meets one of them. */
  function FindOne(t: UserTable, c: Criteria): (r: Option<User>)
    ensures NoCriteria(c) ==> r.None?
    ensures r.Some? <==> !NoCriteria(c) && exists i :: 0 <= i < |t.rows| && MatchesAny(t.rows[i], c)
    ensures r.Some? ==> exists row :: row in t.rows && MatchesAny(row, c) && r.value == FromRow(row)
  {
    if NoCriteria(c) then None
    else
      match FirstMatch(t.rows, c)
      case None => None
      case Some(row) => Some(FromRow(row))
  }

  /** With distinct ids, looking a user up by id alone finds the row with
      that id. */
  lemma FindOneById(t: UserTable, i: int)
    requires forall a, b :: 0 <= a < b < |t.rows| ==> t.rows[a].id != t.rows[b].id
    requires 0 <= i < |t.rows|
    ensures FindOne(t, Criteria(Some(t.rows[i].id), None, None)) == Some(FromRow(t.rows[i]))
  {
    var c := Criteria(Some(t.rows[i].id), None, None);
    var r := FirstMatch(t.rows, c);
    assert MatchesAny(t.rows[i], c);
    var j :| 0 <= j < |t.rows| && t.rows[j] == r.value;
    assert t.rows[j].id == t.rows[i].id;
    forall a | 0 <= a < |t.rows| && a != i ensures t.rows[a].id != t.rows[i].id {
      if a < i {
        assert t.rows[a].id != t.rows[i].id;
      }
    }
  }

  // ---------------------------------------------------------------------
  // create

  /** `User.create`: one row with `admin` 0, and an object with the new
      id, an empty description and no verification. */
  function Create(t: UserTable, name: string, email: string, password: string, kind: string,
                  avatar: Option<string>, cover: Option<string>): (res: (UserTable, User))
    ensures |res.0.rows| == |t.rows| + 1 && res.0.rows[..|t.rows|] == t.rows
    ensures var row := res.0.rows[|t.rows|];
            row.id == t.nextId && !row.admin && !row.verified && row.description.None?
            && row.username == name && row.email == email && row.kind == kind
    ensures res.0.nextId == t.nextId + 1
    ensures res.1.id == Some(t.nextId) && !res.1.admin && res.1.description == ""
  {
    var row := UserRow(t.nextId, name, email, password, avatar, cover, None, false, kind, false);
    (UserTable(t.rows + [row], t.nextId + 1),
     User(Some(t.nextId), name, email, password, avatar, cover, "", false, kind, false))
  }

  // ---------------------------------------------------------------------
  // toggleSetAdmin and save

  /** `UPDATE users SET ... WHERE id = ?` with the new row given by `f`. */
  function UpdateWhere(rows: seq<UserRow>, id: int, f: UserRow -> UserRow): (r: seq<UserRow>)
    ensures |r| == |rows|
    ensures forall i :: 0 <= i < |rows| ==> r[i] == if rows[i].id == id then f(rows[i]) else rows[i]
  {
    seq(|rows|, i requires 0 <= i < |rows| => if rows[i].id == id then f(rows[i]) else rows[i])
  }

  /** `toggleSetAdmin`: refused without an id; otherwise the object's flag
      is negated and written to its row. */
  function ToggleSetAdmin(t: UserTable, u: User): (res: Result<(UserTable, User), string>)
    ensures !HasId(u) <==> res.Err?
    ensures res.Ok? ==> res.value.1 == u.(admin := !u.admin)
    ensures res.Ok? ==> res.value.0.nextId == t.nextId && |res.value.0.rows| == |t.rows|
    ensures res.Ok? ==> forall i :: 0 <= i < |t.rows| ==>
      res.value.0.rows[i] == if t.rows[i].id == u.id.value then t.rows[i].(admin := !u.admin) else t.rows[i]
  {
    if !HasId(u) then Err("Cannot save admin status without ID. Use User.create() for new users.")
    else
      var v := u.(admin := !u.admin);
      Ok((t.(rows := UpdateWhere(t.rows, u.id.value, (r: UserRow) => r.(admin := v.admin))), v))
  }

  /** Toggling twice restores the object's flag, and the stored flag ends
      where the object's does. */
  lemma ToggleSetAdminTwice(t: UserTable, u: User)
    requires HasId(u)
    ensures var once := ToggleSetAdmin(t, u).value;
            var twice := ToggleSetAdmin(once.0, once.1);
            && twice.Ok?
            && twice.value.1 == u
            && forall i :: 0 <= i < |t.rows| && t.rows[i].id == u.id.value ==>
                 twice.value.0.rows[i] == t.rows[i].(admin := u.admin)
  {
  }

  /** `save`: refused without an id; otherwise the profile columns of the
      object's row are overwritten, absent strings stored as "". */
  function Save(t: UserTable, u: User): (res: Result<UserTable, string>)
    ensures !HasId(u) <==> res.Err?
    ensures res.Ok? ==> res.value.nextId == t.nextId && |res.value.rows| == |t.rows|
    ensures res.Ok? ==> forall i :: 0 <= i < |t.rows| ==>
      var r := res.value.rows[i];
      if t.rows[i].id == u.id.value then
        && r.username == u.username && r.email == u.email && r.password == u.password
        && r.avatar == Some(u.avatar.GetOr("")) && r.cover == Some(u.cover.GetOr(""))
        && r.description == Some(u.description)
        && r.id == t.rows[i].id && r.admin == t.rows[i].admin && r.verified == t.rows[i].verified
      else r == t.rows[i]
  {
    if !HasId(u) then Err("Cannot save user without ID. Use User.create() for new users.")
    else
      Ok(t.(rows := UpdateWhere(t.rows, u.id.value,
        (r: UserRow) => r.(username := u.username, email := u.email, password := u.password,
                avatar := Some(Or(u.avatar)), cover := Some(Or(u.cover)),
                description := Some(u.description)))))
  }

  /** `x || ""` for an optional string. */
  function Or(s: Option<string>): (r: string)
    ensures s.Some? && s.value != "" ==> r == s.value
    ensures r == s.GetOr("")
  {
    if s.Some? then s.value else ""
  }

  // ---------------------------------------------------------------------
  // follow

  /** A row of `follow`. `follower` is None when the acting object has no
      id (the parameter is sent as NULL). */
  datatype FollowRow = FollowRow(follower: Option<int>, followed: int)

  /** `WHERE userId = ? AND followedUserId = ?`: a NULL comparison is never
      true, so an acting object without id matches no row. */
  predicate FollowMatches(r: FollowRow, me: Option<int>, x: int) {
    me.Some? && r.follower == me && r.followed == x
  }

  /** The relation the rows describe. */
  function Follows(rows: seq<FollowRow>): (s: set<(int, int)>)
    ensures forall a, b :: (a, b) in s <==> FollowRow(Some(a), b) in rows
  {
    set r | r in rows && r.follower.Some? :: (r.follower.value, r.followed)
  }

  /** `checkUserFollowed`. */
  function CheckUserFollowed(rows: seq<FollowRow>, me: Option<int>, x: int): (b: bool)
    ensures b <==> exists i :: 0 <= i < |rows| && FollowMatches(rows[i], me, x)
  {
    exists i :: 0 <= i < |rows| && FollowMatches(rows[i], me, x)
  }

  /** `followUser`: following oneself is refused before any write;
      otherwise a row is inserted, even when the pair is already there. */
  function FollowUser(rows: seq<FollowRow>, me: Option<int>, x: int): (r: Result<seq<FollowRow>, string>)
    ensures me == Some(x) <==> r.Err?
    ensures r.Ok? ==> r.value == rows + [FollowRow(me, x)]
  {
    if me == Some(x) then Err("You cannot follow yourself.")
    else Ok(rows + [FollowRow(me, x)])
  }

  /** `unfollowUser`: every row of the pair is deleted. */
  function UnfollowUser(rows: seq<FollowRow>, me: Option<int>, x: int): (r: seq<FollowRow>)
    ensures |r| <= |rows|
    ensures forall f :: f in r <==> f in rows && !FollowMatches(f, me, x)
  {
    if rows == [] then []
    else
      assert forall f :: f in rows <==> f == rows[0] || f in rows[1..];
      (if FollowMatches(rows[0], me, x) then [] else [rows[0]]) + UnfollowUser(rows[1..], me, x)
  }

  /** The check agrees with the relation. */
  lemma CheckIsMembership(rows: seq<FollowRow>, me: int, x: int)
    ensures CheckUserFollowed(rows, Some(me), x) <==> (me, x) in Follows(rows)
  {
    if (me, x) in Follows(rows) {
      var i :| 0 <= i < |rows| && rows[i] == FollowRow(Some(me), x);
      assert FollowMatches(rows[i], Some(me), x);
    }
  }

  /** Following adds exactly the pair to the relation. */
  lemma FollowAdds(rows: seq<FollowRow>, me: int, x: int)
    requires me != x
    ensures FollowUser(rows, Some(me), x).Ok?
    ensures Follows(FollowUser(rows, Some(me), x).value) == Follows(rows) + {(me, x)}
  {
  }

  /** Unfollowing removes exactly the pair from the relation, even after the
      pair was inserted more than once. */
  lemma UnfollowRemoves(rows: seq<FollowRow>, me: int, x: int)
    ensures Follows(UnfollowUser(rows, Some(me), x)) == Follows(rows) - {(me, x)}
    ensures !CheckUserFollowed(UnfollowUser(rows, Some(me), x), Some(me), x)
  {
    var r := UnfollowUser(rows, Some(me), x);
    CheckIsMembership(r, me, x);
  }

  /** Following and then unfollowing leaves the relation as it was without
      the pair; following twice needs only one unfollow. */
  lemma FollowUnfollow(rows: seq<FollowRow>, me: int, x: int)
    requires me != x
    ensures var once := FollowUser(rows, Some(me), x).value;
            var twice := FollowUser(once, Some(me), x).value;
            Follows(UnfollowUser(twice, Some(me), x)) == Follows(rows) - {(me, x)}
  {
    var once := FollowUser(rows, Some(me), x).value;
    var twice := FollowUser(once, Some(me), x).value;
    FollowAdds(rows, me, x);
    FollowAdds(once, me, x);
    UnfollowRemoves(twice, me, x);
  }
}

=== FILE: validation.dfy ===
/** Rules the three account forms share (`Register.tsx`, `Login.tsx`,
    `ForgotPassword.tsx` under `front-end/src/pages/Login/`): the e-mail
    check with its regular expression `^[^\s@]+@[^\s@]+\.[^\s@]+$`, the
    password length check of the login and reset forms, and the shape of
    an error from the HTTP client. */
module Validation {

  import opened Wrappers
  import opened Text

  // ---------------------------------------------------------------------
  // The e-mail pattern

  /** The class `[^\s@]`. */
  predicate Plain(c: char) {
    !IsSpace(c) && c != '@'
  }

  /** `[^\s@]+`. */
  predicate PlainRun(s: string) {
    |s| > 0 && forall k :: 0 <= k < |s| ==> Plain(s[k])
  }

  /** The part after the `@`: plain characters with a '.' that is neither
      the first nor the last. */
  predicate DomainShape(d: string) {
    (forall k :: 0 <= k < |d| ==> Plain(d[k])) && exists k :: 0 < k < |d| - 1 && d[k] == '.'
  }

  /** A decision procedure for the pattern: an `@` with plain text before it
      and a dotted domain after it. */
  predicate EmailShape(s: string) {
    exists i :: 0 <= i < |s| && s[i] == '@' && PlainRun(s[..i]) && DomainShape(s[i + 1..])
  }

  /** The pattern read literally: three plain runs joined by `@` and `.`. */
  ghost predicate PatternParts(s: string, a: string, b: string, c: string) {
    s == a + "@" + (b + "." + c) && PlainRun(a) && PlainRun(b) && PlainRun(c)
  }

  ghost predicate EmailPattern(s: string) {
    exists a, b, c :: PatternParts(s, a, b, c)
  }

  /** The decision procedure accepts exactly the strings the pattern
      matches. */
  lemma EmailShapeIsPattern(s: string)
    ensures EmailShape(s) <==> EmailPattern(s)
  {
    if EmailShape(s) {
      ShapeToPattern(s);
    }
    if EmailPattern(s) {
      var a, b, c :| PatternParts(s, a, b, c);
      PatternToShape(s, a, b, c);
    }
  }

  lemma ShapeToPattern(s: string)
    requires EmailShape(s)
    ensures EmailPattern(s)
  {
    var i :| 0 <= i < |s| && s[i] == '@' && PlainRun(s[..i]) && DomainShape(s[i + 1..]);
    var d := s[i + 1..];
    var k :| 0 < k < |d| - 1 && d[k] == '.';
    SplitShape(s, i, k);
  }

  /** The `@` at `i` and the dot at `k` of the domain cut the address into
      the pattern's three runs. */
  lemma SplitShape(s: string, i: nat, k: nat)
    requires i < |s| && s[i] == '@' && PlainRun(s[..i])
    requires var d := s[i + 1..]; 0 < k < |d| - 1 && d[k] == '.' && forall j :: 0 <= j < |d| ==> Plain(d[j])
    ensures EmailPattern(s)
  {
    var d := s[i + 1..];
    var a, b, c := s[..i], d[..k], d[k + 1..];
    assert d == b + "." + c;
    assert s == a + "@" + d;
    PlainSlice(d, 0, k);
    PlainSlice(d, k + 1, |d|);
    assert PatternParts(s, a, b, c);
  }

  /** A non-empty slice of plain characters is a plain run. */
  lemma PlainSlice(d: string, lo: nat, hi: nat)
    requires lo < hi <= |d|
    requires forall k :: 0 <= k < |d| ==> Plain(d[k])
    ensures PlainRun(d[lo..hi])
  {
    var r := d[lo..hi];
    forall j | 0 <= j < |r| ensures Plain(r[j]) {
      assert r[j] == d[lo + j];
    }
  }

  lemma PatternToShape(s: string, a: string, b: string, c: string)
    requires PatternParts(s, a, b, c)
    ensures EmailShape(s)
  {
    var i := |a|;
    var d := b + "." + c;
    assert s == a + "@" + d;
    assert s[..i] == a;
    assert s[i + 1..] == d;
    assert d[|b|] == '.';
    forall k | 0 <= k < |d| ensures Plain(d[k]) {
      if k < |b| {
        assert d[k] == b[k];
      } else if k > |b| {
        assert d[k] == c[k - |b| - 1];
      }
    }
    assert DomainShape(d);
    assert s[i] == '@';
  }

  /** The e-mail rule of all three forms: required once trimmed, the
      pattern on the trimmed text, then at most 254 characters untrimmed. */
  function EmailError(email: string): (e: Option<string>)
    ensures e.None? <==> !IsBlank(email) && EmailShape(Trim(email)) && |email| <= 254
    ensures IsBlank(email) ==> e == Some("Email is required")
    ensures !IsBlank(email) && !EmailShape(Trim(email)) ==> e == Some("Please enter a valid email address")
  {
    if IsBlank(email) then Some("Email is required")
    else if !EmailShape(Trim(email)) then Some("Please enter a valid email address")
    else if |email| > 254 then Some("Email address is too long")
    else None
  }

  /** Surrounding blanks are forgiven by the pattern but counted by the
      length limit: a valid address padded with spaces past 254 characters
      is refused as too long. */
  lemma EmailPaddingCounts(email: string, pad: nat)
    requires EmailError(email).None? && |email| + pad > 254
    requires email != [] && !IsSpace(email[0]) && !IsSpace(email[|email| - 1])
    ensures EmailError(email + seq(pad, _ => ' ')) == Some("Email address is too long")
  {
    var padded := email + seq(pad, _ => ' ');
    TrimPadded(email, pad);
  }

  lemma TrimPadded(s: string, pad: nat)
    requires s != [] && !IsSpace(s[0]) && !IsSpace(s[|s| - 1])
    ensures Trim(s + seq(pad, _ => ' ')) == Trim(s) == s
  {
    var p := s + seq(pad, _ => ' ');
    assert LeadingSpaces(p) == 0;
    assert LeadingSpaces(s) == 0;
    TrailingPad(s, pad);
    assert TrailingSpaces(s) == 0;
  }

  lemma {:induction false} TrailingPad(s: string, pad: nat)
    requires s != [] && !IsSpace(s[|s| - 1])
    ensures TrailingSpaces(s + seq(pad, _ => ' ')) == pad
  {
    if pad > 0 {
      var p := s + seq(pad, _ => ' ');
      assert p[..|p| - 1] == s + seq(pad - 1, _ => ' ');
      TrailingPad(s, pad - 1);
    } else {
      assert s + seq(pad, _ => ' ') == s;
    }
  }

  // ---------------------------------------------------------------------
  // The password length rule of the login and reset forms

  /** Required once trimmed, then 6 to 128 characters untrimmed. */
  function PasswordLengthError(password: string): (e: Option<string>)
    ensures e.None? <==> !IsBlank(password) && 6 <= |password| <= 128
    ensures IsBlank(password) ==> e == Some("Password is required")
  {
    if IsBlank(password) then Some("Password is required")
    else if |password| < 6 then Some("Password must be at least 6 characters")
    else if |password| > 128 then Some("Password is too long")
    else None
  }

  // ---------------------------------------------------------------------
  // Errors from the HTTP client

  /** What the error handlers read from a failed request:
      `response?.status`, `code`, `message`, and the server's
      `response?.data?.message` and `response?.data?.error`. */
  datatype ApiError = ApiError(status: Option<int>, code: Option<string>, message: Option<string>,
                               dataMessage: Option<string>, dataError: Option<string>)

  /** `code === "NETWORK_ERROR" || !navigator.onLine`. */
  predicate IsNetwork(e: ApiError, online: bool) {
    e.code == Some("NETWORK_ERROR") || !online
  }

  /** `message?.includes("timeout")`. */
  predicate IsTimeout(e: ApiError) {
    e.message.Some? && Contains(e.message.value, "timeout")
  }

  /** JavaScript truthiness of an optional string. */
  predicate Truthy(s: Option<string>) {
    s.Some? && s.value != ""
  }
}

=== FILE: wrappers.dfy ===
/** Failure-carrying result types shared by every module of the model. */
module Wrappers {

  /** A value that may be missing: SQL NULL, a JavaScript `null`/`undefined`,
      or a lookup that found nothing. */
  datatype Option<+T> = None | Some(value: T) {

    /** The value, or `default` when there is none (JavaScript's `??`). */
    function GetOr(default: T): (r: T)
      ensures Some? ==> r == value
      ensures None? ==> r == default
    {
      match this
      case Some(v) => v
      case None => default
    }
  }

  /** The outcome of an operation that may throw: a value or an error. */
  datatype Result<+R, +E> = Ok(value: R) | Err(error: E)
}
